=== FILE: README.md ===
# ControlReg front end — a Dafny model of its decision logic

ControlReg is a small admin front end for sales records. It has clients, products, sales with
installments, salesmen (users) and companies, and sits over a GraphQL API. This project models
the parts of the front end that decide something:

- the route guard and the route table;
- the session store that keeps the sign-in token;
- the form schemas and what each form's submit sends, shows and reloads;
- the currency-price recogniser;
- the list-and-paginate controller that every list page and both dashboard reports repeat;
- the Sale page's reload flag and the paid toggles;
- the installment table's ordering and expiry marks;
- the Select component's value extraction and preselection;
- the page handlers that fill the modal (edit, create, purchases, salesmen) and the cellphone
  column's formatting.

Remote calls, confirmations and the token decoder are inputs. A handler's visible effects
(requests sent, toasts, modal closes, refetches, rows loaded) are returned as a log of
`Api.Effect` values. React's effect re-runs are modelled by `ListController.Settle`: an effect
runs when its dependency list differs from the one it last ran for.

Modules, one per file:

| module | models |
|---|---|
| `Wrappers` | `Option`, `Result`, `Unit` |
| `JsText` | the JavaScript string operations used: truthiness, `parseInt(s, 10)`, `trim`, first-occurrence `replace`, decimal rendering of integers |
| `PricePattern` | the price regular expression, as a grammar and as a recogniser proved equivalent |
| `Feedback` | toasts and the `replace('GraphQL error:', ' ').trim()` message cleanup |
| `Api` | request payloads, list variables and Apollo's variable merge, the effect log and its projections |
| `Schema` | the validation library's tests as the forms use them |
| `Forms` | each form's schema and error messages |
| `SelectField` | the Select component |
| `Submit` | each form's submit handler |
| `ListController` | pagination state, the fetch effect, rows-per-page, page change, search, delete |
| `SaleList` | the Sale page: reload flag (as written and corrected), paid toggle, payment captions |
| `Installments` | the installment table |
| `Session` | the authentication provider |
| `RouteGuard` | the guard and the route table |
| `Pages` | modal handlers, cellphone formatting, password reset, profile initial data, delete titles |

Some behaviours of the code worth knowing, each proved about the model:

- The rows-per-page handler leaves `pageIndex` unchanged (`ListController.ChangeRowsPerPage`).
- The delete refetch asks for offset 0 but leaves `pageIndex` alone, so the table can report
  another page than the rows it shows (`ListController.DeleteLeavesPageIndex`).
- A search keeps the current page index (`ListController.SearchKeepsPageIndex`).
- The delete refetch passes no search text, and Apollo's `refetch` lays the new variables over
  the previous ones, so the last search stays in force (`ListController.DeleteKeepsSearch`).
- The delete handler keeps its first render's page size, so after a rows-per-page change it
  loads a first page of 10 rows (`ListController.DeleteAfterResizeAsWritten`; see Findings).

## Model

| member | source | states |
|---|---|---|
| RouteGuard.Guard | src/routes/Route.tsx:16-43 | renders iff `isPrivate` (default false) equals "signed in" and not (`isAdmin`, default false, and the type is not "admin"); a redirect goes to "/" from a private route and to "dashboard" from a public one |
| RouteGuard.SignedOnPublicGoesToDashboard | src/routes/Route.tsx:32-36 | a signed-in user on a public route, `isPrivate` absent or false, is sent to "dashboard" |
| RouteGuard.VisitorOnPrivateGoesToLanding | src/routes/Route.tsx:32-36 | a visitor without a token on a private route is sent to "/" |
| RouteGuard.NonAdminBouncesThroughLanding | src/routes/Route.tsx:26-36 | a signed-in non-admin on "/vendedor" or "/empresa" goes to "/" first, then to "dashboard", which renders |
| RouteGuard.Lookup | src/routes/index.tsx:17-24 | finds the route declared for a path, or reports that none is |
| RouteGuard.LookupIn | src/routes/index.tsx:17-24 | the found entry is in the table with that path; "none" means no entry has it |
| RouteGuard.Visit | src/routes/index.tsx:17-24 | a declared path gets its guard's decision; an undeclared one gets none |
| RouteGuard.LookupLanding | src/routes/index.tsx:17 | "/" finds the sign-in route |
| RouteGuard.LookupDashboard | src/routes/index.tsx:18 | "/dashboard" finds the dashboard route |
| RouteGuard.LookupAdminPage | src/routes/index.tsx:19-23 | "/vendedor" and "/empresa" find routes that are admin-only and private |
| RouteGuard.LandingIsOnlyPublicRoute | src/routes/index.tsx:17-24 | "/" is the only public route and the only exact one |
| RouteGuard.AdminRoutes | src/routes/index.tsx:17-24 | the admin routes are exactly "/vendedor" and "/empresa", and both are private |
| RouteGuard.PrivateReach | src/routes/index.tsx:18-24 | a signed-in admin reaches every private route; a signed-in non-admin reaches exactly those other than "/vendedor" and "/empresa" |
| RouteGuard.PathsDistinct | src/routes/index.tsx:17-24 | no path is declared twice |
| RouteGuard.IsSigned | src/routes/Route.tsx:24 | `!!token`: a token is present and non-empty (a predicate; no contract) |
| RouteGuard.Resolve | src/routes/Route.tsx:32-36 | both redirect targets land on a declared route that is not admin-only; other paths are unchanged |
| Session.Mount | src/hooks/auth.tsx:33-35 | the initial token is the stored value under "@ControlReg:jwtToken", or none |
| Session.SignIn | src/hooks/auth.tsx:37-40 | stores the token under the key and in memory; every other key is untouched |
| Session.SignOut | src/hooks/auth.tsx:42-45 | removes the key and the token; every other key is untouched |
| Session.GetUser | src/hooks/auth.tsx:47-53 | the empty user without a (non-empty) token, else the decoded token's user |
| Session.TypeUser | src/hooks/auth.tsx:55-61 | "" without a (non-empty) token, else the decoded user's type |
| Session.TypeUserOfUser | src/hooks/auth.tsx:47-61 | with a token, the user type is `getUser`'s type |
| Session.SignOutIdempotent | src/hooks/auth.tsx:42-45 | signing out twice is signing out once |
| Session.SignInThenOut | src/hooks/auth.tsx:37-45 | sign-in then sign-out leaves no token stored, from any state |
| Session.SessionPersists | src/hooks/auth.tsx:33-45 | remounting after sign-in restores that session; after sign-out it restores none |
| JsText.ParseIntRoundTrip | src/pages/Client/ClientSave/index.tsx:112 | `parseInt` of an integer's decimal text gives the integer back |
| JsText.ParseIntStopsAtNonDigit | src/pages/Product/ProductSave/index.tsx:213 | `parseInt` reads the leading digits and ignores the rest, so "2.5" gives 2 |
| JsText.ParseInt | src/pages/Product/ProductSave/index.tsx:213 | NaN when the trimmed text starts with neither a sign nor a digit; a negative result needs a leading "-" |
| JsText.ParseIntNumeral | src/pages/Product/ProductSave/index.tsx:213 | a plain numeral parses to its decimal value |
| JsText.Utf16Length | src/pages/Product/ProductSave/index.tsx:189-190 | the `length` a `max` test compares: UTF-16 code units, between the code-point count and twice it |
| JsText.Utf16LengthAppend | src/pages/Product/ProductSave/index.tsx:189-190 | the code units of a concatenation add up |
| JsText.Utf16LengthIsLength | src/pages/Product/ProductSave/index.tsx:189-190 | `length` equals the code-point count exactly when no code point is astral |
| JsText.Utf16LengthAllAstral | src/pages/Product/ProductSave/index.tsx:189-190 | a string of astral code points has twice as many code units |
| JsText.ParseIntSkipsWhitespace | src/pages/Product/ProductSave/index.tsx:213 | leading whitespace does not change `parseInt`'s result |
| JsText.LeadingDigits | src/pages/Product/ProductSave/index.tsx:213 | the longest digit prefix that `parseInt` reads |
| JsText.Trim | src/pages/Sale/index.tsx:190 | the text minus its leading and trailing ECMAScript whitespace |
| JsText.TrimStartSkips | src/pages/Sale/index.tsx:190 | whitespace prepended to a text is removed by the left trim |
| JsText.TrimSkipsLeadingWhitespace | src/pages/Sale/index.tsx:190 | whitespace prepended to a text does not change its trim |
| JsText.IndexOf | src/pages/Sale/index.tsx:190 | the first position where the pattern occurs, or none when it does not occur |
| JsText.ReplaceFirst | src/pages/Sale/index.tsx:190 | replaces the first occurrence only, and leaves a text without the pattern unchanged |
| Feedback.CleanError | src/pages/Sale/index.tsx:190 | no longer than the message, with no whitespace at either end |
| Feedback.CleanErrorStripsPrefix | src/pages/Client/ClientSave/index.tsx:154 | a message starting "GraphQL error:" is shown as the trimmed rest |
| Feedback.CleanErrorWithoutPrefix | src/pages/Client/ClientSave/index.tsx:154 | a message without the prefix is only trimmed |
| Feedback.ValidationToasts | src/pages/Client/ClientSave/index.tsx:138-149 | one "Erro no cadastro" toast per validation message, in order, with the message as description |
| PricePattern.IsPrice | src/pages/Sale/SaleSave/index.tsx:182 | the recogniser accepts exactly the strings the price pattern matches |
| PricePattern.RecogniserSound | src/pages/Sale/SaleSave/index.tsx:182 | whatever the recogniser's split accepts matches the pattern |
| PricePattern.RecogniserComplete | src/pages/Sale/SaleSave/index.tsx:182 | whatever matches the pattern passes the recogniser's split |
| PricePattern.AcceptsGroupedPrice | src/pages/Sale/SaleSave/index.tsx:182 | "1,000.50" is a price |
| PricePattern.RejectsUngroupedThousands | src/pages/Sale/SaleSave/index.tsx:182 | "1000" is not: four digits need a thousands comma |
| PricePattern.RejectsThreeDecimals | src/pages/Sale/SaleSave/index.tsx:182 | "0.123" is not: at most two decimals |
| PricePattern.RejectsDigitless | src/pages/Sale/SaleSave/index.tsx:182 | "" and "$" are not: the lookahead needs a digit |
| Schema.Check | src/pages/Client/ClientSave/index.tsx:83-97 | a test yields its message exactly when it fails |
| Schema.Required | src/pages/Client/ClientSave/index.tsx:84 | a required string fails when absent or empty |
| Schema.Matches | src/pages/Client/ClientSave/index.tsx:86 | a pattern test fails exactly on a present value the pattern rejects |
| Schema.MaxLength | src/pages/Product/ProductSave/index.tsx:190 | fails exactly on a present value whose JavaScript `length` (UTF-16 code units) exceeds the limit; always on one with more code points than the limit |
| Schema.Email | src/pages/User/UserSave/index.tsx:159 | skips absent and empty values, else fails when the address test fails |
| Schema.OneOfRef | src/pages/User/UserSave/index.tsx:165-168 | passes when absent or equal to the referenced field |
| Schema.MinItems | src/pages/User/UserSave/index.tsx:160 | fails exactly when fewer than the minimum are selected |
| Schema.RemoveWhitespace | src/pages/Product/ProductSave/index.tsx:185 | the number cast's whitespace removal: no whitespace remains; blank input becomes "" |
| Schema.TextToNumber | src/pages/Product/ProductSave/index.tsx:185 | blank text casts to NaN |
| Schema.IntegerNumber | src/pages/Product/ProductSave/index.tsx:192-195 | NaN gives only the type error; a number fails exactly when not an integer |
| Schema.AtLeastNumber | src/pages/Product/ProductSave/index.tsx:185-188 | NaN gives only the type error; a number fails exactly when below the minimum |
| Forms.SelectionNumber | src/components/Select/index.tsx:48-52 | an empty single select reads as NaN; a picked id as that number |
| Forms.SelectionErrors | src/pages/Sale/SaleSave/index.tsx:186-193 | an id select passes exactly when something is picked; empty gives the type-error message |
| Forms.IsCellphone | src/pages/Client/ClientSave/index.tsx:86 | the cellphone pattern: eight or nine digits and nothing else (a predicate; no contract) |
| Forms.ClientErrors | src/pages/Client/ClientSave/index.tsx:83-88 | name required; cellphone required and 8 or 9 digits; each message exactly when its test fails |
| Forms.CompanyErrors | src/pages/Company/CompanySave/index.tsx:82-84 | the name is the only test, and it is required |
| Forms.ProductErrors | src/pages/Product/ProductSave/index.tsx:177-196 | the product form is valid exactly when name, price, amount, category and company all pass |
| Forms.ProductTextErrors | src/pages/Product/ProductSave/index.tsx:178-184 | name required; price required and recognised as a price |
| Forms.ProductAmountErrors | src/pages/Product/ProductSave/index.tsx:185-188 | amount must cast to a number of at least 1 |
| Forms.ProductCategoryErrors | src/pages/Product/ProductSave/index.tsx:189-191 | the category is required and at most 128 UTF-16 code units long; each of its two messages appears exactly when its test fails |
| Forms.ProductMessages | src/pages/Product/ProductSave/index.tsx:178-184 | each name and price message appears exactly when its test fails |
| Forms.ProductNumberMessages | src/pages/Product/ProductSave/index.tsx:185-195 | the amount messages appear exactly when the amount fails; the company's typeError exactly when no company is picked, and its integer and required messages never |
| Forms.ProductCategoryMessages | src/pages/Product/ProductSave/index.tsx:189-191 | in the whole product form, the category messages appear exactly when their tests fail (length in UTF-16 code units); the company's are stated by `Forms.ProductNumberMessages` |
| Forms.AstralCategoryTooLong | src/pages/Product/ProductSave/index.tsx:189-190 | a category of 65 to 128 emoji (astral code points) is reported too long, since each counts two |
| Forms.SaleErrors | src/pages/Sale/SaleSave/index.tsx:179-201 | only price, client and product are validated |
| Forms.PasswordErrors | src/pages/User/UserSave/index.tsx:161-168 | password required exactly when the id is falsy; the confirmation must equal it or be absent |
| Forms.IdentityErrors | src/pages/User/UserSave/index.tsx:157-159 | name required; email required and, when present, well formed; each message exactly when its test fails, and no other message |
| Forms.UserErrors | src/pages/User/UserSave/index.tsx:157-169 | name, email (present and well formed) and at least one company, plus the password rule; each message exactly when its test fails |
| Forms.ProfileErrors | src/pages/Profile/index.tsx:59-70 | the user schema without companies, with both password inputs always present |
| Forms.ClientReportsEveryFailure | src/pages/Client/ClientSave/index.tsx:92-97 | an empty client form reports the name and the cellphone failures, not just the first |
| Forms.CellphoneExamples | src/pages/Client/ClientSave/index.tsx:86 | 8 and 9 digits pass; 7 and 10 digits and a dash do not |
| Forms.EditingNeverRequiresPassword | src/pages/User/UserSave/index.tsx:161-164 | with an id present the password is never required |
| Forms.SaleValidationIgnoresPayment | src/pages/Sale/SaleSave/index.tsx:196-201 | amount, date and method of payment never change the sale form's errors |
| Forms.ProfileAgreesWithUser | src/pages/Profile/index.tsx:59-70 | with a company selected, the user schema reports exactly the profile schema's messages for the same fields |
| SelectField.SingleValue | src/components/Select/index.tsx:48-52 | "" (blank) when nothing is selected, else the first selection's value |
| SelectField.MultiValue | src/components/Select/index.tsx:38-45 | [] when nothing is selected, else the selected values in order |
| SelectField.OptionsFrom | src/pages/Sale/SaleSave/index.tsx:145-161 | each record becomes the choice {value: id, label: name}, in order |
| SelectField.WithValue | src/components/Select/index.tsx:60-63 | keeps exactly the options whose value equals the default, each as often as offered, in the options' order (a subsequence of the options) |
| SelectField.WithValueIn | src/components/Select/index.tsx:66-70 | keeps exactly the options whose value is the id of some default record, each as often as offered, in the options' order (a subsequence of the options) |
| SelectField.PreselectedValues | src/components/Select/index.tsx:43-70 | the values a multi select hands back after preselection are the offered values among the default's ids, in the options' order |
| SelectField.PreselectSingle | src/components/Select/index.tsx:58-63 | recomputed only for a truthy default; then the matching options, each as often as offered, in the options' order |
| SelectField.PreselectMulti | src/components/Select/index.tsx:58-72 | recomputed only for a present default list; then the options it names, each as often as offered, in the options' order |
| SelectField.EmptyMultiDefaultHides | src/components/Select/index.tsx:79 | an empty default list hides the widget |
| SelectField.UnmatchedSingleDefaultHides | src/components/Select/index.tsx:79 | a default that matches no option hides the widget |
| SelectField.NoDefaultRenders | src/components/Select/index.tsx:79 | without a default the widget always renders |
| SelectField.Renders | src/components/Select/index.tsx:79 | the widget is drawn when something is preselected or the default is falsy (a predicate; no contract) |
| Api.Merge | src/pages/Client/index.tsx:198-206 | refetch variables: each given field replaces, each omitted one keeps its last value |
| Api.FirstPage | src/pages/Client/index.tsx:198-201 | a first-page refetch asks for offset 0 at the limit it is given and keeps the last search; the save handlers pass the current page size, the delete handler the initial one |
| Api.ShownIsToastsAndFailures | src/pages/Client/index.tsx:207-219 | the toasts shown are the notifications plus one "Erro no cadastro" toast per failed call |
| Api.RequestsAreSends | src/pages/Client/ClientSave/index.tsx:100-119 | a request is in the log's requests iff the log sends it |
| Api.FailuresAreFails | src/pages/Client/ClientSave/index.tsx:151-155 | a message is in the log's failures iff the log reports it |
| Submit.NotifyAll | src/pages/Client/ClientSave/index.tsx:138-149 | a log of toasts only, showing exactly the given ones |
| Submit.SubmitFlow | src/pages/Client/ClientSave/index.tsx:92-156 | invalid: only validation toasts and no request; mutation error: the request and one failure toast; success: the request then the saved part; a modal close only after validation passed; with the early close, the log opens with the close and then the send |
| Submit.SavedTail | src/pages/Client/ClientSave/index.tsx:121-136 | after a save: one success toast, a first-page refetch, and a failure when the refetch fails |
| Submit.SavedTailEffects | src/pages/Client/ClientSave/index.tsx:121-136 | the saved part resets the form, closes the modal, refetches the first page, and loads rows and count on data |
| Submit.SuccessTitle | src/pages/Client/ClientSave/index.tsx:108-118 | "Cadastro realizado com sucesso!" exactly when the id is falsy |
| Submit.ClientRequest | src/pages/Client/ClientSave/index.tsx:100-119 | create iff the id is falsy, else update with `parseInt(id)`; name and cellphone as typed |
| Submit.SubmitClient | src/pages/Client/ClientSave/index.tsx:80-159 | invalid: the validation toasts, no request and no modal close; valid: the modal closes first, then exactly the create or update is sent |
| Submit.CompanyRequest | src/pages/Company/CompanySave/index.tsx:96-113 | create iff the id is falsy, else update with `parseInt(id)` |
| Submit.SubmitCompany | src/pages/Company/CompanySave/index.tsx:80-150 | invalid: the validation toast, no request and no modal close; valid: the modal closes first, then exactly the create or update is sent |
| Submit.SelectedId | src/pages/Product/ProductSave/index.tsx:215 | `parseInt` of a picked id is that id; a blank select gives none |
| Submit.ProductRequest | src/pages/Product/ProductSave/index.tsx:208-233 | create iff the id is falsy, else update; amount and company go through `parseInt` in both |
| Submit.SubmitProduct | src/pages/Product/ProductSave/index.tsx:171-270 | the product submit |
| Submit.SaleAmount | src/pages/Sale/SaleSave/index.tsx:205-210 | 1 when paying "avista", whatever the field holds; else `parseInt` of the field, NaN when the field is hidden |
| Submit.ChooseMethod | src/pages/Sale/SaleSave/index.tsx:258-260 | the amount input is visible iff the method just chosen is not "avista" (no contract; `AmountVisible` states it over a sequence of choices) |
| Submit.AmountVisible | src/pages/Sale/SaleSave/index.tsx:258-260 | the amount input shows at first and afterwards iff the last chosen method is not "avista" |
| Submit.HiddenAmountSendsOne | src/pages/Sale/SaleSave/index.tsx:205 | when the amount input is hidden because of "avista", the sale sends amount 1 |
| Submit.SaleRequest | src/pages/Sale/SaleSave/index.tsx:207-216 | always a create, with the picked client and product ids |
| Submit.SubmitSale | src/pages/Sale/SaleSave/index.tsx:173-256 | the sale submit, which never updates |
| Submit.UserRequest | src/pages/User/UserSave/index.tsx:180-204 | create with the password iff the id is falsy, else update without one; the type is always "salesman" |
| Submit.SubmitUser | src/pages/User/UserSave/index.tsx:151-245 | the user submit; its modal closes only after the mutation succeeded |
| Submit.ProfileRequest | src/pages/Profile/index.tsx:79-88 | always an update with `parseInt(id)` and the signed-in user's own type |
| Submit.SubmitProfile | src/pages/Profile/index.tsx:53-116 | the profile submit: the notice toast on success; no modal, refetch or reset |
| Submit.EditUpdatesSameClient | src/pages/Client/ClientSave/index.tsx:109-116 | a form holding a client's id updates that client |
| Submit.SavedListShowsFirstPage | src/pages/Client/ClientSave/index.tsx:130-136 | a successful save ends by loading the first page's rows and count |
| Submit.FailedSaveOnlyNotifies | src/pages/Company/CompanySave/index.tsx:131-150 | a failed mutation shows one failure toast and reloads nothing |
| ListController.InitList | src/pages/Client/index.tsx:103-128 | a list page starts with page 1 of 10 rows, no rows, an empty search, and the fetch effect still to run |
| ListController.InitReport | src/pages/Dashboard/Reports/ParcelExpired/index.tsx:47-62 | a report starts with undefined rows, page 1 of 5, no search |
| ListController.Offset | src/pages/Sale/index.tsx:344 | the first page starts at row 0, and no page of a non-negative size starts before it |
| ListController.FetchVars | src/pages/Sale/index.tsx:343-347 | offset `(pageIndex-1)*pageSize`, limit `pageSize`, and the search text when the page has one |
| ListController.RunFetch | src/pages/Sale/index.tsx:341-357 | rows and count change only on data, to the answer's |
| ListController.Settle | src/pages/Client/index.tsx:295-310 | the effect fetches once when its dependencies changed, and not at all otherwise |
| ListController.ChangeRowsPerPage | src/pages/Sale/index.tsx:330-339 | default page 1, reset flag set, the new size; the page index stays |
| ListController.ChangePage | src/pages/Client/index.tsx:312-314 | moves to the given page, nothing else |
| ListController.Search | src/pages/Client/index.tsx:316-318 | sets the search text, nothing else |
| ListController.DeleteAt | src/pages/Sale/index.tsx:151-195 | a delete handler refetching `limit` rows: after confirmation delete, refetch the first page at that limit, and replace rows, count and toast only on data; failures reported; without confirmation nothing |
| ListController.DeleteFlow | src/pages/Sale/index.tsx:151-196 | as written: `handleDelete` is memoised on `[openModal]`, which never changes, so its refetch always asks for the initial 10 rows; page size and index stay as they are |
| ListController.DeleteFlowCorrected | src/pages/Sale/index.tsx:151-196 | corrected: the refetch asks for the current page size, so the loaded page has the table's size |
| ListController.MountRefetchesDeclaredVariables | src/pages/Client/index.tsx:124-128 | the mount fetch sends the query's declared variables again |
| ListController.PagesTile | src/pages/Sale/index.tsx:344 | page 1 starts at offset 0 and each page starts one page size after the previous |
| ListController.PagesDisjoint | src/pages/Sale/index.tsx:344 | two different pages never share a row |
| ListController.SettledFetchMatchesTable | src/pages/Client/index.tsx:295-310 | after the effect, the query's variables are exactly the page the table reports |
| ListController.RowsPerPageRefetch | src/pages/Client/index.tsx:284-310 | a rows-per-page change refetches iff the size changed |
| ListController.PageChangeFetchesThatPage | src/pages/Client/index.tsx:295-314 | a page change fetches that page once |
| ListController.SearchKeepsPageIndex | src/pages/Client/index.tsx:295-318 | a new search is fetched at the current page index |
| ListController.SettleIdempotent | src/pages/Client/index.tsx:295-310 | a settled page does not fetch again |
| ListController.DeleteKeepsSearch | src/pages/Client/index.tsx:198-201 | the delete refetch keeps the last search text, at offset 0 and the initial limit |
| ListController.DeleteAfterResizeAsWritten | src/pages/Sale/index.tsx:171-196 | as written: after the rows per page change to n ≠ 10, a delete loads a 10-row first page while the table's size stays n, and no effect run repairs it |
| ListController.DeleteAfterResizeCorrected | src/pages/Sale/index.tsx:171-196 | corrected: after the same resize the delete loads n rows, the table's size |
| ListController.DeleteLeavesPageIndex | src/pages/Client/index.tsx:198-206 | after a delete the page index is unchanged while the first page's rows are shown |
| ListController.TableShown | src/pages/Dashboard/Reports/ParcelExpired/index.tsx:137 | a report table is drawn once its rows are defined (a predicate; no contract) |
| ListController.ReportTableAppears | src/pages/Dashboard/Reports/ProductEnded/index.tsx:114 | the report table is hidden until a fetch returns data |
| ListController.TableStaysShown | src/pages/Dashboard/Reports/ParcelExpired/index.tsx:85-88 | once shown, the report table stays shown |
| SaleList.InitLoad | src/pages/Sale/index.tsx:124 | the reload flag starts undefined, with the effect still to run |
| SaleList.HandleLoad | src/pages/Sale/index.tsx:199-201 | raises the flag, nothing else |
| SaleList.RunLoadFetch | src/pages/Sale/index.tsx:341-357 | one effect run: the list fetch, and the flag lowered only on data |
| SaleList.SettleAsWritten | src/pages/Sale/index.tsx:341-357 | the effect re-runs until settled, with at most two fetches |
| SaleList.ReloadFetchesTwiceAsWritten | src/pages/Sale/index.tsx:349-357 | as written, a reload fetches the page twice |
| SaleList.MountFetchesTwiceAsWritten | src/pages/Sale/index.tsx:341-357 | as written, the mount fetches twice |
| SaleList.FlagStuckAfterEmptyAnswer | src/pages/Sale/index.tsx:349-352 | as written, a reload answered without data leaves the flag raised |
| SaleList.ReloadLostAsWritten | src/pages/Sale/index.tsx:349-357 | as written, with the flag stuck the next reload fetches nothing |
| SaleList.InitReload | src/pages/Sale/index.tsx:124 | corrected: the reload counter starts at 0 |
| SaleList.Reload | src/pages/Sale/index.tsx:199-201 | corrected: every reload request changes the effect's dependencies |
| SaleList.SettleReload | src/pages/Sale/index.tsx:341-357 | corrected: one run settles the effect, with at most one fetch |
| SaleList.ReloadFetchesOnce | src/pages/Sale/index.tsx:341-357 | corrected: every reload fetches the current page exactly once, whatever the answer |
| SaleList.MountFetchesOnce | src/pages/Sale/index.tsx:341-357 | corrected: the mount fetches once |
| SaleList.PaidSaleRequest | src/pages/Sale/index.tsx:216-221 | sends the row's id parsed in base 10 and the negation of "shown as paid" |
| SaleList.ToggleFlow | src/pages/Sale/index.tsx:203-238 | the log of a toggle on a list page: nothing without confirmation; after confirmation send; on success ask for a reload, then a toast titled with the server's message; on error a failure toast; a reload is asked for exactly when the toggle was confirmed and accepted |
| SaleList.PaidSaleFlow | src/pages/Sale/index.tsx:203-238 | the sale toggle sends its request; on success `handleLoad` raises the `load` flag and changes nothing else |
| SaleList.PaidSaleRefetchAsWritten | src/pages/Sale/index.tsx:199-223 | as written, an accepted toggle on a settled page fetches twice when the flag was lowered and not at all when it was left raised |
| SaleList.ToggleReload | src/pages/Sale/index.tsx:203-238 | corrected: the same toggle, whose accepted outcome bumps the reload counter and otherwise leaves the page state alone |
| SaleList.ToggleFetchesOnceCorrected | src/pages/Sale/index.tsx:199-223 | corrected: with the reload counter, an accepted toggle fetches the page it shows exactly once |
| SaleList.ToggleTwiceRestores | src/pages/Sale/index.tsx:216-221 | if the server stores an accepted toggle as "true"/"false" text (`StorePaid`, an assumption about the API), toggling again asks for the original state, on the same sale |
| SaleList.MethodPaymentCaption | src/pages/Sale/index.tsx:240-248 | "cartão", "avista" and "parcelado" get their captions; anything else none |
| SaleList.CaptionsDistinguishMethods | src/pages/Sale/index.tsx:240-248 | different known methods get different captions |
| Installments.WithNumber | src/pages/Sale/ParcelSale/index.tsx:142-150 | the rows with one installment number, in order |
| Installments.Insert | src/pages/Sale/ParcelSale/index.tsx:142-150 | insertion keeps the elements and the ascending order |
| Installments.SortByNumber | src/pages/Sale/ParcelSale/index.tsx:142-150 | a permutation of the rows, ascending by installment number |
| Installments.SortIsStable | src/pages/Sale/ParcelSale/index.tsx:142-150 | rows with equal numbers keep their relative order |
| Installments.InsertKeepsOrderPerNumber | src/pages/Sale/ParcelSale/index.tsx:142-150 | insertion adds the row in front of its number's group only |
| Installments.Displayed | src/pages/Sale/ParcelSale/index.tsx:142-150 | no data gives no rows; data gives its rows sorted |
| Installments.TotalRows | src/pages/Sale/ParcelSale/index.tsx:164 | the table's total is the number of rows displayed |
| Api.ShownPaid | src/pages/Sale/ParcelSale/index.tsx:129 | a row shows as paid exactly when its paid text is "true" (a predicate; no contract) |
| Installments.ExpiredShowsUnpaid | src/pages/Sale/ParcelSale/index.tsx:118-129 | an expired row is shown unpaid; a row whose paid text is neither "true" nor "false" is neither |
| Installments.ExpiryPersists | src/pages/Sale/ParcelSale/index.tsx:118 | an expired row stays expired as time passes |
| Installments.PaidParcelRequest | src/pages/Sale/ParcelSale/index.tsx:66-71 | sends the parsed id and the negation of "shown as paid" |
| Installments.PaidParcelFlow | src/pages/Sale/ParcelSale/index.tsx:53-88 | after confirmation, one request; on success the Sale page's `handleLoad` raises its `load` flag and changes nothing else |
| Installments.ToggleReloadsCurrentPage | src/pages/Sale/ParcelSale/index.tsx:73-78 | as written, an accepted toggle keeps the Sale list's page but fetches it twice when the flag was lowered and not at all when it was left raised |
| Installments.IsExpired | src/pages/Sale/ParcelSale/index.tsx:118 | an installment is expired when its paid text is "false" and its due date is past (a predicate; no contract) |
| Pages.Open | src/hooks/modal.tsx:15-17 | opening sets the modal open with the page's title and record |
| Pages.ContentOf | src/pages/Client/index.tsx:380-396 | a closed modal shows nothing; an open one the form iff the mode is "form", else the listing |
| Pages.EditIn | src/pages/Client/index.tsx:135-150 | the form mode with the record and title |
| Pages.ListIn | src/pages/Client/index.tsx:152-164 | the listing mode with the record cleared |
| Pages.LastHandlerWins | src/pages/Company/index.tsx:353-369 | whatever was shown before, the last handler decides what the modal shows |
| Pages.IdText | src/pages/Client/ClientSave/index.tsx:100-112 | an absent id is the falsy "", a present one text that `parseInt` reads back |
| Pages.ClientEdit | src/pages/Client/index.tsx:135-150 | the form with only id, name and cellphone, titled "Editar cliente" |
| Pages.ClientShopping | src/pages/Client/index.tsx:152-164 | the purchases listing, the client cleared, titled "Compras - " + name |
| Pages.ClientOpenCreate | src/pages/Client/index.tsx:276-282 | an empty form titled "Cadastrar cliente" |
| Pages.ClientFormOf | src/pages/Client/index.tsx:388-394 | the form's initial values; its id is truthy iff the record has one |
| Pages.EditedClientIsUpdated | src/pages/Client/index.tsx:135-150 | saving a form opened by edit updates that client with its fields |
| Pages.CreateAfterShoppingCreates | src/pages/Client/index.tsx:152-164 | opening create after the purchases view creates a new client |
| Pages.DashAt | src/pages/Client/index.tsx:170-176 | the dash goes after five characters for nine, else after four (clamped) |
| Pages.ConvertCellphone | src/pages/Client/index.tsx:170-176 | one character longer, with the dash at that position |
| Pages.DashRemovalRestores | src/pages/Client/index.tsx:170-176 | removing the dash gives back the input; a cellphone ends in four digits after the dash |
| Pages.CompanyEdit | src/pages/Company/index.tsx:125-139 | the form with only id and name, titled "Editar empresa" |
| Pages.CompanySalesmen | src/pages/Company/index.tsx:141-153 | the company's users listed, the company cleared, titled "Vendedores - " + name |
| Pages.CompanyOpenCreate | src/pages/Company/index.tsx:249-255 | an empty form titled "Cadastrar empresa" |
| Pages.CompanyFormOf | src/pages/Company/index.tsx:358-366 | the form's initial values; its id is truthy iff the record has one |
| Pages.EditedCompanyIsUpdated | src/pages/Company/index.tsx:125-139 | saving a form opened by edit updates that company |
| Pages.ProductEdit | src/pages/Product/index.tsx:124-149 | keeps id, name, category and amount, and takes the company's id if there is a company |
| Pages.ProductOpenCreate | src/pages/Product/index.tsx:263-267 | an empty product titled "Cadastrar produto" |
| Pages.ProductCompanyPreselected | src/pages/Product/index.tsx:142 | editing a product whose company id is not 0 preselects that company in the select |
| Pages.CompanyChoices | src/pages/Product/ProductSave/index.tsx:140-165 | a non-admin starts with their own companies; the query's answer replaces them |
| Pages.NonAdminPicksOwnCompanies | src/pages/Product/ProductSave/index.tsx:161-165 | before the answer a non-admin chooses exactly among their own companies, in order |
| Pages.SaleOpenCreate | src/pages/Sale/index.tsx:324-328 | the sale modal opens empty, titled "Cadastrar venda" |
| Pages.UserEdit | src/pages/User/index.tsx:130-144 | the form with id, name, email and companies, titled "Editar vendedor" |
| Pages.UserOpenCreate | src/pages/User/index.tsx:264-269 | an empty user titled "Cadastrar vendedor" |
| Pages.UserFormOf | src/pages/User/UserSave/index.tsx:249-307 | password inputs present iff the record's id is falsy; the companies are what the multi select, preselected from the listed companies by the record's, hands back; none without a record list |
| Pages.EditedUserIsUpdated | src/pages/User/UserSave/index.tsx:192-204 | an edited salesman is never asked for a password and is updated with the row's id, name and email; the companies sent are exactly the listed ones the salesman belongs to, in the list's order |
| Pages.UserCompaniesFollowOptions | src/components/Select/index.tsx:66-70 | a salesman of companies 2, 1 and 3, offered 1 then 2, is sent with 1 then 2 |
| Pages.PasswordInputsShown | src/pages/User/UserSave/index.tsx:278 | `!listUser.id`: the password inputs exist while the record's id is absent or 0 (a predicate; no contract) |
| Pages.PasswordInputsOnlyOnCreate | src/pages/User/UserSave/index.tsx:278 | create shows the password inputs; edit hides them unless the id is 0 |
| Pages.ResetPasswordFlow | src/pages/User/index.tsx:198-215 | no confirmation; one request; on an answer a toast titled with the server's message |
| Pages.FailedResetIsSilent | src/pages/User/index.tsx:198-215 | a failed reset shows nothing, whereas the same rejection of a delete or of a user save shows exactly one failure toast |
| Pages.ProfileFormOf | src/pages/Profile/index.tsx:122 | the profile form starts from the session user, passwords empty |
| Pages.ProfileSendsSessionType | src/pages/Profile/index.tsx:79-88 | the profile update sends the session's `typeUser`: "" without a token, the token's claim with one |
| Pages.ProfileStartsFromSession | src/pages/Profile/index.tsx:122 | without a session the form fails the name, email and password tests; with one it shows the token's user |
| Pages.DeletedTitle | src/pages/Sale/index.tsx:182 | each page's delete success title |
| Pages.DeletedTitlesDistinct | src/pages/Client/index.tsx:209 | no two pages share a delete title |
| Pages.DeleteAnnouncesPage | src/pages/User/index.tsx:174-184 | a delete that refetched data shows that page's title and nothing else |

## Left out

- The GraphQL transport and the Apollo cache. Each remote call is an input `Result`, and each
  query a response function.
- SweetAlert dialogs are boolean inputs; toasts are log entries.
- Concurrency: overlapping requests, the 500 ms debounce of the search box, and the order in
  which a query's answer and a mount effect arrive. `Pages.CompanyChoices` assumes the effect
  runs first.
- `jwtDecode` and the validation library's email test are abstract functions.
- `TextToNumber` leaves the validation library's number cast abstract, beyond blank text being
  NaN.
- Floating point: `parseFloat(price)`, `toFixed(2)`, `toLocaleString` and the price column.
  Prices are validated strings; `Pages.ProductEdit` takes the formatting as a parameter.
- date-fns: dates are integer timestamps and `now` is a parameter.
- react-router: path prefix matching and relative redirects. `RouteGuard.Lookup` matches whole
  paths only, and `RouteGuard.Resolve` reads "dashboard" from the root.
- The Input mask library, the DataTable's own pagination widget, styles, and the read-only
  tables of purchases and salesmen.
- The SignIn page; it only calls the API and then `signIn`.
- `methodPaymentReturn` looks the method up in an object literal, so inherited keys such as
  "toString" also return a value. `SaleList.MethodPaymentCaption` returns none for them.
- Pages.UserFormOf: when the record names companies but none of them is among the listed ones
  (or the list has not arrived), the source does not draw the select and reading it fails; the
  model reads an empty selection.
- SaleList.StorePaid is an assumption about the API (an accepted toggle is stored as "true" or
  "false" text), not code of the front end; `SaleList.ToggleTwiceRestores` rests on it.
- The `resetPaginantion` flag is only ever set to true. The model keeps it as a field and
  states no more about it.
- Pages.CompanyChoices: when a non-admin's claim has no companies the source throws at mount.
  The model keeps the choices empty instead.
- Pages.DashAt and Pages.ConvertCellphone use the code-point count for `length` and `slice`.
  The page only stores digit strings, where the two agree.
- JsText.ParseIntRoundTrip, Pages.IdText and Submit.SelectedId treat ids as unbounded
  integers. `String(n)` writes exponent form from 1e21 on and `parseInt` loses precision above
  2^53; the ids the API hands out are far below both.
- Pages.ProfileSendsSessionType: a token whose claim has no `typeUser` sends `undefined`; the
  model's request carries text, so the lemma covers claims that have one.
- A `data` of `undefined` after a successful save refetch makes the source throw inside its
  `try`. That is the same failure toast the model gives for a failed refresh.

## Findings

| source | as written | input that shows it | evidently intended | confidence | as-written member | corrected member |
|---|---|---|---|---|---|---|
| src/pages/Sale/index.tsx:151-196 | `handleDelete` (likewise on the Client, Company, Product and User pages) is a `useCallback` whose only dependency is `openModal`, itself memoised with no dependencies, so the handler keeps the first render's closure and its refetch sends `limit: 10`, the initial `pageSize`. | a settled list, rows per page changed to 25, then a confirmed delete whose refetch returns data: 10 rows are loaded while the table's page size stays 25, and the fetch effect does not run again. | the refetch uses the current page size | not executed | ListController.DeleteFlow, ListController.DeleteAfterResizeAsWritten | ListController.DeleteFlowCorrected, ListController.DeleteAfterResizeCorrected |
| src/pages/Sale/index.tsx:341-357 | `handleLoad` sets `load` to true, and the fetch effect depends on `load` and sets it back to false when data arrives. Lowering the flag is itself a dependency change, so every reload fetches the page twice (the mount also fetches twice: undefined, then false). When a reload's answer carries no data, the flag stays true, so the next `handleLoad` changes nothing and no fetch happens. | a settled page with `load == false`, then `handleLoad()`: two fetches. Or `handleLoad()` answered without data, then `handleLoad()` again: no fetch. | each reload fetches the current page once | not executed | SaleList.ReloadFetchesTwiceAsWritten, SaleList.ReloadLostAsWritten, SaleList.SettleAsWritten, SaleList.PaidSaleRefetchAsWritten | SaleList.ReloadFetchesOnce, SaleList.SettleReload, SaleList.ToggleReload, SaleList.ToggleFetchesOnceCorrected |

=== FILE: api.dfy ===
/**
 * The remote API as the front end sees it: the variables of the list queries, the
 * requests the pages send, and the log of observable effects a handler produces.
 * Answers of the server are inputs of the model, never computed by it.
 */
module Api {
  import opened Wrappers
  import opened Feedback

  /** Variables of a list query.  `page` is an offset in rows, not a page number;
      `nameSearch` is absent for the report queries, which take no search term. */
  datatype ListVars = ListVars(page: int, limit: int, nameSearch: Option<string>)

  /** The variables handed to `refetch`; an absent one keeps its previous value. */
  datatype VarsUpdate = VarsUpdate(page: Option<int>, limit: Option<int>, nameSearch: Option<string>)

  /** `refetch(update)` lays the new variables over the ones the query used last. */
  function Merge(previous: ListVars, update: VarsUpdate): (r: ListVars)
    ensures update.page.Some? ==> r.page == update.page.value
    ensures update.page.None? ==> r.page == previous.page
    ensures update.limit.Some? ==> r.limit == update.limit.value
    ensures update.limit.None? ==> r.limit == previous.limit
    ensures update.nameSearch.Some? ==> r.nameSearch == update.nameSearch
    ensures update.nameSearch.None? ==> r.nameSearch == previous.nameSearch
  {
    ListVars(
      update.page.GetOr(previous.page),
      update.limit.GetOr(previous.limit),
      if update.nameSearch.Some? then update.nameSearch else previous.nameSearch)
  }

  /** The refetch after a save or a delete: the first page, at the current page size,
      with whatever search the query used last. */
  function FirstPage(pageSize: int): (r: VarsUpdate)
    ensures forall previous: ListVars :: Merge(previous, r) == ListVars(0, pageSize, previous.nameSearch)
  {
    VarsUpdate(Some(0), Some(pageSize), None)
  }

  /** One page of a list query: its rows and the total count of matching records. */
  datatype Page<R> = Page(rows: seq<R>, count: int)

  /** Paid flags arrive as text; a row shows as paid exactly when the text is "true". */
  predicate ShownPaid(paid: string) { paid == "true" }

  /** The mutations the pages send.  Values that go through `parseInt` are
      `Option<int>`, `None` standing for `NaN`.  A product's price is sent as
      `parseFloat` of its text; the model keeps the text. */
  datatype Request =
    | CreateClient(name: string, cellphone: string)
    | UpdateClient(id: Option<int>, name: string, cellphone: string)
    | CreateProduct(productName: string, priceText: string, amount: Option<int>, category: string,
                    companyId: Option<int>)
    | UpdateProduct(id: Option<int>, productName: string, priceText: string, amount: Option<int>,
                    category: string, companyId: Option<int>)
    | CreateSale(price: string, saleAmount: Option<int>, dateSale: Option<int>, methodPayment: string,
                 clientId: int, productId: int)
    | CreateUser(userName: string, email: string, password: Option<string>, typeUser: string,
                 companies: seq<int>)
    | UpdateUser(id: Option<int>, userName: string, email: string, typeUser: string, companies: seq<int>)
    | UpdateProfile(id: Option<int>, userName: string, email: string, password: Option<string>,
                    typeUser: string)
    | CreateCompany(companyName: string)
    | UpdateCompany(id: Option<int>, companyName: string)
    | Delete(recordId: int)
    | PaidSale(saleId: Option<int>, paid: bool)
    | PaidParcelSale(parcelSaleId: Option<int>, paid: bool)
    | ResetPassword(userId: int)

  /** What a handler does that can be observed from outside, in order.  `Fail(raw)` is
      the failure toast of a remote call that raised `raw`, that is `FailureToast(raw)`;
      it is kept apart from `Notify` so that the log records the raw message. */
  datatype Effect<R> =
    | CloseModal
    | Send(request: Request)
    | Refetch(update: VarsUpdate)
    | ResetForm
    | Notify(toast: Toast)
    | Fail(raw: string)
    | LoadRows(rows: seq<R>)
    | SetCount(count: int)
    | RequestReload

  /** The requests of a log, in order; its contract only bounds the length, and
      `RequestsAreSends` states what it holds. */
  function Requests<R>(log: seq<Effect<R>>): (r: seq<Request>)
    ensures |r| <= |log|
  {
    if |log| == 0 then []
    else (if log[0].Send? then [log[0].request] else []) + Requests(log[1..])
  }

  /** The toasts of a log, in order; `ShownIsToastsAndFailures` relates it to what is shown. */
  function Toasts<R>(log: seq<Effect<R>>): (r: seq<Toast>)
    ensures |r| <= |log|
  {
    if |log| == 0 then []
    else (if log[0].Notify? then [log[0].toast] else []) + Toasts(log[1..])
  }

  /** The raw messages of the failed remote calls of a log, in order; `FailuresAreFails`
      states what it holds. */
  function Failures<R>(log: seq<Effect<R>>): (r: seq<string>)
    ensures |r| <= |log|
  {
    if |log| == 0 then []
    else (if log[0].Fail? then [log[0].raw] else []) + Failures(log[1..])
  }

  /** Every toast a log shows, failure toasts included, in order. */
  function Shown<R>(log: seq<Effect<R>>): (r: seq<Toast>)
    ensures |r| <= |log|
  {
    if |log| == 0 then []
    else
      (match log[0]
       case Notify(t) => [t]
       case Fail(m) => [FailureToast(m)]
       case _ => [])
      + Shown(log[1..])
  }

  /** The toasts a log shows are its notifications and one failure toast per failed
      call; a log without failures shows exactly its notifications. */
  lemma {:induction false} ShownIsToastsAndFailures<R>(log: seq<Effect<R>>, m: string)
    ensures |Shown(log)| == |Toasts(log)| + |Failures(log)|
    ensures Failures(log) == [] ==> Shown(log) == Toasts(log)
    ensures Toasts(log) == [] && Failures(log) == [m] ==> Shown(log) == [FailureToast(m)]
    decreases |log|
  {
    if |log| > 0 {
      ShownIsToastsAndFailures(log[1..], m);
      assert Toasts(log) == (if log[0].Notify? then [log[0].toast] else []) + Toasts(log[1..]);
      assert Failures(log) == (if log[0].Fail? then [log[0].raw] else []) + Failures(log[1..]);
      if Toasts(log) == [] && Failures(log) == [m] {
        if log[0].Fail? {
          assert Failures(log[1..]) == [] && Toasts(log[1..]) == [];
          assert [log[0].raw] == [m];
          assert Shown(log[1..]) == [];
          assert Shown(log) == [FailureToast(log[0].raw)] + Shown(log[1..]);
        } else {
          assert Shown(log) == Shown(log[1..]);
        }
      }
    }
  }

  lemma {:induction false} RequestsAppend<R>(a: seq<Effect<R>>, b: seq<Effect<R>>)
    ensures Requests(a + b) == Requests(a) + Requests(b)
    decreases |a|
  {
    if |a| > 0 {
      assert (a + b)[1..] == a[1..] + b;
      RequestsAppend(a[1..], b);
    } else {
      assert a + b == b;
    }
  }

  lemma {:induction false} FailuresAppend<R>(a: seq<Effect<R>>, b: seq<Effect<R>>)
    ensures Failures(a + b) == Failures(a) + Failures(b)
    decreases |a|
  {
    if |a| > 0 {
      assert (a + b)[1..] == a[1..] + b;
      FailuresAppend(a[1..], b);
    } else {
      assert a + b == b;
    }
  }

  lemma {:induction false} ToastsAppend<R>(a: seq<Effect<R>>, b: seq<Effect<R>>)
    ensures Toasts(a + b) == Toasts(a) + Toasts(b)
    decreases |a|
  {
    if |a| > 0 {
      assert (a + b)[1..] == a[1..] + b;
      ToastsAppend(a[1..], b);
    } else {
      assert a + b == b;
    }
  }

  /** A log without notifications shows no toast. */
  lemma {:induction false} ToastsOfQuiet<R>(log: seq<Effect<R>>)
    requires forall e :: e in log ==> !e.Notify?
    ensures Toasts(log) == []
    decreases |log|
  {
    if |log| > 0 {
      assert log[0] in log;
      ToastsOfQuiet(log[1..]);
    }
  }

  /** A log without failures reports no failed call. */
  lemma {:induction false} FailuresOfQuiet<R>(log: seq<Effect<R>>)
    requires forall e :: e in log ==> !e.Fail?
    ensures Failures(log) == []
    decreases |log|
  {
    if |log| > 0 {
      assert log[0] in log;
      FailuresOfQuiet(log[1..]);
    }
  }

  /** A log without requests sends nothing. */
  lemma {:induction false} RequestsOfQuiet<R>(log: seq<Effect<R>>)
    requires forall e :: e in log ==> !e.Send?
    ensures Requests(log) == []
    decreases |log|
  {
    if |log| > 0 {
      assert log[0] in log;
      RequestsOfQuiet(log[1..]);
    }
  }

  /** `Requests` keeps exactly the sent requests. */
  lemma {:induction false} RequestsAreSends<R>(log: seq<Effect<R>>, q: Request)
    ensures q in Requests(log) <==> Send(q) in log
    decreases |log|
  {
    if |log| > 0 {
      RequestsAppend([log[0]], log[1..]);
      assert log == [log[0]] + log[1..];
      RequestsAreSends(log[1..], q);
    }
  }

  /** `Failures` keeps exactly the raw messages of the failed calls. */
  lemma {:induction false} FailuresAreFails<R>(log: seq<Effect<R>>, m: string)
    ensures m in Failures(log) <==> Fail(m) in log
    decreases |log|
  {
    if |log| > 0 {
      FailuresAppend([log[0]], log[1..]);
      assert log == [log[0]] + log[1..];
      FailuresAreFails(log[1..], m);
    }
  }
}

=== FILE: feedback.dfy ===
/**
 * Toast notifications and the cleanup every page applies to the message of a failed
 * remote call: `message.replace('GraphQL error:', ' ').trim()`.
 */
module Feedback {
  import opened Wrappers
  import opened JsText

  datatype ToastKind = SuccessToast | ErrorToast

  /** A transient notification; `description` is absent when the source passes none. */
  datatype Toast = Toast(kind: ToastKind, title: string, description: Option<string>)

  /** The framing the API puts in front of its error messages. */
  const GraphQLPrefix: string := "GraphQL error:"

  /** The title of every failure toast in the application. */
  const FailureTitle: string := "Erro no cadastro"

  /** The message shown for a failed remote call: the first "GraphQL error:" becomes a
      space, then surrounding whitespace goes. */
  function CleanError(message: string): (r: string)
    ensures |r| <= |message|
    ensures |r| > 0 ==> !IsJsWhitespace(r[0]) && !IsJsWhitespace(r[|r| - 1])
  {
    Trim(ReplaceFirst(message, GraphQLPrefix, " "))
  }

  /** The toast shown when a remote call raises `message`. */
  function FailureToast(message: string): Toast
  {
    Toast(ErrorToast, FailureTitle, Some(CleanError(message)))
  }

  /** One failure toast per validation message, in order. */
  function ValidationToasts(errors: seq<string>): (r: seq<Toast>)
    ensures |r| == |errors|
    ensures forall i :: 0 <= i < |r| ==> r[i] == Toast(ErrorToast, FailureTitle, Some(errors[i]))
  {
    seq(|errors|, i requires 0 <= i < |errors| => Toast(ErrorToast, FailureTitle, Some(errors[i])))
  }

  /** A message framed by the API loses the framing and the whitespace around the rest. */
  lemma CleanErrorStripsPrefix(rest: string)
    ensures CleanError(GraphQLPrefix + rest) == Trim(rest)
  {
    var m := GraphQLPrefix + rest;
    assert OccursAt(m, GraphQLPrefix, 0) by { assert m[..|GraphQLPrefix|] == GraphQLPrefix; }
    assert IndexOf(m, GraphQLPrefix) == Some(0);
    var replaced := ReplaceFirst(m, GraphQLPrefix, " ");
    assert replaced == " " + rest by {
      assert replaced[1..] == m[|GraphQLPrefix|..] == rest;
    }
    TrimSkipsLeadingWhitespace(" ", rest);
    assert Trim(" " + rest) == Trim(rest);
  }

  /** A message without the framing is only trimmed. */
  lemma CleanErrorWithoutPrefix(message: string)
    requires forall j :: 0 <= j ==> !OccursAt(message, GraphQLPrefix, j)
    ensures CleanError(message) == Trim(message)
  {
  }
}

=== FILE: forms.dfy ===
/**
 * The validation schema of every form: which messages a submitted form produces.  An
 * empty list means the form is valid and the submit handler goes on to the mutation;
 * otherwise every message becomes an error toast.
 */
module Forms {
  import opened Wrappers
  import opened JsText
  import opened Schema
  import opened SelectField
  import PricePattern

  const NameRequired: string := "Nome é obrigatorio"
  const CellphoneInvalid: string := "Telefone é invalido!"
  const CellphoneRequired: string := "Telefone é obrigatorio"
  const PriceInvalid: string := "Preço esta invalido!"
  const PriceRequired: string := "Preço é obrigatorio"
  const ClientNotInteger: string := "Cliente é invalido!"
  const ClientRequired: string := "Cliente é obrigatorio"
  const ClientInvalid: string := "Cliente esta invalida !"
  const ProductNotInteger: string := "Produto é invalido!"
  const ProductRequired: string := "Produto é obrigatorio"
  const ProductInvalid: string := "Produto esta invalida !"
  const AmountTooSmall: string := "Quantidade tem que ser maior que 0!"
  const AmountInvalid: string := "Quantidade esta invalido !"
  const CategoryTooLong: string := "O limite maximo é de 128 caracteres"
  const CategoryRequired: string := "Categoria é obrigatorio"
  const CompanyNotInteger: string := "Empresa é invalido!"
  const CompanyInvalid: string := "Empresa esta invalida !"
  const CompaniesRequired: string := "Empresa é obrigatorio"
  const EmailRequired: string := "Email é obrigatorio"
  const PasswordRequired: string := "Senha obrigatória"
  const ConfirmationWrong: string := "Confirmação incorreta"

  /** Longest category a product may have. */
  const CategoryMax: nat := 128

  /** `/^(\d{8}|\d{9})$/`: eight or nine digits and nothing else. */
  predicate IsCellphone(s: string) { (|s| == 8 || |s| == 9) && AllDigits(s) }

  /** What a `number()` schema makes of a single select's value: "" is `NaN`. */
  function SelectionNumber(v: Single<int>): (r: NumberValue)
    ensures r.NaN? <==> v.Blank?
    ensures v.Picked? ==> r == Finite(v.value as real)
  {
    match v
    case Blank => NaN
    case Picked(id) => Finite(id as real)
  }

  /** A selected record id always passes `integer()`, so only the type error is possible. */
  function SelectionErrors(v: Single<int>, notInteger: string, typeError: string): (r: seq<string>)
    ensures r == [] <==> v.Picked?
    ensures v.Blank? ==> r == [typeError]
  {
    IntegerNumber(SelectionNumber(v), notInteger, typeError)
  }

  datatype ClientForm = ClientForm(id: string, name: string, cellphone: string)

  function ClientErrors(f: ClientForm): (r: seq<string>)
    ensures NameRequired in r <==> f.name == ""
    ensures CellphoneInvalid in r <==> !IsCellphone(f.cellphone)
    ensures CellphoneRequired in r <==> f.cellphone == ""
    ensures r == [] <==> f.name != "" && IsCellphone(f.cellphone)
    ensures forall m :: m in r ==> m in [NameRequired, CellphoneInvalid, CellphoneRequired]
  {
    Required(Some(f.name), NameRequired)
    + Matches(Some(f.cellphone), IsCellphone(f.cellphone), CellphoneInvalid)
    + Required(Some(f.cellphone), CellphoneRequired)
  }

  datatype CompanyForm = CompanyForm(id: string, name: string)

  function CompanyErrors(f: CompanyForm): (r: seq<string>)
    ensures r == [] <==> f.name != ""
    ensures r != [] ==> r == [NameRequired]
  {
    Required(Some(f.name), NameRequired)
  }

  /** The product form; `amount` is the text typed into a number input. */
  datatype ProductForm = ProductForm(
    id: string, name: string, price: string, amount: string, category: string,
    companyId: Single<int>)

  /** `toNumber` is JavaScript's conversion of the amount text to a number. */
  function ProductErrors(f: ProductForm, toNumber: string -> NumberValue): (r: seq<string>)
    ensures r == [] <==>
      f.name != "" && PricePattern.IsPrice(f.price)
      && TextToNumber(f.amount, toNumber).Finite? && TextToNumber(f.amount, toNumber).x >= 1.0
      && f.category != "" && Utf16Length(f.category) <= CategoryMax && f.companyId.Picked?
  {
    ProductTextErrors(f) + ProductAmountErrors(f, toNumber) + ProductCategoryErrors(f)
    + SelectionErrors(f.companyId, CompanyNotInteger, CompanyInvalid)
  }

  function ProductTextErrors(f: ProductForm): (r: seq<string>)
    ensures r == [] <==> f.name != "" && PricePattern.IsPrice(f.price)
    ensures forall m :: m in r ==> m in [NameRequired, PriceInvalid, PriceRequired]
    ensures NameRequired in r <==> f.name == ""
    ensures PriceInvalid in r <==> !PricePattern.IsPrice(f.price)
    ensures PriceRequired in r <==> f.price == ""
  {
    assert NameRequired[0] != PriceInvalid[0] && NameRequired[0] != PriceRequired[0]
      && PriceInvalid[6] != PriceRequired[6];
    Required(Some(f.name), NameRequired)
    + Matches(Some(f.price), PricePattern.IsPrice(f.price), PriceInvalid)
    + Required(Some(f.price), PriceRequired)
  }

  function ProductAmountErrors(f: ProductForm, toNumber: string -> NumberValue): (r: seq<string>)
    ensures r == [] <==> TextToNumber(f.amount, toNumber).Finite? && TextToNumber(f.amount, toNumber).x >= 1.0
    ensures forall m :: m in r ==> m in [AmountTooSmall, AmountInvalid]
    ensures var n := TextToNumber(f.amount, toNumber);
      && (AmountInvalid in r <==> n.NaN?)
      && (AmountTooSmall in r <==> n.Finite? && n.x < 1.0)
  {
    assert AmountTooSmall[11] != AmountInvalid[11];
    AtLeastNumber(TextToNumber(f.amount, toNumber), 1.0, AmountTooSmall, AmountInvalid)
  }

  function ProductCategoryErrors(f: ProductForm): (r: seq<string>)
    ensures r == [] <==> f.category != "" && Utf16Length(f.category) <= CategoryMax
    ensures forall m :: m in r ==> m in [CategoryTooLong, CategoryRequired]
    ensures CategoryTooLong in r <==> Utf16Length(f.category) > CategoryMax
    ensures CategoryRequired in r <==> f.category == ""
  {
    assert CategoryTooLong[0] != CategoryRequired[0];
    MaxLength(Some(f.category), CategoryMax, CategoryTooLong)
    + Required(Some(f.category), CategoryRequired)
  }

  /** Which product messages appear, field by field. */
  lemma ProductMessages(f: ProductForm, toNumber: string -> NumberValue)
    ensures var r := ProductErrors(f, toNumber);
      && (NameRequired in r <==> f.name == "")
      && (PriceInvalid in r <==> !PricePattern.IsPrice(f.price))
      && (PriceRequired in r <==> f.price == "")
  {
    var others := ProductAmountErrors(f, toNumber) + ProductCategoryErrors(f)
      + SelectionErrors(f.companyId, CompanyNotInteger, CompanyInvalid);
    assert ProductErrors(f, toNumber) == ProductTextErrors(f) + others;
    assert NameRequired !in others && PriceInvalid !in others && PriceRequired !in others;
  }

  /** The product form's messages differ from field to field. */
  lemma ProductMessagesDistinct()
    ensures AmountInvalid !in [NameRequired, PriceInvalid, PriceRequired]
    ensures AmountTooSmall !in [NameRequired, PriceInvalid, PriceRequired]
    ensures CompanyInvalid !in [NameRequired, PriceInvalid, PriceRequired]
    ensures AmountInvalid !in [CategoryTooLong, CategoryRequired] && AmountTooSmall !in [CategoryTooLong, CategoryRequired]
    ensures CompanyInvalid !in [CategoryTooLong, CategoryRequired] && CompanyInvalid !in [AmountTooSmall, AmountInvalid]
    ensures CategoryTooLong !in [NameRequired, PriceInvalid, PriceRequired]
    ensures CategoryRequired !in [NameRequired, PriceInvalid, PriceRequired]
    ensures CategoryTooLong !in [AmountTooSmall, AmountInvalid] && CategoryRequired !in [AmountTooSmall, AmountInvalid]
    ensures AmountInvalid != CompanyInvalid && AmountTooSmall != CompanyInvalid
    ensures CategoryTooLong != CompanyInvalid && CategoryRequired != CompanyInvalid
    ensures forall m :: m in [CompanyNotInteger, CompaniesRequired] ==>
      && m !in [NameRequired, PriceInvalid, PriceRequired] && m !in [AmountTooSmall, AmountInvalid]
      && m !in [CategoryTooLong, CategoryRequired] && m != CompanyInvalid
  {
    assert |CompanyNotInteger| != |CompanyInvalid| && |CompaniesRequired| != |CompanyInvalid|;
    assert CompanyNotInteger[0] == 'E' && CompaniesRequired[0] == 'E';
    assert NameRequired[0] == 'N' && PriceInvalid[0] == 'P' && PriceRequired[0] == 'P';
    assert AmountTooSmall[0] == 'Q' && AmountInvalid[0] == 'Q';
    assert CategoryTooLong[0] == 'O' && CategoryRequired[0] == 'C' && CompanyInvalid[0] == 'E';
  }

  /** An amount message is in the product errors exactly when it is in the amount's. */
  lemma OnlyInAmount(m: string, text: seq<string>, amount: seq<string>, category: seq<string>, company: seq<string>)
    requires forall x :: x in text ==> x in [NameRequired, PriceInvalid, PriceRequired]
    requires forall x :: x in category ==> x in [CategoryTooLong, CategoryRequired]
    requires m !in [NameRequired, PriceInvalid, PriceRequired] && m !in [CategoryTooLong, CategoryRequired]
    requires (company == [] || company == [CompanyInvalid]) && m != CompanyInvalid
    ensures m in text + amount + category + company <==> m in amount
  {
  }

  lemma ProductNumberMessages(f: ProductForm, toNumber: string -> NumberValue)
    ensures var r := ProductErrors(f, toNumber); var n := TextToNumber(f.amount, toNumber);
      && (AmountInvalid in r <==> n.NaN?)
      && (AmountTooSmall in r <==> n.Finite? && n.x < 1.0)
      && (CompanyInvalid in r <==> f.companyId.Blank?)
      && CompaniesRequired !in r && CompanyNotInteger !in r
  {
    var text := ProductTextErrors(f);
    var amount := ProductAmountErrors(f, toNumber);
    var category := ProductCategoryErrors(f);
    var company := SelectionErrors(f.companyId, CompanyNotInteger, CompanyInvalid);
    assert ProductErrors(f, toNumber) == text + amount + category + company;
    ProductMessagesDistinct();
    OnlyInAmount(AmountInvalid, text, amount, category, company);
    OnlyInAmount(AmountTooSmall, text, amount, category, company);
    assert CompanyInvalid !in text + amount + category;
    Outside(CompanyNotInteger, text, [NameRequired, PriceInvalid, PriceRequired]);
    Outside(CompanyNotInteger, amount, [AmountTooSmall, AmountInvalid]);
    Outside(CompanyNotInteger, category, [CategoryTooLong, CategoryRequired]);
    Outside(CompaniesRequired, text, [NameRequired, PriceInvalid, PriceRequired]);
    Outside(CompaniesRequired, amount, [AmountTooSmall, AmountInvalid]);
    Outside(CompaniesRequired, category, [CategoryTooLong, CategoryRequired]);
  }

  /** A message none of whose allowed values it is does not occur. */
  lemma Outside(m: string, r: seq<string>, allowed: seq<string>)
    requires forall x :: x in r ==> x in allowed
    requires m !in allowed
    ensures m !in r
  {
  }

  lemma ProductCategoryMessages(f: ProductForm, toNumber: string -> NumberValue)
    ensures var r := ProductErrors(f, toNumber);
      && (CategoryTooLong in r <==> Utf16Length(f.category) > CategoryMax)
      && (CategoryRequired in r <==> f.category == "")
  {
    var text := ProductTextErrors(f);
    var amount := ProductAmountErrors(f, toNumber);
    var category := ProductCategoryErrors(f);
    var company := SelectionErrors(f.companyId, CompanyNotInteger, CompanyInvalid);
    assert ProductErrors(f, toNumber) == text + amount + category + company;
    ProductMessagesDistinct();
    assert CategoryTooLong !in text + amount + company && CategoryRequired !in text + amount + company;
  }

  /** The limit counts UTF-16 code units: a category of more than 64 astral code points
      (emoji, say) is too long although it has at most 128 of them. */
  lemma AstralCategoryTooLong(f: ProductForm, toNumber: string -> NumberValue)
    requires 64 < |f.category| <= CategoryMax
    requires forall i :: 0 <= i < |f.category| ==> IsAstral(f.category[i])
    ensures CategoryTooLong in ProductErrors(f, toNumber)
    ensures ProductErrors(f, toNumber) != []
  {
    Utf16LengthAllAstral(f.category);
    ProductCategoryMessages(f, toNumber);
  }

  /** The sale form.  `amount` is absent when the payment method hides the amount input. */
  datatype SaleForm = SaleForm(
    id: string, price: string, amount: Option<string>, dateSale: Option<int>,
    methodPayment: string, clientId: Single<int>, productId: Single<int>)

  /** Only the price and the two selects are validated. */
  function SaleErrors(f: SaleForm): (r: seq<string>)
    ensures PriceInvalid in r <==> !PricePattern.IsPrice(f.price)
    ensures PriceRequired in r <==> f.price == ""
    ensures ClientInvalid in r <==> f.clientId.Blank?
    ensures ProductInvalid in r <==> f.productId.Blank?
    ensures ClientRequired !in r && ProductRequired !in r
    ensures r == [] <==> PricePattern.IsPrice(f.price) && f.clientId.Picked? && f.productId.Picked?
  {
    Matches(Some(f.price), PricePattern.IsPrice(f.price), PriceInvalid)
    + Required(Some(f.price), PriceRequired)
    + SelectionErrors(f.clientId, ClientNotInteger, ClientInvalid)
    + SelectionErrors(f.productId, ProductNotInteger, ProductInvalid)
  }

  /** The user form.  The password inputs exist only while creating, so they may be absent. */
  datatype UserForm = UserForm(
    id: string, name: string, email: string, password: Option<string>,
    confirmation: Option<string>, companies: seq<int>)

  /** The password is required exactly when the form carries no id (`when('id', !value)`). */
  function PasswordErrors(id: string, password: Option<string>, confirmation: Option<string>): (r: seq<string>)
    ensures PasswordRequired in r <==> !Truthy(id) && (password.None? || password.value == "")
    ensures ConfirmationWrong in r <==> confirmation.Some? && confirmation != password
    ensures forall m :: m in r ==> m in [PasswordRequired, ConfirmationWrong]
  {
    (if Truthy(id) then [] else Required(password, PasswordRequired))
    + OneOfRef(confirmation, password, ConfirmationWrong)
  }

  /** The name and email tests the user and profile forms share; `isEmail` is the address
      pattern of the validation library. */
  function IdentityErrors(name: string, email: string, isEmail: string -> bool): (r: seq<string>)
    ensures NameRequired in r <==> name == ""
    ensures EmailRequired in r <==> email == ""
    ensures EmailDefaultMessage in r <==> email != "" && !isEmail(email)
    ensures forall m :: m in r ==> m in [NameRequired, EmailDefaultMessage, EmailRequired]
    ensures r == [] <==> name != "" && email != "" && isEmail(email)
  {
    assert NameRequired[0] != EmailRequired[0] && NameRequired[0] != EmailDefaultMessage[0]
      && EmailRequired[0] != EmailDefaultMessage[0];
    Required(Some(name), NameRequired)
    + Email(Some(email), isEmail) + Required(Some(email), EmailRequired)
  }

  /** The messages of the identity, company and password tests are all different. */
  lemma UserMessagesDistinct()
    ensures forall m :: m in [NameRequired, EmailDefaultMessage, EmailRequired] ==>
      m != CompaniesRequired && m != PasswordRequired && m != ConfirmationWrong
    ensures CompaniesRequired != PasswordRequired && CompaniesRequired != ConfirmationWrong
  {
    assert EmailRequired[2] != CompaniesRequired[2];
    assert NameRequired[0] != CompaniesRequired[0] && EmailDefaultMessage[0] != CompaniesRequired[0];
    assert NameRequired[0] != PasswordRequired[0] && EmailDefaultMessage[0] != PasswordRequired[0]
      && EmailRequired[0] != PasswordRequired[0];
    assert NameRequired[0] != ConfirmationWrong[0] && EmailDefaultMessage[0] != ConfirmationWrong[0]
      && EmailRequired[0] != ConfirmationWrong[0];
    assert CompaniesRequired[0] != PasswordRequired[0] && CompaniesRequired[0] != ConfirmationWrong[0];
  }

  function UserErrors(f: UserForm, isEmail: string -> bool): (r: seq<string>)
    ensures NameRequired in r <==> f.name == ""
    ensures EmailRequired in r <==> f.email == ""
    ensures EmailDefaultMessage in r <==> f.email != "" && !isEmail(f.email)
    ensures CompaniesRequired in r <==> |f.companies| == 0
    ensures PasswordRequired in r <==> !Truthy(f.id) && (f.password.None? || f.password.value == "")
    ensures ConfirmationWrong in r <==> f.confirmation.Some? && f.confirmation != f.password
    ensures r == [] <==>
      f.name != "" && f.email != "" && isEmail(f.email) && |f.companies| >= 1
      && PasswordErrors(f.id, f.password, f.confirmation) == []
  {
    UserMessagesDistinct();
    IdentityErrors(f.name, f.email, isEmail)
    + MinItems(f.companies, 1, CompaniesRequired)
    + PasswordErrors(f.id, f.password, f.confirmation)
  }

  /** The profile form always shows both password inputs. */
  datatype ProfileForm = ProfileForm(
    id: string, name: string, email: string, password: string, confirmation: string)

  function ProfileErrors(f: ProfileForm, isEmail: string -> bool): (r: seq<string>)
    ensures NameRequired in r <==> f.name == ""
    ensures EmailRequired in r <==> f.email == ""
    ensures EmailDefaultMessage in r <==> f.email != "" && !isEmail(f.email)
    ensures PasswordRequired in r <==> !Truthy(f.id) && f.password == ""
    ensures ConfirmationWrong in r <==> f.confirmation != f.password
    ensures r == [] <==>
      f.name != "" && f.email != "" && isEmail(f.email)
      && (Truthy(f.id) || f.password != "") && f.confirmation == f.password
  {
    UserMessagesDistinct();
    IdentityErrors(f.name, f.email, isEmail)
    + PasswordErrors(f.id, Some(f.password), Some(f.confirmation))
  }

  // ---- Properties relating several forms ----

  /** Every failing test of the client form is reported, in declaration order. */
  lemma ClientReportsEveryFailure()
    ensures ClientErrors(ClientForm("", "", "")) == [NameRequired, CellphoneInvalid, CellphoneRequired]
  {
  }

  lemma {:induction false} CellphoneExamples()
    ensures IsCellphone("12345678") && IsCellphone("123456789")
    ensures !IsCellphone("1234567") && !IsCellphone("1234567890") && !IsCellphone("1234-5678")
  {
    assert !IsDigit("1234-5678"[4]);
  }

  /** Editing a user never asks for a password, whatever the password inputs hold. */
  lemma EditingNeverRequiresPassword(f: UserForm, isEmail: string -> bool)
    requires Truthy(f.id)
    ensures PasswordRequired !in UserErrors(f, isEmail)
  {
  }

  /** What the sale form validates does not depend on the amount, the date or the
      payment method. */
  lemma {:induction false} SaleValidationIgnoresPayment(f: SaleForm, g: SaleForm)
    requires f.price == g.price && f.clientId == g.clientId && f.productId == g.productId
    ensures SaleErrors(f) == SaleErrors(g)
  {
  }

  /** A profile validates the same way as a user edit of the same person with the same
      password inputs, apart from the companies the profile does not have. */
  lemma ProfileAgreesWithUser(p: ProfileForm, companies: seq<int>, isEmail: string -> bool)
    requires |companies| >= 1
    ensures ProfileErrors(p, isEmail) == UserErrors(
      UserForm(p.id, p.name, p.email, Some(p.password), Some(p.confirmation), companies), isEmail)
  {
  }
}

=== FILE: installments.dfy ===
/**
 * The installments of a sale, shown under its row: sorted by installment number, marked
 * expired when unpaid and past due, and toggled paid like the sale itself.
 */
module Installments {
  import opened Wrappers
  import opened JsText
  import opened Feedback
  import opened Api
  import opened SaleList

  /** An installment; `maturityDate` is a timestamp, `paid` the text "true"/"false". */
  datatype Parcel = Parcel(id: string, parcelNumber: int, maturityDate: int, paid: string)

  predicate SortedByNumber(s: seq<Parcel>)
  {
    forall i, j :: 0 <= i < j < |s| ==> s[i].parcelNumber <= s[j].parcelNumber
  }

  /** The installments numbered `k`, in order. */
  function WithNumber(s: seq<Parcel>, k: int): (r: seq<Parcel>)
    ensures |r| <= |s|
    ensures forall p :: p in r ==> p in s && p.parcelNumber == k
  {
    if |s| == 0 then []
    else (if s[0].parcelNumber == k then [s[0]] else []) + WithNumber(s[1..], k)
  }

  /** A sorted sequence stays sorted under a head no larger than its first element. */
  lemma {:induction false} SortedCons(a: Parcel, t: seq<Parcel>)
    requires SortedByNumber(t) && (|t| == 0 || a.parcelNumber <= t[0].parcelNumber)
    ensures SortedByNumber([a] + t)
  {
    var s := [a] + t;
    forall i, j | 0 <= i < j < |s| ensures s[i].parcelNumber <= s[j].parcelNumber {
      if i > 0 {
        assert s[i] == t[i - 1] && s[j] == t[j - 1];
      } else {
        assert s[j] == t[j - 1];
      }
    }
  }

  /** The tail of a sorted sequence is sorted, and no smaller than its head. */
  lemma SortedTail(s: seq<Parcel>)
    requires |s| > 0 && SortedByNumber(s)
    ensures SortedByNumber(s[1..])
    ensures |s| > 1 ==> s[0].parcelNumber <= s[1].parcelNumber
  {
    forall i, j | 0 <= i < j < |s[1..]| ensures s[1..][i].parcelNumber <= s[1..][j].parcelNumber {
      assert s[1..][i] == s[i + 1] && s[1..][j] == s[j + 1];
    }
  }

  /** `x` placed before the first installment whose number is not smaller. */
  function Insert(x: Parcel, s: seq<Parcel>): (r: seq<Parcel>)
    ensures |r| == |s| + 1
    ensures multiset(r) == multiset(s) + multiset{x}
    ensures r[0] == x || (|s| > 0 && r[0] == s[0])
    ensures SortedByNumber(s) ==> SortedByNumber(r)
  {
    if |s| == 0 || x.parcelNumber <= s[0].parcelNumber then
      if SortedByNumber(s) then SortedCons(x, s); [x] + s else [x] + s
    else
      var rest := Insert(x, s[1..]);
      assert s == [s[0]] + s[1..];
      if SortedByNumber(s) then
        SortedTail(s);
        SortedCons(s[0], rest);
        [s[0]] + rest
      else [s[0]] + rest
  }

  /** lodash `orderBy(rows, ['parcelNumber'], ['asc'])`, a stable ascending sort. */
  function SortByNumber(rows: seq<Parcel>): (r: seq<Parcel>)
    ensures |r| == |rows|
    ensures multiset(r) == multiset(rows)
    ensures SortedByNumber(r)
  {
    if |rows| == 0 then []
    else
      assert rows == [rows[0]] + rows[1..];
      Insert(rows[0], SortByNumber(rows[1..]))
  }

  /** The installments numbered `k` of a sequence with a given head. */
  lemma WithNumberCons(a: Parcel, t: seq<Parcel>, k: int)
    ensures WithNumber([a] + t, k) == (if a.parcelNumber == k then [a] else []) + WithNumber(t, k)
  {
    assert ([a] + t)[1..] == t;
  }

  /** How `Insert` proceeds: in front of a head no smaller, behind a smaller one. */
  lemma InsertUnfold(x: Parcel, s: seq<Parcel>)
    ensures |s| == 0 || x.parcelNumber <= s[0].parcelNumber ==> Insert(x, s) == [x] + s
    ensures |s| > 0 && x.parcelNumber > s[0].parcelNumber ==> Insert(x, s) == [s[0]] + Insert(x, s[1..])
  {
  }

  /** Inserting keeps the installments of one number in order, `x` first. */
  lemma {:induction false} InsertKeepsOrderPerNumber(x: Parcel, s: seq<Parcel>, k: int)
    ensures WithNumber(Insert(x, s), k) == (if x.parcelNumber == k then [x] else []) + WithNumber(s, k)
    decreases |s|
  {
    if |s| == 0 || x.parcelNumber <= s[0].parcelNumber {
      InsertUnfold(x, s);
      WithNumberCons(x, s, k);
    } else {
      InsertKeepsOrderPerNumber(x, s[1..], k);
      InsertBehindKeepsOrder(x, s, k);
    }
  }

  /** The step of `InsertKeepsOrderPerNumber` when `x` goes behind the head. */
  lemma InsertBehindKeepsOrder(x: Parcel, s: seq<Parcel>, k: int)
    requires |s| > 0 && x.parcelNumber > s[0].parcelNumber
    requires WithNumber(Insert(x, s[1..]), k) == (if x.parcelNumber == k then [x] else []) + WithNumber(s[1..], k)
    ensures WithNumber(Insert(x, s), k) == (if x.parcelNumber == k then [x] else []) + WithNumber(s, k)
  {
    var mine := if x.parcelNumber == k then [x] else [];
    var rest := Insert(x, s[1..]);
    var tail := WithNumber(s[1..], k);
    InsertUnfold(x, s);
    WithNumberCons(s[0], rest, k);
    assert WithNumber(s, k) == (if s[0].parcelNumber == k then [s[0]] else []) + tail;
    if s[0].parcelNumber == k {
      assert mine == [] && mine + tail == tail;
      assert mine + WithNumber(s, k) == WithNumber(s, k);
    } else {
      assert WithNumber(s, k) == [] + tail == tail;
      assert WithNumber(Insert(x, s), k) == [] + WithNumber(rest, k);
    }
  }

  /** The sort is stable: installments with the same number keep their relative order. */
  lemma {:induction false} SortIsStable(rows: seq<Parcel>, k: int)
    ensures WithNumber(SortByNumber(rows), k) == WithNumber(rows, k)
    decreases |rows|
  {
    if |rows| > 0 {
      SortIsStable(rows[1..], k);
      InsertKeepsOrderPerNumber(rows[0], SortByNumber(rows[1..]), k);
    }
  }

  /** The rows the table shows: none without data, else the sorted installments. */
  function Displayed(data: Option<seq<Parcel>>): (r: seq<Parcel>)
    ensures data.None? ==> r == []
    ensures data.Some? ==> multiset(r) == multiset(data.value) && SortedByNumber(r)
  {
    match data
    case None => []
    case Some(rows) => SortByNumber(rows)
  }

  /** `data?.parcelSales.length || 0`. */
  function TotalRows(data: Option<seq<Parcel>>): (r: nat)
    ensures r == |Displayed(data)|
  {
    match data
    case None => 0
    case Some(rows) => |rows|
  }

  /** `paid === 'false' && isPast(maturityDate)`, with the clock as a parameter. */
  predicate IsExpired(p: Parcel, now: int) { p.paid == "false" && p.maturityDate < now }

  /** Expiry and the paid button agree: an expired installment shows unpaid, and text
      other than "true"/"false" is neither expired nor paid. */
  lemma ExpiredShowsUnpaid(p: Parcel, now: int)
    ensures IsExpired(p, now) ==> !ShownPaid(p.paid)
    ensures p.paid != "true" && p.paid != "false" ==> !IsExpired(p, now) && !ShownPaid(p.paid)
  {
  }

  /** An installment past due stays expired as time goes on, until it is paid. */
  lemma ExpiryPersists(p: Parcel, now: int, later: int)
    requires IsExpired(p, now) && now <= later
    ensures IsExpired(p, later)
  {
  }

  /** The installment toggle: id parsed in base 10, the negation of what the button shows. */
  function PaidParcelRequest(p: Parcel): (r: Request)
    ensures r.PaidParcelSale? && r.parcelSaleId == ParseInt(p.id)
    ensures r.paid <==> !ShownPaid(p.paid)
  {
    PaidParcelSale(ParseInt(p.id), !ShownPaid(p.paid))
  }

  /** `handlePaid` on the Sale page's state: the reload it calls is the Sale page's
      `handleLoad`, which raises the `load` flag. */
  function PaidParcelFlow<R>(s: LoadState<R>, p: Parcel, confirmed: bool, outcome: Result<string>)
    : (r: (LoadState<R>, seq<Effect<R>>))
    ensures confirmed ==> Requests(r.1) == [PaidParcelRequest(p)]
    ensures confirmed && outcome.Ok? ==> r.0.load == Some(true) && r.0.list == s.list && r.0.ranFor == s.ranFor
    ensures !(confirmed && outcome.Ok?) ==> r.0 == s
    ensures !confirmed ==> r.1 == []
  {
    var log: seq<Effect<R>> := ToggleFlow(s.list, PaidParcelRequest(p), confirmed, outcome);
    (if confirmed && outcome.Ok? then HandleLoad(s) else s, log)
  }

  /** As written, an accepted installment toggle on a settled Sale page fetches that page
      twice when the flag was lowered, and not at all when it was left raised. */
  lemma {:induction false} ToggleReloadsCurrentPage<R>(s: LoadState<R>, p: Parcel, message: string, respond: ListVars -> Option<Page<R>>)
    requires LoadSettled(s)
    ensures var after := PaidParcelFlow(s, p, true, Ok(message)).0;
      && after.list == s.list
      && (s.load == Some(false) && AlwaysAnswers(respond) ==> SettleAsWritten(after, respond).fetches == 2)
      && (s.load == Some(true) ==> SettleAsWritten(after, respond).fetches == 0)
  {
    var after := PaidParcelFlow(s, p, true, Ok(message)).0;
    assert after == HandleLoad(s);
    if s.load == Some(false) && AlwaysAnswers(respond) {
      ReloadFetchesTwiceAsWritten(s, respond);
    }
    if s.load == Some(true) {
      ReloadLostAsWritten(s, respond);
    }
  }
}

=== FILE: js_text.dfy ===
/**
 * The JavaScript string primitives the front end leans on: truthiness of a
 * string, `trim`, `replace` with a string pattern, `parseInt(s, 10)` and
 * `Number.prototype.toString` on integers.  Strings are `seq<char>`.
 */
module JsText {
  import opened Wrappers

  /** A string is truthy in JavaScript exactly when it is not empty. */
  predicate Truthy(s: string) { |s| > 0 }

  predicate IsDigit(c: char) { '0' <= c <= '9' }

  predicate AllDigits(s: string) { forall i :: 0 <= i < |s| ==> IsDigit(s[i]) }

  function DigitValue(c: char): (d: nat)
    requires IsDigit(c)
    ensures d < 10
  {
    (c as int) - ('0' as int)
  }

  function DigitChar(d: nat): (c: char)
    requires d < 10
    ensures IsDigit(c) && DigitValue(c) == d
  {
    (('0' as int) + d) as char
  }

  /** The value of a numeral, most significant digit first. */
  function DecimalValue(s: string): nat
    requires AllDigits(s)
  {
    if |s| == 0 then 0 else DecimalValue(s[..|s| - 1]) * 10 + DigitValue(s[|s| - 1])
  }

  /** The shortest numeral of a non-negative integer, as `String(n)` writes it. */
  function NatToString(n: nat): (s: string)
    ensures |s| > 0 && AllDigits(s)
    ensures DecimalValue(s) == n
    ensures s[0] == '0' <==> n == 0
    decreases n
  {
    if n < 10 then [DigitChar(n)]
    else
      var prefix := NatToString(n / 10);
      var s := prefix + [DigitChar(n % 10)];
      assert s[..|s| - 1] == prefix;
      s
  }

  /** `String(n)` for an integer `n`. */
  function IntToString(n: int): (s: string)
    ensures n < 0 ==> s == "-" + NatToString(-n)
    ensures n >= 0 ==> AllDigits(s) && DecimalValue(s) == n
  {
    if n < 0 then "-" + NatToString(-n) else NatToString(n)
  }

  /** A code point outside the Basic Multilingual Plane, which a JavaScript string holds
      as a surrogate pair. */
  predicate IsAstral(c: char) { c > '\U{FFFF}' }

  /** `s.length` in JavaScript: the number of UTF-16 code units (section 6.1.4 of
      ECMA-262), two for an astral code point and one for any other. */
  function Utf16Length(s: string): (r: nat)
    ensures |s| <= r <= 2 * |s|
  {
    if |s| == 0 then 0 else (if IsAstral(s[0]) then 2 else 1) + Utf16Length(s[1..])
  }

  /** The code units of a concatenation are those of its parts. */
  lemma {:induction false} Utf16LengthAppend(a: string, b: string)
    ensures Utf16Length(a + b) == Utf16Length(a) + Utf16Length(b)
    decreases |a|
  {
    if |a| == 0 {
      assert a + b == b;
    } else {
      assert (a + b)[0] == a[0] && (a + b)[1..] == a[1..] + b;
      Utf16LengthAppend(a[1..], b);
    }
  }

  /** `length` agrees with the code-point count exactly when no code point is astral. */
  lemma {:induction false} Utf16LengthIsLength(s: string)
    ensures Utf16Length(s) == |s| <==> forall i :: 0 <= i < |s| ==> !IsAstral(s[i])
    decreases |s|
  {
    if |s| > 0 {
      Utf16LengthIsLength(s[1..]);
      assert forall i :: 1 <= i < |s| ==> s[i] == s[1..][i - 1];
      if !IsAstral(s[0]) && Utf16Length(s[1..]) == |s| - 1 {
        forall i | 0 <= i < |s| ensures !IsAstral(s[i]) {
          if i > 0 { assert s[i] == s[1..][i - 1]; }
        }
      }
    }
  }

  /** A string of astral code points only is twice as long in code units. */
  lemma {:induction false} Utf16LengthAllAstral(s: string)
    requires forall i :: 0 <= i < |s| ==> IsAstral(s[i])
    ensures Utf16Length(s) == 2 * |s|
    decreases |s|
  {
    if |s| > 0 {
      assert forall i :: 0 <= i < |s| - 1 ==> s[1..][i] == s[i + 1];
      Utf16LengthAllAstral(s[1..]);
    }
  }

  /** WhiteSpace and LineTerminator code points (sections 12.2 and 12.3 of ECMA-262):
      what `trim`, `parseInt` and the regular-expression class `\s` skip. */
  predicate IsJsWhitespace(c: char)
  {
    || c == '\t' || c == '\n' || c == '\U{000B}' || c == '\U{000C}' || c == '\r'
    || c == ' ' || c == '\U{00A0}' || c == '\U{1680}'
    || ('\U{2000}' <= c <= '\U{200A}')
    || c == '\U{2028}' || c == '\U{2029}' || c == '\U{202F}' || c == '\U{205F}'
    || c == '\U{3000}' || c == '\U{FEFF}'
  }

  predicate AllWhitespace(s: string) { forall i :: 0 <= i < |s| ==> IsJsWhitespace(s[i]) }

  /** `s` with its leading whitespace removed. */
  function TrimStart(s: string): (r: string)
    ensures |r| <= |s| && r == s[|s| - |r|..]
    ensures AllWhitespace(s[..|s| - |r|])
    ensures |r| > 0 ==> !IsJsWhitespace(r[0])
  {
    if |s| > 0 && IsJsWhitespace(s[0]) then TrimStart(s[1..]) else s
  }

  /** `s` with its trailing whitespace removed. */
  function TrimEnd(s: string): (r: string)
    ensures |r| <= |s| && r == s[..|r|]
    ensures AllWhitespace(s[|r|..])
    ensures |r| > 0 ==> !IsJsWhitespace(r[|r| - 1])
  {
    if |s| > 0 && IsJsWhitespace(s[|s| - 1]) then TrimEnd(s[..|s| - 1]) else s
  }

  /** `r` is `s` with whitespace `s[..a]` before it and whitespace after it. */
  predicate TrimmedAt(s: string, r: string, a: nat)
  {
    && a + |r| <= |s|
    && r == s[a..a + |r|]
    && AllWhitespace(s[..a])
    && AllWhitespace(s[a + |r|..])
  }

  /** `String.prototype.trim`. */
  function Trim(s: string): (r: string)
    ensures exists a :: TrimmedAt(s, r, a)
    ensures |r| > 0 ==> !IsJsWhitespace(r[0]) && !IsJsWhitespace(r[|r| - 1])
  {
    var t := TrimStart(s);
    var r := TrimEnd(t);
    assert TrimmedAt(s, r, |s| - |t|) by {
      assert s[|s| - |t|..][..|r|] == s[|s| - |t|..|s| - |t| + |r|];
      assert s[|s| - |t| + |r|..] == t[|r|..];
    }
    r
  }

  predicate OccursAt(s: string, pat: string, i: nat)
  {
    i + |pat| <= |s| && s[i..i + |pat|] == pat
  }

  /** The leftmost occurrence of `pat` in `s` at or after `i`. */
  function SearchFrom(s: string, pat: string, i: nat): (r: Option<nat>)
    requires i <= |s|
    ensures r.Some? ==> i <= r.value && OccursAt(s, pat, r.value)
    ensures r.Some? ==> forall j :: i <= j < r.value ==> !OccursAt(s, pat, j)
    ensures r.None? ==> forall j :: i <= j ==> !OccursAt(s, pat, j)
    decreases |s| - i
  {
    if OccursAt(s, pat, i) then Some(i)
    else if i == |s| then None
    else SearchFrom(s, pat, i + 1)
  }

  /** `s.indexOf(pat)`, with `None` for -1. */
  function IndexOf(s: string, pat: string): (r: Option<nat>)
    ensures r.Some? ==> OccursAt(s, pat, r.value)
    ensures r.Some? ==> forall j :: 0 <= j < r.value ==> !OccursAt(s, pat, j)
    ensures r.None? <==> forall j :: 0 <= j ==> !OccursAt(s, pat, j)
  {
    SearchFrom(s, pat, 0)
  }

  /** `s.replace(pat, rep)` with a string pattern: only the leftmost occurrence is replaced. */
  function ReplaceFirst(s: string, pat: string, rep: string): (r: string)
    ensures IndexOf(s, pat).None? ==> r == s
    ensures IndexOf(s, pat).Some? ==>
              var i := IndexOf(s, pat).value;
              && |r| == |s| - |pat| + |rep|
              && r[..i] == s[..i] && r[i..i + |rep|] == rep && r[i + |rep|..] == s[i + |pat|..]
  {
    match IndexOf(s, pat)
    case None => s
    case Some(i) => s[..i] + rep + s[i + |pat|..]
  }

  /** The longest prefix of `s` made of decimal digits. */
  function LeadingDigits(s: string): (r: string)
    ensures |r| <= |s| && r == s[..|r|] && AllDigits(r)
    ensures |r| < |s| ==> !IsDigit(s[|r|])
  {
    if |s| > 0 && IsDigit(s[0]) then [s[0]] + LeadingDigits(s[1..]) else ""
  }

  /** `parseInt(s, 10)` (section 19.2.5 of ECMA-262): skip leading whitespace, take an
      optional sign and then the longest run of digits; `None` stands for `NaN`. */
  function ParseInt(s: string): (r: Option<int>)
    ensures |TrimStart(s)| == 0 || !(TrimStart(s)[0] in "-+" || IsDigit(TrimStart(s)[0])) ==> r.None?
    ensures r.Some? && r.value < 0 ==> TrimStart(s)[0] == '-'
  {
    ParseSigned(TrimStart(s))
  }

  /** `parseInt` after the leading whitespace is gone. */
  function ParseSigned(t: string): (r: Option<int>)
    ensures |t| == 0 || (t[0] != '-' && t[0] != '+' && !IsDigit(t[0])) ==> r.None?
    ensures r.Some? && r.value < 0 ==> t[0] == '-'
  {
    var negative := |t| > 0 && t[0] == '-';
    var u := if |t| > 0 && (t[0] == '-' || t[0] == '+') then t[1..] else t;
    var z := LeadingDigits(u);
    var magnitude: int := if |z| == 0 then 0 else DecimalValue(z);
    if |z| == 0 then None
    else Some(if negative then -magnitude else magnitude)
  }

  /** A digit prefix of length `k` is covered by the leading digits. */
  lemma {:induction false} LeadingDigitsCover(p: string, k: nat)
    requires k <= |p| && forall j :: 0 <= j < k ==> IsDigit(p[j])
    ensures |LeadingDigits(p)| >= k
  {
    if k > 0 {
      assert forall j :: 0 <= j < k - 1 ==> p[1..][j] == p[j + 1];
      LeadingDigitsCover(p[1..], k - 1);
    }
  }

  /** The leading digits of a numeral followed by a non-digit are the numeral. */
  lemma LeadingDigitsOfNumeral(d: string, rest: string)
    requires AllDigits(d) && (|rest| == 0 || !IsDigit(rest[0]))
    ensures LeadingDigits(d + rest) == d
  {
    var p := d + rest;
    LeadingDigitsCover(p, |d|);
    var z := LeadingDigits(p);
    if |rest| > 0 {
      assert p[|d|] == rest[0];
    }
    assert z == p[..|d|];
  }

  /** `parseInt` stops at the first character that is not a digit, so a numeral followed
      by anything else ("2.5", "12abc") parses to the numeral's value. */
  lemma ParseIntStopsAtNonDigit(d: string, rest: string)
    requires |d| > 0 && AllDigits(d) && (|rest| == 0 || !IsDigit(rest[0]))
    ensures ParseInt(d + rest) == Some(DecimalValue(d))
  {
    var p := d + rest;
    assert p[0] == d[0];
    DigitStartUntrimmed(p);
    UnsignedParse(p);
    LeadingDigitsOfNumeral(d, rest);
  }

  /** Text starting with a digit has no leading whitespace. */
  lemma DigitStartUntrimmed(p: string)
    requires |p| > 0 && IsDigit(p[0])
    ensures TrimStart(p) == p
  {
    assert !IsJsWhitespace(p[0]);
  }

  /** Without a sign, `parseInt` reads the leading digits. */
  lemma UnsignedParse(p: string)
    requires |p| > 0 && IsDigit(p[0])
    ensures ParseSigned(p) == Some(DecimalValue(LeadingDigits(p)))
  {
    assert p[0] != '-' && p[0] != '+';
    assert |LeadingDigits(p)| > 0;
  }

  /** A numeral parses to its value. */
  lemma ParseIntNumeral(d: string)
    requires |d| > 0 && AllDigits(d)
    ensures ParseInt(d) == Some(DecimalValue(d))
  {
    assert d + "" == d;
    ParseIntStopsAtNonDigit(d, "");
  }

  /** `parseInt(String(n), 10)` gives back `n` for every integer `n`. */
  lemma ParseIntRoundTrip(n: int)
    ensures ParseInt(IntToString(n)) == Some(n)
  {
    if n < 0 {
      var u := NatToString(-n);
      var s := "-" + u;
      assert TrimStart(s) == s;
      assert s[1..] == u;
      LeadingDigitsOfNumeral(u, "");
      assert u + "" == u;
    } else {
      ParseIntNumeral(NatToString(n));
    }
  }

  /** Whitespace before the number is skipped. */
  lemma ParseIntSkipsWhitespace(w: string, s: string)
    requires AllWhitespace(w)
    ensures ParseInt(w + s) == ParseInt(s)
  {
    TrimStartSkips(w, s);
  }

  lemma {:induction false} TrimStartSkips(w: string, s: string)
    requires AllWhitespace(w)
    ensures TrimStart(w + s) == TrimStart(s)
    decreases |w|
  {
    if |w| > 0 {
      assert (w + s)[0] == w[0];
      assert (w + s)[1..] == w[1..] + s;
      TrimStartSkips(w[1..], s);
    } else {
      assert w + s == s;
    }
  }

  /** Whitespace before a string does not change its trimmed form. */
  lemma TrimSkipsLeadingWhitespace(w: string, s: string)
    requires AllWhitespace(w)
    ensures Trim(w + s) == Trim(s)
  {
    TrimStartSkips(w, s);
  }
}

=== FILE: list_controller.dfy ===
/**
 * The list-and-paginate controller every list page and both dashboard reports repeat:
 * pagination state, the fetch effect that re-runs whenever the page index, the page
 * size or the search text changes, the rows-per-page and page-change handlers, and
 * delete-then-refetch.  Reports have no search text (`search == None`).
 *
 * The fetch effect is modelled by `Settle`: React runs it after a render in which one
 * of its dependencies differs from the values it last ran with (`ranFor`), and on mount.
 * The server's answer to a fetch is an input; `None` stands for a response without data.
 */
module ListController {
  import opened Wrappers
  import opened Feedback
  import opened Api

  /** Initial page size of the list pages and of the reports. */
  const ListPageSize: int := 10
  const ReportPageSize: int := 5

  /** The dependencies of the fetch effect. */
  datatype Deps = Deps(pageIndex: int, pageSize: int, search: Option<string>)

  datatype ListState<R> = ListState(
    rows: Option<seq<R>>,       // `None` until a first answer (reports start undefined)
    count: int,
    pageSize: int,
    pageIndex: int,             // one-based page number reported by the table
    resetPagination: bool,
    defaultPage: int,
    search: Option<string>,
    vars: ListVars,             // the variables the query last used
    ranFor: Option<Deps>)       // dependencies of the last effect run; `None` before mount

  function DepsOf<R>(s: ListState<R>): Deps
  {
    Deps(s.pageIndex, s.pageSize, s.search)
  }

  /** Nothing for the fetch effect to do. */
  predicate Settled<R>(s: ListState<R>) { s.ranFor == Some(DepsOf(s)) }

  /** A list page as mounted: empty rows, page 1 of 10, empty search, and the query
      declared with offset 0, limit 10 and an empty search. */
  function InitList<R>(): (s: ListState<R>)
    ensures s.rows == Some([]) && s.count == 0 && !Settled(s)
  {
    ListState(Some([]), 0, ListPageSize, 1, false, 1, Some(""), ListVars(0, ListPageSize, Some("")), None)
  }

  /** A report as mounted: rows undefined, page 1 of 5, no search. */
  function InitReport<R>(): (s: ListState<R>)
    ensures s.rows.None? && s.count == 0 && s.search.None? && !Settled(s)
  {
    ListState(None, 0, ReportPageSize, 1, false, 1, None, ListVars(0, ReportPageSize, None), None)
  }

  /** The row offset of a one-based page. */
  function Offset(pageIndex: int, pageSize: int): (r: int)
    ensures pageIndex == 1 ==> r == 0
    ensures pageIndex >= 1 && pageSize >= 0 ==> r >= 0
  {
    (pageIndex - 1) * pageSize
  }

  /** What the effect hands to `refetch`. */
  function FetchUpdate<R>(s: ListState<R>): VarsUpdate
  {
    VarsUpdate(Some(Offset(s.pageIndex, s.pageSize)), Some(s.pageSize), s.search)
  }

  /** The variables of the effect's fetch, once laid over the previous ones. */
  function FetchVars<R>(s: ListState<R>): (r: ListVars)
    ensures r.page == Offset(s.pageIndex, s.pageSize) && r.limit == s.pageSize
    ensures s.search.Some? ==> r.nameSearch == s.search
    ensures s.search.None? ==> r.nameSearch == s.vars.nameSearch
  {
    Merge(s.vars, FetchUpdate(s))
  }

  /** One run of the fetch effect with the server's `answer`: rows and count change only
      when the answer carries data. */
  function RunFetch<R>(s: ListState<R>, answer: Option<Page<R>>): (r: ListState<R>)
    ensures r.vars == FetchVars(s) && r.ranFor == Some(DepsOf(s))
    ensures DepsOf(r) == DepsOf(s) && Settled(r)
    ensures r.resetPagination == s.resetPagination && r.defaultPage == s.defaultPage
    ensures answer.Some? ==> r.rows == Some(answer.value.rows) && r.count == answer.value.count
    ensures answer.None? ==> r.rows == s.rows && r.count == s.count
  {
    var fetched := s.(vars := FetchVars(s), ranFor := Some(DepsOf(s)));
    match answer
    case None => fetched
    case Some(p) => fetched.(rows := Some(p.rows), count := p.count)
  }

  /** The outcome of letting the effects run: the final state and how many fetches were
      sent. */
  datatype Settling<R> = Settling(state: ListState<R>, fetches: nat)

  /** React runs the fetch effect when its dependencies changed; `respond` is the server. */
  function Settle<R>(s: ListState<R>, respond: ListVars -> Option<Page<R>>): (r: Settling<R>)
    ensures Settled(r.state) && DepsOf(r.state) == DepsOf(s)
    ensures r.fetches == 0 <==> Settled(s)
    ensures r.fetches == 0 ==> r.state == s
    ensures r.fetches == 1 ==> r.state == RunFetch(s, respond(FetchVars(s)))
    ensures r.fetches <= 1
  {
    if Settled(s) then Settling(s, 0) else Settling(RunFetch(s, respond(FetchVars(s))), 1)
  }

  /** `handleChangeRowsPerPage`: back to the default page 1, the reset flag set, the new
      size; the page index is left as it is. */
  function ChangeRowsPerPage<R>(s: ListState<R>, n: int): (r: ListState<R>)
    ensures r.pageSize == n && r.defaultPage == 1 && r.resetPagination
    ensures r.pageIndex == s.pageIndex && r.search == s.search
    ensures r.rows == s.rows && r.count == s.count && r.vars == s.vars && r.ranFor == s.ranFor
  {
    s.(defaultPage := 1, resetPagination := true, pageSize := n)
  }

  /** `handleChangePage`: the table reports the one-based page it moved to. */
  function ChangePage<R>(s: ListState<R>, page: int): (r: ListState<R>)
    ensures r.pageIndex == page && r.pageSize == s.pageSize && r.search == s.search
    ensures r.rows == s.rows && r.vars == s.vars && r.ranFor == s.ranFor
  {
    s.(pageIndex := page)
  }

  /** The (debounced) search box of a list page. */
  function Search<R>(s: ListState<R>, text: string): (r: ListState<R>)
    ensures r.search == Some(text) && r.pageIndex == s.pageIndex && r.pageSize == s.pageSize
    ensures r.rows == s.rows && r.vars == s.vars && r.ranFor == s.ranFor
  {
    s.(search := Some(text))
  }

  /** The table is rendered once rows are defined. */
  predicate TableShown<R>(s: ListState<R>) { s.rows.Some? }

  /** The outcome of a handler that also changes the list: the new state and the log. */
  datatype Handled<R> = Handled(state: ListState<R>, log: seq<Effect<R>>)

  /** A delete handler whose refetch asks for `limit` rows: after confirmation, delete the
      record, refetch the first page, and on data replace rows and count and say so. */
  function DeleteAt<R>(s: ListState<R>, limit: int, id: int, confirmed: bool, deleted: Result<Unit>,
                       refetched: Result<Option<Page<R>>>, deletedTitle: string): (r: Handled<R>)
    ensures !confirmed ==> r.state == s && r.log == []
    ensures confirmed ==> Requests(r.log) == [Delete(id)]
    ensures confirmed && deleted.Err? ==> r.state == s && Failures(r.log) == [deleted.message]
    ensures confirmed && deleted.Ok? ==>
      r.state.vars == ListVars(0, limit, s.vars.nameSearch) && Refetch(FirstPage(limit)) in r.log
    ensures DepsOf(r.state) == DepsOf(s) && r.state.ranFor == s.ranFor
    ensures (r.state.rows, r.state.count) != (s.rows, s.count) ==> confirmed && deleted.Ok? && refetched.Ok?
    ensures confirmed && deleted.Ok? && refetched.Ok? && refetched.value.Some? ==>
      r.state.rows == Some(refetched.value.value.rows) && r.state.count == refetched.value.value.count
      && Toasts(r.log) == [Toast(SuccessToast, deletedTitle, Some(""))]
    ensures Toasts(r.log) != [] ==> confirmed && deleted.Ok? && refetched.Ok? && refetched.value.Some?
    ensures confirmed && deleted.Ok? && refetched.Err? ==> Failures(r.log) == [refetched.message]
  {
    if !confirmed then Handled(s, [])
    else
      match deleted
      case Err(m) =>
        var log: seq<Effect<R>> := [Send(Delete(id)), Fail(m)];
        assert Requests(log) == [Delete(id)] + Requests<R>([Fail(m)]);
        assert Failures(log) == Failures<R>([Fail(m)]);
        ToastsOfQuiet(log);
        Handled(s, log)
      case Ok(_) =>
        var head: seq<Effect<R>> := [Send(Delete(id)), Refetch(FirstPage(limit))];
        var tail := RefetchedTail(refetched, deletedTitle);
        var moved := s.(vars := Merge(s.vars, FirstPage(limit)));
        DeleteHead<R>(id, limit);
        RequestsAppend(head, tail);
        ToastsAppend(head, tail);
        FailuresAppend(head, tail);
        assert (head + tail)[1] == Refetch(FirstPage(limit));
        if refetched.Ok? && refetched.value.Some? then
          var p := refetched.value.value;
          Handled(moved.(rows := Some(p.rows), count := p.count), head + tail)
        else
          Handled(moved, head + tail)
  }

  /** `handleDelete` as written: it is memoised on `[openModal]`, which never changes, so
      it keeps the closure of the page's first render and its refetch always asks for the
      initial page size, whatever the rows per page are now. */
  function DeleteFlow<R>(s: ListState<R>, id: int, confirmed: bool, deleted: Result<Unit>,
                         refetched: Result<Option<Page<R>>>, deletedTitle: string): (r: Handled<R>)
    ensures confirmed && deleted.Ok? ==>
      r.state.vars.limit == ListPageSize && Refetch(FirstPage(ListPageSize)) in r.log
    ensures r.state.pageSize == s.pageSize && r.state.pageIndex == s.pageIndex
  {
    DeleteAt(s, ListPageSize, id, confirmed, deleted, refetched, deletedTitle)
  }

  /** Corrected: the delete handler reads the current page size. */
  function DeleteFlowCorrected<R>(s: ListState<R>, id: int, confirmed: bool, deleted: Result<Unit>,
                                  refetched: Result<Option<Page<R>>>, deletedTitle: string): (r: Handled<R>)
    ensures confirmed && deleted.Ok? ==>
      r.state.vars.limit == r.state.pageSize && Refetch(FirstPage(s.pageSize)) in r.log
    ensures r.state.pageSize == s.pageSize && r.state.pageIndex == s.pageIndex
  {
    DeleteAt(s, s.pageSize, id, confirmed, deleted, refetched, deletedTitle)
  }

  /** The start of a delete that went through: the request and the refetch. */
  lemma DeleteHead<R>(id: int, pageSize: int)
    ensures var head: seq<Effect<R>> := [Send(Delete(id)), Refetch(FirstPage(pageSize))];
      Requests(head) == [Delete(id)] && Toasts(head) == [] && Failures(head) == []
  {
    var head: seq<Effect<R>> := [Send(Delete(id)), Refetch(FirstPage(pageSize))];
    assert Requests(head) == [Delete(id)] + Requests<R>(head[1..]);
    ToastsOfQuiet(head);
    FailuresOfQuiet(head);
  }

  /** What the delete handler does with the refetch's answer: load rows and count and
      announce the delete on data, report a failure, or do nothing without data. */
  function RefetchedTail<R>(refetched: Result<Option<Page<R>>>, deletedTitle: string): (r: seq<Effect<R>>)
    ensures Requests(r) == []
    ensures refetched.Ok? && refetched.value.Some? ==>
      Toasts(r) == [Toast(SuccessToast, deletedTitle, Some(""))]
      && |r| == 3 && r[0] == LoadRows(refetched.value.value.rows) && r[1] == SetCount(refetched.value.value.count)
    ensures !(refetched.Ok? && refetched.value.Some?) ==> Toasts(r) == []
    ensures refetched.Err? ==> Failures(r) == [refetched.message]
    ensures refetched.Ok? ==> Failures(r) == []
  {
    match refetched
    case Err(m) =>
      var r: seq<Effect<R>> := [Fail(m)];
      RequestsOfQuiet(r);
      ToastsOfQuiet(r);
      assert Failures(r) == [m] + Failures<R>([]);
      r
    case Ok(None) => []
    case Ok(Some(p)) =>
      var r: seq<Effect<R>> := [LoadRows(p.rows), SetCount(p.count), Notify(Toast(SuccessToast, deletedTitle, Some("")))];
      RequestsOfQuiet(r);
      FailuresOfQuiet(r);
      assert Toasts(r) == Toasts<R>(r[1..]);
      assert Toasts(r[1..]) == Toasts<R>(r[2..]);
      assert Toasts(r[2..]) == [Toast(SuccessToast, deletedTitle, Some(""))] + Toasts<R>([]);
      r
  }

  // ---- Properties ----

  /** The query's declared variables are the ones the mount fetch sends again. */
  lemma MountRefetchesDeclaredVariables<R>()
    ensures FetchVars(InitList<R>()) == InitList<R>().vars
    ensures FetchVars(InitReport<R>()) == InitReport<R>().vars
  {
  }

  /** Consecutive pages are adjacent windows of `pageSize` rows, the first at offset 0. */
  lemma PagesTile(pageIndex: int, pageSize: int)
    ensures Offset(1, pageSize) == 0
    ensures Offset(pageIndex + 1, pageSize) == Offset(pageIndex, pageSize) + pageSize
  {
  }

  /** Two different pages of the same positive size never share a row. */
  lemma {:induction false} PagesDisjoint(i: int, j: int, pageSize: int)
    requires 1 <= i < j && pageSize > 0
    ensures Offset(i, pageSize) + pageSize <= Offset(j, pageSize)
  {
    assert Offset(j, pageSize) - Offset(i, pageSize) == (j - i) * pageSize;
    assert (j - i) * pageSize == pageSize + (j - i - 1) * pageSize;
    assert (j - i - 1) * pageSize >= 0;
  }

  /** After the effects settle, the query shows exactly the page the table reports, at
      its size, with the current search. */
  lemma SettledFetchMatchesTable<R>(s: ListState<R>, respond: ListVars -> Option<Page<R>>)
    requires !Settled(s) && s.search.Some?
    ensures var t := Settle(s, respond).state;
      t.vars == ListVars(Offset(s.pageIndex, s.pageSize), s.pageSize, s.search)
  {
  }

  /** Changing the rows per page refetches exactly when the size really changes, at the
      old page index scaled by the new size. */
  lemma RowsPerPageRefetch<R>(s: ListState<R>, n: int, respond: ListVars -> Option<Page<R>>)
    requires Settled(s)
    ensures var r := Settle(ChangeRowsPerPage(s, n), respond);
      (r.fetches == 1 <==> n != s.pageSize)
      && (n != s.pageSize ==> r.state.vars.page == (s.pageIndex - 1) * n && r.state.vars.limit == n)
  {
  }

  /** Moving to another page fetches that page once. */
  lemma PageChangeFetchesThatPage<R>(s: ListState<R>, page: int, respond: ListVars -> Option<Page<R>>)
    requires Settled(s)
    ensures var r := Settle(ChangePage(s, page), respond);
      (r.fetches == 1 <==> page != s.pageIndex)
      && (page != s.pageIndex ==> r.state.vars.page == (page - 1) * s.pageSize)
  {
  }

  /** A new search text is fetched at the current page index: searching does not go back
      to the first page. */
  lemma SearchKeepsPageIndex<R>(s: ListState<R>, text: string, respond: ListVars -> Option<Page<R>>)
    requires Settled(s) && s.search != Some(text)
    ensures var r := Settle(Search(s, text), respond);
      r.fetches == 1 && r.state.vars == ListVars(Offset(s.pageIndex, s.pageSize), s.pageSize, Some(text))
  {
  }

  /** A settled page stays settled: letting the effects run twice fetches once. */
  lemma SettleIdempotent<R>(s: ListState<R>, respond: ListVars -> Option<Page<R>>)
    ensures Settle(Settle(s, respond).state, respond) == Settling(Settle(s, respond).state, 0)
  {
  }

  /** The delete refetch does not pass the search text, so the query keeps the one it
      used last: after a fetch the first page comes back filtered by the current search,
      at the initial page size. */
  lemma DeleteKeepsSearch<R>(s: ListState<R>, answer: Option<Page<R>>, id: int,
                             refetched: Result<Option<Page<R>>>, title: string)
    requires s.search.Some?
    ensures var r := DeleteFlow(RunFetch(s, answer), id, true, Ok(Unit), refetched, title);
      r.state.vars == ListVars(0, ListPageSize, s.search)
  {
  }

  /** As written, after the rows per page change to `n`, a delete loads a first page of the
      initial size while the table keeps `n`, and no effect run repairs it: the state is
      settled. */
  lemma DeleteAfterResizeAsWritten<R>(s: ListState<R>, n: int, respond: ListVars -> Option<Page<R>>,
                                      id: int, p: Page<R>, title: string)
    requires n != ListPageSize
    ensures var t := Settle(ChangeRowsPerPage(s, n), respond).state;
      var r := DeleteFlow(t, id, true, Ok(Unit), Ok(Some(p)), title).state;
      r.pageSize == n && r.vars.limit == ListPageSize && r.vars.limit != r.pageSize
      && r.rows == Some(p.rows) && Settled(r)
  {
  }

  /** Corrected: after the same resize, the delete refetches `n` rows, the size the table shows. */
  lemma DeleteAfterResizeCorrected<R>(s: ListState<R>, n: int, respond: ListVars -> Option<Page<R>>,
                                      id: int, p: Page<R>, title: string)
    ensures var t := Settle(ChangeRowsPerPage(s, n), respond).state;
      var r := DeleteFlowCorrected(t, id, true, Ok(Unit), Ok(Some(p)), title).state;
      r.pageSize == n && r.vars == ListVars(0, n, t.vars.nameSearch) && r.rows == Some(p.rows) && Settled(r)
  {
  }

  /** A delete does not move the table: the page index stays where it was, though the
      rows are now those of the first page. */
  lemma DeleteLeavesPageIndex<R>(s: ListState<R>, id: int, p: Page<R>, title: string)
    ensures var r := DeleteFlow(s, id, true, Ok(Unit), Ok(Some(p)), title);
      r.state.pageIndex == s.pageIndex && r.state.rows == Some(p.rows) && r.state.vars.page == 0
      && Settled(r.state) == Settled(s)
  {
  }

  /** A report's table appears with the first answer carrying data and never hides again. */
  lemma ReportTableAppears<R>(p: Page<R>)
    ensures !TableShown(InitReport<R>())
    ensures TableShown(RunFetch(InitReport<R>(), Some(p)))
    ensures !TableShown(RunFetch(InitReport<R>(), None))
  {
  }

  lemma TableStaysShown<R>(s: ListState<R>, answer: Option<Page<R>>, n: int, page: int)
    requires TableShown(s)
    ensures TableShown(RunFetch(s, answer)) && TableShown(ChangeRowsPerPage(s, n))
    ensures TableShown(ChangePage(s, page))
  {
  }
}

=== FILE: pages.dfy ===
/**
 * The list pages' own handlers: which record the modal opens with, under which title,
 * and what it shows; the cellphone column's formatting; the password reset; the
 * profile form's initial data; and the toast each page shows after a delete.
 */
module Pages {
  import opened Wrappers
  import opened JsText
  import opened Feedback
  import opened Api
  import opened SelectField
  import opened Forms
  import opened Submit
  import opened ListController
  import Session

  // ---- The shared modal ----

  /** The modal is open or closed; only the page decides its title and content. */
  datatype SimpleModal<E> = SimpleModal(open: bool, title: Option<string>, record: E)

  /** `openModal()` together with the page's `setModalTitle` and record setter. */
  function Open<E>(m: SimpleModal<E>, title: string, record: E): (r: SimpleModal<E>)
    ensures r.open && r.title == Some(title) && r.record == record
  {
    SimpleModal(true, Some(title), record)
  }

  /** Pages whose modal holds either the record's form or a read-only listing. */
  datatype Mode = FormMode | ListingMode

  datatype DetailModal<E, X> = DetailModal(
    open: bool, title: Option<string>, mode: Mode, record: E, listing: seq<X>)

  /** What the modal renders: nothing while closed, else the form or the listing. */
  datatype Content<E, X> = Hidden | FormShown(record: E) | ListingShown(listing: seq<X>)

  function ContentOf<E, X>(m: DetailModal<E, X>): (c: Content<E, X>)
    ensures c.Hidden? <==> !m.open
    ensures c.FormShown? <==> m.open && m.mode == FormMode
    ensures c.FormShown? ==> c.record == m.record
    ensures c.ListingShown? ==> c.listing == m.listing
  {
    if !m.open then Hidden
    else if m.mode == FormMode then FormShown(m.record)
    else ListingShown(m.listing)
  }

  /** Opening the form for a record; the previous listing stays in state. */
  function EditIn<E, X>(m: DetailModal<E, X>, title: string, record: E): (r: DetailModal<E, X>)
    ensures r.open && r.title == Some(title) && r.mode == FormMode
    ensures r.record == record && r.listing == m.listing
  {
    DetailModal(true, Some(title), FormMode, record, m.listing)
  }

  /** Opening a listing; the form's record is cleared to `empty`. */
  function ListIn<E, X>(m: DetailModal<E, X>, title: string, listing: seq<X>, empty: E): (r: DetailModal<E, X>)
    ensures r.open && r.title == Some(title) && r.mode == ListingMode
    ensures r.record == empty && r.listing == listing
  {
    DetailModal(true, Some(title), ListingMode, empty, listing)
  }

  /** Whatever the modal showed before, the last handler alone decides what it shows. */
  lemma LastHandlerWins<E, X>(m: DetailModal<E, X>, title: string, record: E, listing: seq<X>, empty: E)
    ensures ContentOf(EditIn(m, title, record)) == FormShown(record)
    ensures ContentOf(ListIn(m, title, listing, empty)) == ListingShown(listing)
  {
  }

  /** A hidden input's text for an id that may be absent. */
  function IdText(id: Option<int>): (t: string)
    ensures id.None? <==> !Truthy(t)
    ensures id.Some? ==> ParseInt(t) == id
  {
    match id
    case None => ""
    case Some(n) =>
      ParseIntRoundTrip(n);
      assert |IntToString(n)| > 0 by {
        if n < 0 { assert IntToString(n)[0] == '-'; } else { assert |NatToString(n)| > 0; }
      }
      IntToString(n)
  }

  // ---- Clients ----

  datatype ClientRecord = ClientRecord(id: Option<int>, name: Option<string>, cellphone: Option<string>)

  /** `{} as ClientInterface`. */
  const NoClient: ClientRecord := ClientRecord(None, None, None)

  datatype ClientRow<S> = ClientRow(id: int, name: string, cellphone: string, sales: seq<S>)

  function ClientEdit<S>(m: DetailModal<ClientRecord, S>, row: ClientRow<S>): (r: DetailModal<ClientRecord, S>)
    ensures ContentOf(r) == FormShown(ClientRecord(Some(row.id), Some(row.name), Some(row.cellphone)))
    ensures r.title == Some("Editar cliente")
  {
    EditIn(m, "Editar cliente", ClientRecord(Some(row.id), Some(row.name), Some(row.cellphone)))
  }

  function ClientShopping<S>(m: DetailModal<ClientRecord, S>, row: ClientRow<S>): (r: DetailModal<ClientRecord, S>)
    ensures ContentOf(r) == ListingShown(row.sales) && r.record == NoClient
    ensures r.title == Some("Compras - " + row.name)
  {
    ListIn(m, "Compras - " + row.name, row.sales, NoClient)
  }

  function ClientOpenCreate<S>(m: DetailModal<ClientRecord, S>): (r: DetailModal<ClientRecord, S>)
    ensures ContentOf(r) == FormShown(NoClient) && r.title == Some("Cadastrar cliente")
  {
    EditIn(m, "Cadastrar cliente", NoClient)
  }

  /** The form's initial values: an absent field is an empty input. */
  function ClientFormOf(c: ClientRecord): (f: ClientForm)
    ensures f.name == c.name.GetOr("") && f.cellphone == c.cellphone.GetOr("")
    ensures Truthy(f.id) <==> c.id.Some?
  {
    ClientForm(IdText(c.id), c.name.GetOr(""), c.cellphone.GetOr(""))
  }

  /** Saving the form opened by "edit" updates that client, with its own fields. */
  lemma {:induction false} EditedClientIsUpdated<S>(m: DetailModal<ClientRecord, S>, row: ClientRow<S>)
    ensures ContentOf(ClientEdit(m, row)).FormShown?
    ensures ClientRequest(ClientFormOf(ContentOf(ClientEdit(m, row)).record))
         == UpdateClient(Some(row.id), row.name, row.cellphone)
  {
    var f := ClientFormOf(ClientRecord(Some(row.id), Some(row.name), Some(row.cellphone)));
    assert ParseInt(f.id) == Some(row.id);
  }

  /** Opening "create" after viewing a client's purchases creates a new client: the
      purchases view cleared the record, so no id is carried over. */
  lemma {:induction false} CreateAfterShoppingCreates<S>(m: DetailModal<ClientRecord, S>, row: ClientRow<S>,
                                                        name: string, cellphone: string)
    ensures ContentOf(ClientOpenCreate(ClientShopping(m, row))) == FormShown(NoClient)
    ensures ClientRequest(ClientFormOf(NoClient).(name := name, cellphone := cellphone))
         == CreateClient(name, cellphone)
  {
    assert !Truthy(ClientFormOf(NoClient).id);
  }

  /** Where the cellphone column puts its dash: after five digits for a nine-digit
      number, after four otherwise (JavaScript's `slice` clamps to the length). */
  function DashAt(n: nat): (k: nat)
    ensures k <= n
    ensures n == 9 ==> k == 5
    ensures n != 9 ==> k == if n < 4 then n else 4
  {
    if n == 9 then 5 else if n < 4 then n else 4
  }

  function ConvertCellphone(s: string): (r: string)
    ensures |r| == |s| + 1 && r[DashAt(|s|)] == '-'
  {
    var k := DashAt(|s|);
    s[..k] + "-" + s[k..]
  }

  /** Dropping the dash gives back the stored number; a cellphone is shown as two
      groups with four digits after the dash. */
  lemma {:induction false} DashRemovalRestores(s: string)
    ensures var r := ConvertCellphone(s); var k := DashAt(|s|);
      r[..k] + r[k + 1..] == s
    ensures IsCellphone(s) ==> |ConvertCellphone(s)| - DashAt(|s|) - 1 == 4
    ensures AllDigits(s) ==> forall i :: 0 <= i < |ConvertCellphone(s)| && i != DashAt(|s|) ==>
      IsDigit(ConvertCellphone(s)[i])
  {
    var r := ConvertCellphone(s);
    var k := DashAt(|s|);
    assert r[..k] == s[..k];
    assert r[k + 1..] == s[k..];
    assert s[..k] + s[k..] == s;
    if AllDigits(s) {
      forall i | 0 <= i < |r| && i != k
        ensures IsDigit(r[i])
      {
        if i < k { assert r[i] == s[i]; } else { assert r[i] == s[i - 1]; }
      }
    }
  }

  // ---- Companies ----

  datatype CompanyRecord = CompanyRecord(id: Option<int>, name: Option<string>)

  const NoCompany: CompanyRecord := CompanyRecord(None, None)

  datatype CompanyRow<U> = CompanyRow(id: int, name: string, users: seq<U>)

  function CompanyEdit<U>(m: DetailModal<CompanyRecord, U>, row: CompanyRow<U>): (r: DetailModal<CompanyRecord, U>)
    ensures ContentOf(r) == FormShown(CompanyRecord(Some(row.id), Some(row.name)))
    ensures r.title == Some("Editar empresa")
  {
    EditIn(m, "Editar empresa", CompanyRecord(Some(row.id), Some(row.name)))
  }

  function CompanySalesmen<U>(m: DetailModal<CompanyRecord, U>, row: CompanyRow<U>): (r: DetailModal<CompanyRecord, U>)
    ensures ContentOf(r) == ListingShown(row.users) && r.record == NoCompany
    ensures r.title == Some("Vendedores - " + row.name)
  {
    ListIn(m, "Vendedores - " + row.name, row.users, NoCompany)
  }

  function CompanyOpenCreate<U>(m: DetailModal<CompanyRecord, U>): (r: DetailModal<CompanyRecord, U>)
    ensures ContentOf(r) == FormShown(NoCompany) && r.title == Some("Cadastrar empresa")
  {
    EditIn(m, "Cadastrar empresa", NoCompany)
  }

  function CompanyFormOf(c: CompanyRecord): (f: CompanyForm)
    ensures f.name == c.name.GetOr("")
    ensures Truthy(f.id) <==> c.id.Some?
  {
    CompanyForm(IdText(c.id), c.name.GetOr(""))
  }

  lemma {:induction false} EditedCompanyIsUpdated<U>(m: DetailModal<CompanyRecord, U>, row: CompanyRow<U>)
    ensures ContentOf(CompanyEdit(m, row)).FormShown?
    ensures CompanyRequest(CompanyFormOf(ContentOf(CompanyEdit(m, row)).record))
         == UpdateCompany(Some(row.id), row.name)
  {
    var f := CompanyFormOf(CompanyRecord(Some(row.id), Some(row.name)));
    assert ParseInt(f.id) == Some(row.id);
  }

  // ---- Products ----

  /** A product as the form receives it; `price` is already formatted. */
  datatype ProductRecord = ProductRecord(
    id: Option<int>, name: Option<string>, category: Option<string>, price: Option<string>,
    companyId: Option<int>, amount: Option<int>)

  const NoProduct: ProductRecord := ProductRecord(None, None, None, None, None, None)

  datatype ProductRow = ProductRow(
    id: int, name: string, category: string, price: string, company: Option<Named>, amount: int)

  /** `formatPrice` is the two-decimals rendering of the stored price. */
  function ProductEdit(m: SimpleModal<ProductRecord>, row: ProductRow, formatPrice: string -> string)
    : (r: SimpleModal<ProductRecord>)
    ensures r.open && r.title == Some("Editar produto")
    ensures r.record.id == Some(row.id) && r.record.name == Some(row.name)
    ensures r.record.category == Some(row.category) && r.record.amount == Some(row.amount)
    ensures r.record.price == Some(formatPrice(row.price))
    ensures r.record.companyId.Some? <==> row.company.Some?
    ensures row.company.Some? ==> r.record.companyId == Some(row.company.value.id)
  {
    var companyId := match row.company case None => None case Some(c) => Some(c.id);
    Open(m, "Editar produto",
         ProductRecord(Some(row.id), Some(row.name), Some(row.category), Some(formatPrice(row.price)),
                       companyId, Some(row.amount)))
  }

  function ProductOpenCreate(m: SimpleModal<ProductRecord>): (r: SimpleModal<ProductRecord>)
    ensures r.open && r.title == Some("Cadastrar produto") && r.record == NoProduct
  {
    Open(m, "Cadastrar produto", NoProduct)
  }

  /** The company select of an edited product preselects that product's company when
      it has one, and shows its first choices otherwise. */
  lemma ProductCompanyPreselected(m: SimpleModal<ProductRecord>, row: ProductRow, formatPrice: string -> string,
                                  options: seq<Choice<int>>, previous: seq<Choice<int>>)
    requires row.company.Some? && row.company.value.id != 0
    ensures var d := ProductEdit(m, row, formatPrice).record.companyId;
      SingleDefaultTruthy(d) && PreselectSingle(options, d, previous) == WithValue(options, row.company.value.id)
  {
  }

  /** The product form's company choices.  At mount a non-admin gets the companies of
      their own claim; the company query, once answered, replaces the choices with every
      company it returned.  `user` is the signed-in user's claim. */
  function CompanyChoices(user: Session.User, listed: Option<seq<Named>>): (r: seq<Choice<int>>)
    ensures listed.Some? ==> r == OptionsFrom(listed.value)
    ensures listed.None? && user.typeUser != Some("admin") && user.companies.Some? ==>
      r == OptionsFrom(user.companies.value)
    ensures listed.None? && (user.typeUser == Some("admin") || user.companies.None?) ==> r == []
  {
    var atMount := if user.typeUser != Some("admin") && user.companies.Some?
                   then OptionsFrom(user.companies.value) else [];
    match listed
    case Some(companies) => OptionsFrom(companies)
    case None => atMount
  }

  /** Until the query answers, a non-admin can pick exactly their own companies, in order. */
  lemma {:induction false} NonAdminPicksOwnCompanies(user: Session.User)
    requires user.typeUser != Some("admin") && user.companies.Some?
    ensures var r := CompanyChoices(user, None);
      |r| == |user.companies.value|
      && forall i :: 0 <= i < |r| ==> r[i] == Choice(user.companies.value[i].id, user.companies.value[i].name)
  {
    var r := CompanyChoices(user, None);
    forall i | 0 <= i < |r|
      ensures r[i] == Choice(user.companies.value[i].id, user.companies.value[i].name)
    {
      assert r[i].value == user.companies.value[i].id && r[i].caption == user.companies.value[i].name;
    }
  }

  // ---- Sales ----

  /** The sale modal only ever opens empty, to create a sale. */
  function SaleOpenCreate<E>(m: SimpleModal<Option<E>>): (r: SimpleModal<Option<E>>)
    ensures r.open && r.title == Some("Cadastrar venda") && r.record.None?
  {
    Open(m, "Cadastrar venda", None)
  }

  // ---- Users ----

  datatype UserRecord = UserRecord(
    id: Option<int>, name: Option<string>, email: Option<string>, companies: Option<seq<Named>>)

  const NoUser: UserRecord := UserRecord(None, None, None, None)

  datatype UserRow = UserRow(id: int, name: string, email: string, companies: seq<Named>)

  /** Before any handler ran the page holds no user at all. */
  function UserEdit(m: SimpleModal<Option<UserRecord>>, row: UserRow): (r: SimpleModal<Option<UserRecord>>)
    ensures r.open && r.title == Some("Editar vendedor")
    ensures r.record == Some(UserRecord(Some(row.id), Some(row.name), Some(row.email), Some(row.companies)))
  {
    Open(m, "Editar vendedor", Some(UserRecord(Some(row.id), Some(row.name), Some(row.email), Some(row.companies))))
  }

  function UserOpenCreate(m: SimpleModal<Option<UserRecord>>): (r: SimpleModal<Option<UserRecord>>)
    ensures r.open && r.title == Some("Cadastrar vendedor") && r.record == Some(NoUser)
  {
    Open(m, "Cadastrar vendedor", Some(NoUser))
  }

  /** `!listUser.id`: the password inputs exist while the record has no truthy id. */
  predicate PasswordInputsShown(u: UserRecord) { u.id.None? || u.id == Some(0) }

  /** The ids of a record's companies, which the multi select's filter compares with. */
  function CompanyIds(c: seq<Named>): (r: seq<int>)
    ensures |r| == |c| && forall i :: 0 <= i < |r| ==> r[i] == c[i].id
  {
    seq(|c|, i requires 0 <= i < |c| => c[i].id)
  }

  /** The user form's initial values; the password inputs start empty when shown and
      are absent otherwise.  The company select is preselected from `options` (the
      companies the list query answered with) by the record's companies, so the form reads
      back the offered companies the salesman belongs to, in the options' order. */
  function UserFormOf(u: UserRecord, options: seq<Choice<int>>): (f: UserForm)
    ensures f.password.Some? <==> PasswordInputsShown(u)
    ensures f.confirmation == f.password
    ensures Truthy(f.id) <==> u.id.Some?
    ensures u.companies.None? ==> f.companies == []
    ensures u.companies.Some? ==>
      f.companies == MultiValue(Some(PreselectMulti(options, Some(CompanyIds(u.companies.value)), [])))
  {
    var password := if PasswordInputsShown(u) then Some("") else None;
    var preselected := PreselectMulti(options, (match u.companies case None => None
                                                case Some(c) => Some(CompanyIds(c))), []);
    UserForm(IdText(u.id), u.name.GetOr(""), u.email.GetOr(""), password, password, MultiValue(Some(preselected)))
  }

  /** An edited salesman is updated with the row's data and is never asked for a password;
      the companies sent are the offered ones the salesman belongs to, in the options' order. */
  lemma {:induction false} EditedUserIsUpdated(m: SimpleModal<Option<UserRecord>>, row: UserRow,
                                               options: seq<Choice<int>>, isEmail: string -> bool)
    ensures UserEdit(m, row).record.Some?
    ensures var f := UserFormOf(UserEdit(m, row).record.value, options);
      && PasswordRequired !in UserErrors(f, isEmail)
      && UserRequest(f) == UpdateUser(Some(row.id), row.name, row.email, SalesmanType, f.companies)
      && Subsequence(f.companies, MultiValue(Some(options)))
      && forall k :: k in f.companies <==> k in CompanyIds(row.companies) && k in MultiValue(Some(options))
  {
    var f := UserFormOf(UserRecord(Some(row.id), Some(row.name), Some(row.email), Some(row.companies)), options);
    assert ParseInt(f.id) == Some(row.id);
    assert Truthy(f.id);
    PreselectedValues(options, CompanyIds(row.companies));
  }

  /** The record's order plays no part: a salesman of companies 2 and 1, offered 1 then 2,
      is sent with 1 then 2, and a company that is not offered is not sent. */
  lemma {:induction false} UserCompaniesFollowOptions(m: SimpleModal<Option<UserRecord>>)
    ensures var row := UserRow(7, "Ana", "ana@x", [Named(2, "B"), Named(1, "A"), Named(3, "C")]);
      UserFormOf(UserEdit(m, row).record.value, [Choice(1, "A"), Choice(2, "B")]).companies == [1, 2]
  {
    var companies := [Named(2, "B"), Named(1, "A"), Named(3, "C")];
    var options := [Choice(1, "A"), Choice(2, "B")];
    var ids := CompanyIds(companies);
    assert ids == [2, 1, 3] by {
      assert |ids| == 3 && ids[0] == 2 && ids[1] == 1 && ids[2] == 3;
    }
    FilterFollowsOptions();
    var u := UserEdit(m, UserRow(7, "Ana", "ana@x", companies)).record.value;
    assert u.companies == Some(companies);
    assert UserFormOf(u, options).companies == MultiValue(Some(WithValueIn(options, ids)));
  }

  /** Creating shows the password inputs; editing hides them unless the id is 0. */
  lemma PasswordInputsOnlyOnCreate(m: SimpleModal<Option<UserRecord>>, row: UserRow)
    ensures PasswordInputsShown(UserOpenCreate(m).record.value)
    ensures PasswordInputsShown(UserEdit(m, row).record.value) <==> row.id == 0
  {
  }

  /** `handleResetPassword`: no confirmation; on an answer, a success toast whose title is
      the server's message; a failed mutation is not caught, so nothing is shown. */
  function ResetPasswordFlow<R>(userId: int, outcome: Result<string>): (r: seq<Effect<R>>)
    ensures Requests(r) == [ResetPassword(userId)]
    ensures outcome.Ok? ==> Toasts(r) == [Toast(SuccessToast, outcome.value, Some(""))]
    ensures outcome.Err? ==> Toasts(r) == [] && Failures(r) == []
    ensures forall e :: e in r ==> e.Send? || e.Notify?
  {
    var sent: seq<Effect<R>> := [Send(ResetPassword(userId))];
    assert Requests(sent) == [ResetPassword(userId)] + Requests<R>([]);
    match outcome
    case Err(_) =>
      ToastsOfQuiet(sent);
      FailuresOfQuiet(sent);
      sent
    case Ok(message) =>
      var shown: seq<Effect<R>> := [Notify(Toast(SuccessToast, message, Some("")))];
      RequestsOfQuiet(shown);
      RequestsAppend(sent, shown);
      ToastsOfQuiet(sent);
      ToastsAppend(sent, shown);
      assert Toasts(shown) == [Toast(SuccessToast, message, Some(""))] + Toasts<R>([]);
      sent + shown
  }

  /** Unlike the other mutations of the users page, a failed password reset reports
      nothing: the same rejection of a delete or of a save shows one failure toast. */
  lemma FailedResetIsSilent<R>(s: ListState<R>, id: int, f: UserForm, isEmail: string -> bool, message: string)
    requires UserErrors(f, isEmail) == []
    ensures Shown(ResetPasswordFlow<R>(id, Err(message))) == []
    ensures var d := DeleteFlow(s, id, true, Err(message), Ok(None), DeletedTitle(UsersPage)).log;
      Shown(d) == [FailureToast(message)]
    ensures Shown(SubmitUser<R>(f, isEmail, s.pageSize, Err(message), Ok(Page([], 0)))) == [FailureToast(message)]
  {
    var reset := ResetPasswordFlow<R>(id, Err(message));
    ShownIsToastsAndFailures(reset, message);
    var d := DeleteFlow(s, id, true, Err(message), Ok(None), DeletedTitle(UsersPage)).log;
    ShownIsToastsAndFailures(d, message);
    var saved: seq<Effect<R>> := SavedTail(SuccessTitle(f.id), s.pageSize, Ok(Page([], 0)));
    var u := SubmitFlow(UserErrors(f, isEmail), false, UserRequest(f), Err(message), saved);
    assert SubmitUser<R>(f, isEmail, s.pageSize, Err(message), Ok(Page([], 0))) == u;
    ShownIsToastsAndFailures(u, message);
  }

  // ---- Profile ----

  /** The profile form starts from the signed-in user's claim; the password inputs start empty. */
  function ProfileFormOf(u: Session.User): (f: ProfileForm)
    ensures f.id == u.id.GetOr("") && f.name == u.name.GetOr("") && f.email == u.email.GetOr("")
    ensures f.password == "" && f.confirmation == ""
  {
    ProfileForm(u.id.GetOr(""), u.name.GetOr(""), u.email.GetOr(""), "", "")
  }

  /** Without a session the profile form is empty and fails every required test; with
      one it shows the token's user. */
  lemma ProfileStartsFromSession(s: Session.AuthState, decode: string -> Session.User, isEmail: string -> bool)
    ensures !Session.Signed(s) ==>
      var errors := ProfileErrors(ProfileFormOf(Session.GetUser(s, decode)), isEmail);
      NameRequired in errors && EmailRequired in errors && PasswordRequired in errors
    ensures Session.Signed(s) ==>
      var f := ProfileFormOf(Session.GetUser(s, decode));
      var u := decode(s.token.value);
      f.id == u.id.GetOr("") && f.name == u.name.GetOr("") && f.email == u.email.GetOr("")
  {
  }

  /** The profile update carries the `typeUser` the session reads: "" without a token,
      otherwise the token's claim. */
  lemma ProfileSendsSessionType(s: Session.AuthState, decode: string -> Session.User, f: ProfileForm)
    requires Session.TypeUser(s, decode).Some?
    ensures var r := ProfileRequest(f, Session.TypeUser(s, decode).value);
      && r.UpdateProfile? && r.id == ParseInt(f.id)
      && (!Session.Signed(s) ==> r.typeUser == "")
      && (Session.Signed(s) ==> Some(r.typeUser) == decode(s.token.value).typeUser)
  {
  }

  // ---- Deleting ----

  datatype ListPage = ClientsPage | ProductsPage | SalesPage | UsersPage | CompaniesPage

  /** The success toast of each page's delete handler. */
  function DeletedTitle(p: ListPage): (t: string)
    ensures |t| > 0
  {
    match p
    case ClientsPage => "Cliente foi deletado com sucesso!"
    case ProductsPage => "Produto foi deletado com sucesso!"
    case SalesPage => "Venda foi deletada com sucesso!"
    case UsersPage => "Vendedor foi deletado com sucesso!"
    case CompaniesPage => "Empresa foi deletado com sucesso!"
  }

  /** Each page names what it deleted: no two pages share a title. */
  lemma DeletedTitlesDistinct(p: ListPage, q: ListPage)
    ensures DeletedTitle(p) == DeletedTitle(q) <==> p == q
  {
  }

  /** A delete that went through and refetched a page announces it with that page's title
      and nothing else. */
  lemma DeleteAnnouncesPage<R>(p: ListPage, s: ListState<R>, id: int, page: Page<R>)
    ensures Toasts(DeleteFlow(s, id, true, Ok(Unit), Ok(Some(page)), DeletedTitle(p)).log)
         == [Toast(SuccessToast, DeletedTitle(p), Some(""))]
  {
  }
}

=== FILE: price_pattern.dfy ===
/**
 * The currency pattern both the sale and the product forms validate `price` against:
 *
 *     (?=.*\d)^\$?(([1-9]\d{0,2}(,\d{3})*)|0)?(\.\d{1,2})?$
 *
 * (no flags: `^` and `$` anchor at the ends of the whole string and `.` stops at line
 * terminators).  `MatchesPricePattern` reads the expression as a grammar, piece by piece;
 * `IsPrice` is a deterministic recogniser, and its contract is that the two agree.
 */
module PricePattern {
  import opened JsText

  /** Line terminators, the characters `.` does not match. */
  predicate IsLineTerminator(c: char)
  {
    c == '\n' || c == '\r' || c == '\U{2028}' || c == '\U{2029}'
  }

  /** `(?=.*\d)` at position 0: a digit occurs before the first line terminator. */
  ghost predicate DigitAhead(s: string)
  {
    exists i :: 0 <= i < |s| && IsDigit(s[i]) && forall j :: 0 <= j < i ==> !IsLineTerminator(s[j])
  }

  /** `\$?` */
  predicate DollarPart(d: string) { d == "" || d == "$" }

  /** `(,\d{3})*` */
  predicate Groups(g: string)
    decreases |g|
  {
    g == "" || (|g| >= 4 && g[0] == ',' && AllDigits(g[1..4]) && Groups(g[4..]))
  }

  /** `[1-9]\d{0,2}` */
  predicate LeadRun(h: string)
  {
    1 <= |h| <= 3 && '1' <= h[0] <= '9' && AllDigits(h[1..])
  }

  /** `[1-9]\d{0,2}(,\d{3})*` with the leading run `p[..k]`. */
  predicate LeadThenGroups(p: string, k: nat)
  {
    k <= |p| && LeadRun(p[..k]) && Groups(p[k..])
  }

  /** `(([1-9]\d{0,2}(,\d{3})*)|0)?` */
  predicate IntegerPart(p: string)
  {
    p == "" || p == "0" || LeadThenGroups(p, 1) || LeadThenGroups(p, 2) || LeadThenGroups(p, 3)
  }

  /** `(\.\d{1,2})?` */
  predicate FractionPart(f: string)
  {
    f == "" || (2 <= |f| <= 3 && f[0] == '.' && AllDigits(f[1..]))
  }

  /** `s[..a]`, `s[a..b]` and `s[b..]` are the three parts of the anchored body. */
  predicate PriceSplit(s: string, a: int, b: int)
  {
    0 <= a <= b <= |s| && DollarPart(s[..a]) && IntegerPart(s[a..b]) && FractionPart(s[b..])
  }

  /** The regular expression, read as a grammar. */
  ghost predicate MatchesPricePattern(s: string)
  {
    DigitAhead(s) && exists a, b :: PriceSplit(s, a, b)
  }

  // ---------------------------------------------------------------------------
  // The recogniser

  function HasDigit(s: string): (r: bool)
    ensures r <==> exists i :: 0 <= i < |s| && IsDigit(s[i])
  {
    if |s| == 0 then false
    else if IsDigit(s[0]) then true
    else
      var r := HasDigit(s[1..]);
      assert forall i :: 1 <= i < |s| ==> s[i] == s[1..][i - 1];
      r
  }

  /** Index of the first '.' in `t`, or `|t|` when there is none. */
  function FirstDot(t: string): (b: nat)
    ensures b <= |t|
    ensures forall j :: 0 <= j < b ==> t[j] != '.'
    ensures b < |t| ==> t[b] == '.'
  {
    if |t| == 0 || t[0] == '.' then 0 else 1 + FirstDot(t[1..])
  }

  function IsIntegerPart(p: string): bool
  {
    if p == "" || p == "0" then true
    else
      var k := |LeadingDigits(p)|;
      1 <= k <= 3 && '1' <= p[0] <= '9' && Groups(p[k..])
  }

  function IsFractionPart(f: string): bool
  {
    |f| == 0 || (2 <= |f| <= 3 && f[0] == '.' && AllDigits(f[1..]))
  }

  /** Accepts `s` exactly when the price pattern matches it. */
  function IsPrice(s: string): (r: bool)
    ensures r <==> MatchesPricePattern(s)
  {
    var a := if |s| > 0 && s[0] == '$' then 1 else 0;
    var t := s[a..];
    var b := FirstDot(t);
    var r := HasDigit(s) && IsIntegerPart(t[..b]) && IsFractionPart(t[b..]);
    if r then RecogniserSound(s, a, b); true
    else RecogniserComplete(s, a, b); false
  }

  // ---------------------------------------------------------------------------
  // Why the recogniser is right

  /** Every character of a run of groups is a digit or a comma. */
  lemma {:induction false} GroupsChars(g: string)
    requires Groups(g)
    ensures forall j :: 0 <= j < |g| ==> IsDigit(g[j]) || g[j] == ','
    decreases |g|
  {
    if g != "" {
      GroupsChars(g[4..]);
      assert forall j :: 4 <= j < |g| ==> g[j] == g[4..][j - 4];
      assert forall j :: 1 <= j < 4 ==> g[j] == g[1..4][j - 1];
    }
  }

  lemma LeadThenGroupsChars(p: string, k: nat)
    requires LeadThenGroups(p, k)
    ensures forall j :: 0 <= j < |p| ==> IsDigit(p[j]) || p[j] == ','
  {
    GroupsChars(p[k..]);
    assert forall j :: k <= j < |p| ==> p[j] == p[k..][j - k];
    assert forall j :: 1 <= j < k ==> p[j] == p[..k][1..][j - 1];
  }

  /** The integer part holds only digits and commas. */
  lemma IntegerPartChars(p: string)
    requires IntegerPart(p)
    ensures forall j :: 0 <= j < |p| ==> IsDigit(p[j]) || p[j] == ','
  {
    if LeadThenGroups(p, 1) {
      LeadThenGroupsChars(p, 1);
    } else if LeadThenGroups(p, 2) {
      LeadThenGroupsChars(p, 2);
    } else if LeadThenGroups(p, 3) {
      LeadThenGroupsChars(p, 3);
    }
  }

  /** When the leading run is followed by groups, it is exactly the leading digits. */
  lemma LeadingRunIsLeadingDigits(p: string, k: nat)
    requires LeadThenGroups(p, k)
    ensures |LeadingDigits(p)| == k
  {
    var z := LeadingDigits(p);
    assert forall j :: 1 <= j < k ==> p[j] == p[..k][1..][j - 1];
    assert p[0] == p[..k][0];
    LeadingDigitsCover(p, k);
    if k < |p| {
      assert p[k] == p[k..][0];
      assert forall j :: 0 <= j < |z| ==> z[j] == p[j];
    }
  }

  /** The recogniser's integer test accepts what the grammar's integer part derives. */
  lemma IntegerPartAccepted(p: string)
    requires IntegerPart(p)
    ensures IsIntegerPart(p)
  {
    if p != "" && p != "0" {
      var k: nat := if LeadThenGroups(p, 1) then 1 else if LeadThenGroups(p, 2) then 2 else 3;
      LeadingRunIsLeadingDigits(p, k);
      assert p[0] == p[..k][0];
    }
  }

  /** The grammar's integer part derives what the recogniser's integer test accepts. */
  lemma IntegerPartDerived(p: string)
    requires IsIntegerPart(p)
    ensures IntegerPart(p)
  {
    if p != "" && p != "0" {
      var k := |LeadingDigits(p)|;
      assert p[..k] == LeadingDigits(p);
      assert forall j :: 1 <= j < k ==> p[..k][1..][j - 1] == p[..k][j];
      assert LeadThenGroups(p, k);
    }
  }

  /** A string split by the grammar holds no line terminator, so any digit of it
      satisfies the lookahead. */
  lemma LookaheadHolds(s: string, a: int, b: int, i: nat)
    requires PriceSplit(s, a, b)
    requires i < |s| && IsDigit(s[i])
    ensures DigitAhead(s)
  {
    IntegerPartChars(s[a..b]);
    forall j | 0 <= j < |s|
      ensures !IsLineTerminator(s[j])
    {
      if j < a {
        assert s[j] == s[..a][j];
      } else if j < b {
        assert s[j] == s[a..b][j - a];
      } else if j > b {
        assert s[j] == s[b..][1..][j - b - 1];
      }
    }
  }

  /** What the recogniser accepts, the grammar derives. */
  lemma RecogniserSound(s: string, a: nat, b: nat)
    requires a == (if |s| > 0 && s[0] == '$' then 1 else 0)
    requires b == FirstDot(s[a..])
    ensures HasDigit(s) && IsIntegerPart(s[a..][..b]) && IsFractionPart(s[a..][b..]) ==>
              MatchesPricePattern(s)
  {
    var t := s[a..];
    if HasDigit(s) && IsIntegerPart(t[..b]) && IsFractionPart(t[b..]) {
      assert s[a..a + b] == t[..b];
      assert s[a + b..] == t[b..];
      IntegerPartDerived(t[..b]);
      assert PriceSplit(s, a, a + b);
      var i :| 0 <= i < |s| && IsDigit(s[i]);
      LookaheadHolds(s, a, a + b, i);
    }
  }

  /** The grammar's dollar part is present exactly when `s` starts with '$'. */
  lemma DollarForced(s: string, a: int, b: int)
    requires PriceSplit(s, a, b)
    ensures a == (if |s| > 0 && s[0] == '$' then 1 else 0)
  {
    IntegerPartChars(s[a..b]);
    if a == 0 && |s| > 0 {
      if b > 0 {
        assert s[0] == s[a..b][0];
      } else {
        assert s[0] == s[b..][0];
      }
    }
  }

  /** The grammar's fraction part starts at the first dot after the dollar part. */
  lemma DotForced(s: string, a: int, b: int)
    requires PriceSplit(s, a, b)
    ensures b - a == FirstDot(s[a..])
  {
    IntegerPartChars(s[a..b]);
    var t := s[a..];
    assert forall j :: 0 <= j < b - a ==> t[j] == s[a..b][j];
    if b < |s| {
      assert s[b] == s[b..][0];
    }
  }

  /** What the grammar derives, the recogniser accepts. */
  lemma RecogniserComplete(s: string, a: nat, b: nat)
    requires a == (if |s| > 0 && s[0] == '$' then 1 else 0)
    requires b == FirstDot(s[a..])
    ensures MatchesPricePattern(s) ==>
              HasDigit(s) && IsIntegerPart(s[a..][..b]) && IsFractionPart(s[a..][b..])
  {
    if MatchesPricePattern(s) {
      var a', b' :| PriceSplit(s, a', b');
      DollarForced(s, a', b');
      DotForced(s, a', b');
      var t := s[a..];
      assert t[..b] == s[a..b'];
      assert t[b..] == s[b'..];
      IntegerPartAccepted(s[a..b']);
    }
  }

  /** Thousands are separated by commas and at most two decimals follow the dot. */
  lemma AcceptsGroupedPrice()
    ensures IsPrice("1,000.50")
  {
    var s := "1,000.50";
    assert FirstDot(s) == 5;
    assert s[..5] == "1,000";
    assert LeadingDigits("1,000") == "1";
    assert Groups(",000") by { assert ",000"[4..] == ""; }
  }

  /** Four digits without a comma are not a price. */
  lemma RejectsUngroupedThousands()
    ensures !IsPrice("1000")
  {
    assert FirstDot("1000") == 4;
    assert LeadingDigits("1000") == "1000";
  }

  /** Three decimals are too many. */
  lemma RejectsThreeDecimals()
    ensures !IsPrice("0.123")
  {
    assert FirstDot("0.123") == 1;
  }

  /** Neither an empty field nor a lone dollar sign is a price. */
  lemma RejectsDigitless()
    ensures !IsPrice("") && !IsPrice("$")
  {
  }
}

=== FILE: route_guard.dfy ===
/**
 * The route guard and the route table.  A route either renders its page or redirects:
 * a signed-in user is sent away from public pages, a visitor away from private ones,
 * and a non-admin away from admin pages.
 */
module RouteGuard {
  import opened Wrappers
  import opened JsText

  datatype Decision = Render | RedirectTo(pathname: string)

  /** The landing page; the sign-in form lives there. */
  const Landing: string := "/"

  /** Where signed-in users are sent.  The guard writes it as the relative path
      "dashboard", which resolves to "/dashboard" from the top-level pages. */
  const DashboardTarget: string := "dashboard"

  const AdminType: string := "admin"

  /** `!!token`. */
  predicate IsSigned(token: Option<string>) { token.Some? && Truthy(token.value) }

  /** The guard with its defaults: an absent `isPrivate` or `isAdmin` is false.
      `typeUser` is absent when the token's user claim has no type. */
  function Guard(isPrivate: Option<bool>, isAdmin: Option<bool>, token: Option<string>,
                 typeUser: Option<string>): (d: Decision)
    ensures d == Render <==>
      isPrivate.GetOr(false) == IsSigned(token) && !(isAdmin.GetOr(false) && typeUser != Some(AdminType))
    ensures d.RedirectTo? ==> d.pathname == (if isPrivate.GetOr(false) then Landing else DashboardTarget)
  {
    var priv := isPrivate.GetOr(false);
    var forbidden := isAdmin.GetOr(false) && typeUser != Some(AdminType);
    if priv != IsSigned(token) || forbidden then RedirectTo(if priv then Landing else DashboardTarget)
    else Render
  }

  datatype PageName = SignInPage | DashboardPage | UserPage | ProductPage | ClientPage | SalePage
                    | CompanyPage | ProfilePage

  datatype RouteEntry = RouteEntry(path: string, exact: bool, isPrivate: Option<bool>,
                                   isAdmin: Option<bool>, page: PageName)

  /** The application's routes, in order. */
  const Routes: seq<RouteEntry> := [
    RouteEntry("/", true, None, None, SignInPage),
    RouteEntry("/dashboard", false, Some(true), None, DashboardPage),
    RouteEntry("/vendedor", false, Some(true), Some(true), UserPage),
    RouteEntry("/produto", false, Some(true), None, ProductPage),
    RouteEntry("/cliente", false, Some(true), None, ClientPage),
    RouteEntry("/venda", false, Some(true), None, SalePage),
    RouteEntry("/empresa", false, Some(true), Some(true), CompanyPage),
    RouteEntry("/profile", false, Some(true), None, ProfilePage)
  ]

  predicate IsPrivateRoute(e: RouteEntry) { e.isPrivate.GetOr(false) }
  predicate IsAdminRoute(e: RouteEntry) { e.isAdmin.GetOr(false) }

  /** The first route declared for exactly this path. */
  function Lookup(path: string): (r: Option<RouteEntry>)
    ensures r.Some? ==> r.value in Routes && r.value.path == path
    ensures r.None? ==> forall e :: e in Routes ==> e.path != path
  {
    LookupIn(Routes, path)
  }

  function LookupIn(table: seq<RouteEntry>, path: string): (r: Option<RouteEntry>)
    ensures r.Some? ==> r.value in table && r.value.path == path
    ensures r.None? ==> forall e :: e in table ==> e.path != path
  {
    if |table| == 0 then None
    else if table[0].path == path then Some(table[0])
    else LookupIn(table[1..], path)
  }

  /** Visiting a declared path: what its guard decides. */
  function Visit(path: string, token: Option<string>, typeUser: Option<string>): (d: Option<Decision>)
    ensures d.Some? <==> Lookup(path).Some?
  {
    match Lookup(path)
    case None => None
    case Some(e) => Some(Guard(e.isPrivate, e.isAdmin, token, typeUser))
  }

  /** Where a redirect lands: the relative "dashboard" resolves from the root.  Both
      redirect targets land on a declared route that is not admin-only. */
  function Resolve(target: string): (r: string)
    ensures target != DashboardTarget ==> r == target
    ensures target == Landing || target == DashboardTarget ==>
      Lookup(r).Some? && !Lookup(r).value.isAdmin.GetOr(false)
  {
    LookupLanding();
    LookupDashboard();
    if target == DashboardTarget then "/dashboard" else target
  }

  // ---- Properties of the guard ----

  lemma SignedOnPublicGoesToDashboard(isAdmin: Option<bool>, token: Option<string>, typeUser: Option<string>)
    requires IsSigned(token)
    ensures Guard(None, isAdmin, token, typeUser) == RedirectTo(DashboardTarget)
    ensures Guard(Some(false), isAdmin, token, typeUser) == RedirectTo(DashboardTarget)
  {
  }

  lemma VisitorOnPrivateGoesToLanding(isAdmin: Option<bool>, token: Option<string>, typeUser: Option<string>)
    requires !IsSigned(token)
    ensures Guard(Some(true), isAdmin, token, typeUser) == RedirectTo(Landing)
  {
  }

  /** A signed-in non-admin on an admin page is sent to the landing page first, which
      then sends them on to the dashboard, which renders. */
  lemma {:induction false} NonAdminBouncesThroughLanding(path: string, token: Option<string>, typeUser: Option<string>)
    requires path == "/vendedor" || path == "/empresa"
    requires IsSigned(token) && typeUser != Some(AdminType)
    ensures Visit(path, token, typeUser) == Some(RedirectTo(Landing))
    ensures Visit(Landing, token, typeUser) == Some(RedirectTo(DashboardTarget))
    ensures Visit(Resolve(DashboardTarget), token, typeUser) == Some(Render)
  {
    LookupLanding();
    LookupDashboard();
    LookupAdminPage(path);
  }

  lemma LookupLanding()
    ensures Lookup(Landing) == Some(Routes[0])
  {
  }

  lemma {:induction false} LookupDashboard()
    ensures Lookup("/dashboard") == Some(Routes[1])
  {
    assert Routes[0].path != "/dashboard";
    assert LookupIn(Routes, "/dashboard") == LookupIn(Routes[1..], "/dashboard");
  }

  lemma {:induction false} LookupAdminPage(path: string)
    requires path == "/vendedor" || path == "/empresa"
    ensures Lookup(path).Some? && IsAdminRoute(Lookup(path).value) && IsPrivateRoute(Lookup(path).value)
  {
    assert |Routes[0].path| != |path|;
    if path == "/vendedor" {
      assert Routes[1].path[1] != path[1];
      LookupFinds(Routes, path, 2);
    } else {
      assert Routes[1].path[1] != path[1];
      assert Routes[2].path[1] != path[1];
      assert Routes[3].path[1] != path[1];
      assert Routes[4].path[1] != path[1];
      assert |Routes[5].path| != |path|;
      LookupFinds(Routes, path, 6);
    }
  }

  /** Lookup finds the first entry with the path. */
  lemma {:induction false} LookupFinds(table: seq<RouteEntry>, path: string, k: nat)
    requires k < |table| && table[k].path == path
    requires forall j :: 0 <= j < k ==> table[j].path != path
    ensures LookupIn(table, path) == Some(table[k])
    decreases k
  {
    if k > 0 {
      assert table[0].path != path;
      LookupFinds(table[1..], path, k - 1);
    }
  }

  // ---- Properties of the table ----

  /** "/" is the only public route and the only exact one. */
  lemma LandingIsOnlyPublicRoute(e: RouteEntry)
    requires e in Routes
    ensures !IsPrivateRoute(e) <==> e.path == Landing
    ensures e.exact <==> e.path == Landing
  {
  }

  /** The admin routes are exactly "/vendedor" and "/empresa", and both are private. */
  lemma AdminRoutes(e: RouteEntry)
    requires e in Routes
    ensures IsAdminRoute(e) <==> e.path == "/vendedor" || e.path == "/empresa"
    ensures IsAdminRoute(e) ==> IsPrivateRoute(e)
  {
  }

  /** Signed in, a non-admin reaches every private route but the admin ones; an admin
      reaches them all. */
  lemma PrivateReach(e: RouteEntry, token: Option<string>, typeUser: Option<string>)
    requires e in Routes && IsPrivateRoute(e) && IsSigned(token)
    ensures typeUser == Some(AdminType) ==> Guard(e.isPrivate, e.isAdmin, token, typeUser) == Render
    ensures typeUser != Some(AdminType) ==>
      (Guard(e.isPrivate, e.isAdmin, token, typeUser) == Render <==> e.path != "/vendedor" && e.path != "/empresa")
  {
  }

  /** Every path is declared once, so lookup by path is unambiguous. */
  lemma PathsDistinct()
    ensures forall i, j :: 0 <= i < j < |Routes| ==> Routes[i].path != Routes[j].path
  {
  }
}

=== FILE: sale_list.dfy ===
/**
 * The Sale list page: the generic list controller plus a `load` flag in the fetch
 * effect's dependencies (the reload signal installments and the paid toggle raise), the
 * paid toggle of a sale, and the payment-method captions.
 *
 * As written, the effect that fetches also clears the flag when data arrives, and that
 * change is itself a dependency change: every reload (and the mount) fetches the page a
 * second time, and a reload whose fetch brings no data leaves the flag set, so that the
 * next reload changes nothing and fetches nothing.  `SettleAsWritten` models that, and
 * the paid toggles run on it.  `SettleReload` models the evidently intended behaviour, a
 * reload counter that the effect never changes; `ToggleFetchesOnceCorrected` states what
 * the toggles do with it.
 */
module SaleList {
  import opened Wrappers
  import opened JsText
  import opened Feedback
  import opened Api
  import opened ListController

  /** A sale row as the page uses it: the server sends `paid` as the text "true"/"false". */
  datatype SaleRow = SaleRow(id: string, paid: string, methodPayment: string)

  // ---- The reload flag as written ----

  /** The effect's dependencies: the list's and the `load` flag (`undefined` at mount). */
  datatype LoadDeps = LoadDeps(list: Deps, load: Option<bool>)

  datatype LoadState<R> = LoadState(list: ListState<R>, load: Option<bool>, ranFor: Option<LoadDeps>)

  function LoadDepsOf<R>(s: LoadState<R>): LoadDeps { LoadDeps(DepsOf(s.list), s.load) }

  predicate LoadSettled<R>(s: LoadState<R>) { s.ranFor == Some(LoadDepsOf(s)) }

  function InitLoad<R>(): (s: LoadState<R>)
    ensures s.load.None? && !LoadSettled(s)
  {
    LoadState(InitList(), None, None)
  }

  /** `handleLoad`: raise the flag. */
  function HandleLoad<R>(s: LoadState<R>): (r: LoadState<R>)
    ensures r.load == Some(true) && r.list == s.list && r.ranFor == s.ranFor
  {
    s.(load := Some(true))
  }

  /** One run of the page's effect: the usual fetch, and `setLoad(false)` on data. */
  function RunLoadFetch<R>(s: LoadState<R>, answer: Option<Page<R>>): (r: LoadState<R>)
    ensures r.list == RunFetch(s.list, answer) && r.ranFor == Some(LoadDepsOf(s))
    ensures answer.Some? ==> r.load == Some(false)
    ensures answer.None? ==> r.load == s.load && LoadSettled(r)
  {
    LoadState(RunFetch(s.list, answer), if answer.Some? then Some(false) else s.load, Some(LoadDepsOf(s)))
  }

  /** Effect runs still to come at most: a run that clears the flag causes one more. */
  function Pending<R>(s: LoadState<R>): nat
  {
    if LoadSettled(s) then 0 else if s.load != Some(false) then 2 else 1
  }

  datatype LoadSettling<R> = LoadSettling(state: LoadState<R>, fetches: nat)

  /** React re-runs the effect until its dependencies stop changing. */
  function SettleAsWritten<R>(s: LoadState<R>, respond: ListVars -> Option<Page<R>>): (r: LoadSettling<R>)
    ensures LoadSettled(r.state) && DepsOf(r.state.list) == DepsOf(s.list)
    ensures r.fetches == 0 <==> LoadSettled(s)
    ensures r.fetches <= Pending(s)
    decreases Pending(s)
  {
    if LoadSettled(s) then LoadSettling(s, 0)
    else
      var t := RunLoadFetch(s, respond(FetchVars(s.list)));
      var u := SettleAsWritten(t, respond);
      LoadSettling(u.state, u.fetches + 1)
  }

  /** A server that always answers with data. */
  ghost predicate AlwaysAnswers<R>(respond: ListVars -> Option<Page<R>>)
  {
    forall v :: respond(v).Some?
  }

  /** As written, one reload fetches the current page twice. */
  lemma {:induction false} ReloadFetchesTwiceAsWritten<R>(s: LoadState<R>, respond: ListVars -> Option<Page<R>>)
    requires LoadSettled(s) && s.load == Some(false) && AlwaysAnswers(respond)
    ensures SettleAsWritten(HandleLoad(s), respond).fetches == 2
  {
    var h := HandleLoad(s);
    var t := RunLoadFetch(h, respond(FetchVars(h.list)));
    assert t.load == Some(false) && !LoadSettled(t);
    var u := RunLoadFetch(t, respond(FetchVars(t.list)));
    assert LoadSettled(u);
    assert SettleAsWritten(u, respond).fetches == 0;
  }

  /** As written, mounting the page fetches twice as well (`undefined` becomes `false`). */
  lemma {:induction false} MountFetchesTwiceAsWritten<R>(respond: ListVars -> Option<Page<R>>)
    requires AlwaysAnswers(respond)
    ensures SettleAsWritten(InitLoad<R>(), respond).fetches == 2
  {
    var s := InitLoad<R>();
    var t := RunLoadFetch(s, respond(FetchVars(s.list)));
    assert t.load == Some(false) && !LoadSettled(t);
    var u := RunLoadFetch(t, respond(FetchVars(t.list)));
    assert LoadSettled(u);
  }

  /** As written, once a reload's fetch came back without data the flag stays raised, and
      the next reload is lost. */
  lemma {:induction false} ReloadLostAsWritten<R>(s: LoadState<R>, respond: ListVars -> Option<Page<R>>)
    requires LoadSettled(s) && s.load == Some(true)
    ensures SettleAsWritten(HandleLoad(s), respond).fetches == 0
  {
  }

  /** How the flag gets stuck: a settled page, a reload, a server without data. */
  lemma {:induction false} FlagStuckAfterEmptyAnswer<R>(s: LoadState<R>)
    requires LoadSettled(s) && s.load == Some(false)
    ensures var r := SettleAsWritten(HandleLoad(s), (v: ListVars) => None).state;
      LoadSettled(r) && r.load == Some(true)
  {
    var h := HandleLoad(s);
    var t := RunLoadFetch(h, None);
    assert LoadSettled(t);
  }

  // ---- The reload as intended: a counter the effect never changes ----

  datatype ReloadDeps = ReloadDeps(list: Deps, reloads: nat)

  datatype ReloadState<R> = ReloadState(list: ListState<R>, reloads: nat, ranFor: Option<ReloadDeps>)

  function ReloadDepsOf<R>(s: ReloadState<R>): ReloadDeps { ReloadDeps(DepsOf(s.list), s.reloads) }

  predicate ReloadSettled<R>(s: ReloadState<R>) { s.ranFor == Some(ReloadDepsOf(s)) }

  function InitReload<R>(): (s: ReloadState<R>)
    ensures s.reloads == 0 && !ReloadSettled(s)
  {
    ReloadState(InitList(), 0, None)
  }

  /** A reload request: every request changes the dependency. */
  function Reload<R>(s: ReloadState<R>): (r: ReloadState<R>)
    ensures r.reloads == s.reloads + 1 && r.list == s.list && r.ranFor == s.ranFor
    ensures ReloadSettled(s) ==> !ReloadSettled(r)
  {
    s.(reloads := s.reloads + 1)
  }

  datatype ReloadSettling<R> = ReloadSettling(state: ReloadState<R>, fetches: nat)

  /** The effect fetches and leaves its dependencies alone, so one run settles it. */
  function SettleReload<R>(s: ReloadState<R>, respond: ListVars -> Option<Page<R>>): (r: ReloadSettling<R>)
    ensures ReloadSettled(r.state) && DepsOf(r.state.list) == DepsOf(s.list) && r.state.reloads == s.reloads
    ensures r.fetches == 0 <==> ReloadSettled(s)
    ensures r.fetches <= 1
    ensures r.fetches == 1 ==> r.state.list == RunFetch(s.list, respond(FetchVars(s.list)))
  {
    if ReloadSettled(s) then ReloadSettling(s, 0)
    else
      var fetched := RunFetch(s.list, respond(FetchVars(s.list)));
      ReloadSettling(ReloadState(fetched, s.reloads, Some(ReloadDepsOf(s))), 1)
  }

  /** Every reload fetches the current page exactly once, whatever the server answers. */
  lemma ReloadFetchesOnce<R>(s: ReloadState<R>, respond: ListVars -> Option<Page<R>>)
    requires ReloadSettled(s)
    ensures var r := SettleReload(Reload(s), respond);
      r.fetches == 1 && r.state.list.vars == FetchVars(s.list)
  {
  }

  lemma MountFetchesOnce<R>(respond: ListVars -> Option<Page<R>>)
    ensures SettleReload(InitReload<R>(), respond).fetches == 1
  {
  }

  // ---- The paid toggle ----

  /** `handlePaidSale(row, row.paid === 'true')` sends the id parsed in base 10 and the
      negation of what the button shows. */
  function PaidSaleRequest(row: SaleRow): (r: Request)
    ensures r.PaidSale? && r.saleId == ParseInt(row.id)
    ensures r.paid <==> !ShownPaid(row.paid)
  {
    PaidSale(ParseInt(row.id), !ShownPaid(row.paid))
  }

  /** The log of a confirmed paid toggle (of a sale or of an installment): send `request`;
      on success ask for a reload, then show the server's message as the title; on failure
      show the cleaned-up message.  `page` is not read: it only fixes the row type `R`. */
  function ToggleFlow<R>(page: ListState<R>, request: Request, confirmed: bool, outcome: Result<string>)
    : (r: seq<Effect<R>>)
    ensures !confirmed ==> r == []
    ensures confirmed ==> Requests(r) == [request]
    ensures confirmed && outcome.Ok? ==>
      Toasts(r) == [Toast(SuccessToast, outcome.value, Some(""))] && |r| == 3 && r[1] == RequestReload && r[2].Notify?
    ensures confirmed && outcome.Err? ==> Failures(r) == [outcome.message]
    ensures RequestReload in r <==> confirmed && outcome.Ok?
  {
    if !confirmed then []
    else
      var sent: seq<Effect<R>> := [Send(request)];
      match outcome
      case Ok(message) =>
        var tail: seq<Effect<R>> := [RequestReload, Notify(Toast(SuccessToast, message, Some("")))];
        RequestsAppend(sent, tail);
        RequestsOfQuiet(tail);
        ToastsAppend(sent, tail);
        assert Toasts(tail) == Toasts<R>(tail[1..]);
        sent + tail
      case Err(m) =>
        assert Requests(sent + [Fail(m)]) == Requests(sent) + Requests<R>([Fail(m)]);
        assert Failures(sent + [Fail(m)]) == Failures(sent) + Failures<R>([Fail(m)]);
        sent + [Fail(m)]
  }

  /** `handlePaidSale`: the toggle, whose reload is `handleLoad`, i.e. `setLoad(true)`. */
  function PaidSaleFlow<R>(s: LoadState<R>, row: SaleRow, confirmed: bool, outcome: Result<string>)
    : (r: (LoadState<R>, seq<Effect<R>>))
    ensures confirmed ==> Requests(r.1) == [PaidSaleRequest(row)]
    ensures confirmed && outcome.Ok? ==> r.0.load == Some(true) && r.0.list == s.list && r.0.ranFor == s.ranFor
    ensures !(confirmed && outcome.Ok?) ==> r.0 == s
    ensures !confirmed ==> r.1 == []
  {
    var log: seq<Effect<R>> := ToggleFlow(s.list, PaidSaleRequest(row), confirmed, outcome);
    (if confirmed && outcome.Ok? then HandleLoad(s) else s, log)
  }

  /** As written, an accepted toggle on a settled page fetches the page twice when the flag
      was lowered, and not at all when an earlier answer without data left it raised. */
  lemma {:induction false} PaidSaleRefetchAsWritten<R>(s: LoadState<R>, row: SaleRow, message: string, respond: ListVars -> Option<Page<R>>)
    requires LoadSettled(s)
    ensures var after := PaidSaleFlow(s, row, true, Ok(message)).0;
      && (s.load == Some(false) && AlwaysAnswers(respond) ==> SettleAsWritten(after, respond).fetches == 2)
      && (s.load == Some(true) ==> SettleAsWritten(after, respond).fetches == 0)
  {
    var after := PaidSaleFlow(s, row, true, Ok(message)).0;
    assert after == HandleLoad(s);
    if s.load == Some(false) && AlwaysAnswers(respond) {
      ReloadFetchesTwiceAsWritten(s, respond);
    }
    if s.load == Some(true) {
      ReloadLostAsWritten(s, respond);
    }
  }

  /** Corrected: the toggle whose reload bumps the reload counter. */
  function ToggleReload<R>(s: ReloadState<R>, request: Request, confirmed: bool, outcome: Result<string>)
    : (r: (ReloadState<R>, seq<Effect<R>>))
    ensures confirmed && outcome.Ok? ==> r.0.reloads == s.reloads + 1 && r.0.list == s.list
    ensures !(confirmed && outcome.Ok?) ==> r.0 == s
    ensures r.1 == ToggleFlow(s.list, request, confirmed, outcome)
  {
    var log: seq<Effect<R>> := ToggleFlow(s.list, request, confirmed, outcome);
    (if confirmed && outcome.Ok? then Reload(s) else s, log)
  }

  /** Corrected: with the reload counter in place of the flag, an accepted toggle on a
      settled page fetches the page it shows exactly once, whatever the server answers. */
  lemma {:induction false} ToggleFetchesOnceCorrected<R>(s: ReloadState<R>, request: Request, message: string, respond: ListVars -> Option<Page<R>>)
    requires ReloadSettled(s)
    ensures var settled := SettleReload(ToggleReload(s, request, true, Ok(message)).0, respond);
      settled.fetches == 1 && settled.state.list.vars == FetchVars(s.list)
  {
    var after := ToggleReload(s, request, true, Ok(message)).0;
    assert after == Reload(s);
    ReloadFetchesOnce(s, respond);
  }

  /** What the server stores for a toggle it accepted. */
  function StorePaid(row: SaleRow, paid: bool): (r: SaleRow)
    ensures ShownPaid(r.paid) == paid && r.id == row.id
  {
    row.(paid := if paid then "true" else "false")
  }

  /** Toggling an accepted toggle asks for the original state back, on the same sale. */
  lemma {:induction false} ToggleTwiceRestores(row: SaleRow, n: int)
    requires row.id == IntToString(n)
    ensures var first := PaidSaleRequest(row);
      var second := PaidSaleRequest(StorePaid(row, first.paid));
      first.saleId == Some(n) && second.saleId == Some(n) && second.paid == ShownPaid(row.paid)
  {
    ParseIntRoundTrip(n);
  }

  // ---- Payment method captions ----

  /** `methodPaymentReturn`: the caption of a known method, `undefined` otherwise. */
  function MethodPaymentCaption(m: string): (r: Option<string>)
    ensures r.Some? <==> m == "cartão" || m == "avista" || m == "parcelado"
  {
    if m == "cartão" then Some("Cartão")
    else if m == "avista" then Some("Á vista")
    else if m == "parcelado" then Some("Parcelado")
    else None
  }

  /** Different known methods get different captions. */
  lemma {:induction false} CaptionsDistinguishMethods(a: string, b: string)
    requires MethodPaymentCaption(a).Some? && MethodPaymentCaption(a) == MethodPaymentCaption(b)
    ensures a == b
  {
    assert "Cartão" != "Á vista" && "Cartão" != "Parcelado" && "Á vista" != "Parcelado" by {
      assert "Cartão"[0] != "Á vista"[0] && "Cartão"[0] != "Parcelado"[0] && "Á vista"[0] != "Parcelado"[0];
    }
  }
}

=== FILE: schema.dfy ===
/**
 * The pieces of the Yup validation library the forms use, evaluated as the forms call
 * it (`abortEarly: false`): every failing test contributes its message.  The model puts
 * the messages in the order the fields are declared and, within a field, the order its
 * tests are declared.
 */
module Schema {
  import opened Wrappers
  import opened JsText

  /** One test: no message when it passes, its message when it fails. */
  function Check(passes: bool, message: string): (r: seq<string>)
    ensures passes <==> r == []
    ensures !passes ==> r == [message]
  {
    if passes then [] else [message]
  }

  /** `string().required(message)`: a string is present unless it is missing or "". */
  function Required(v: Option<string>, message: string): (r: seq<string>)
    ensures r == [] <==> v.Some? && v.value != ""
  {
    Check(v.Some? && v.value != "", message)
  }

  /** `string().matches(re, message)`: skipped for a missing value and, since the forms do
      not set `excludeEmptyString`, applied to "" like to any other string. */
  function Matches(v: Option<string>, accepted: bool, message: string): (r: seq<string>)
    ensures r == [] <==> v.None? || accepted
  {
    Check(v.None? || accepted, message)
  }

  /** `string().max(n, message)`: skipped for a missing value; the length compared is
      JavaScript's, in UTF-16 code units. */
  function MaxLength(v: Option<string>, n: nat, message: string): (r: seq<string>)
    ensures r == [] <==> v.None? || Utf16Length(v.value) <= n
    ensures v.Some? && |v.value| > n ==> r == [message]
  {
    Check(v.None? || Utf16Length(v.value) <= n, message)
  }

  /** Yup's default message for a failed `email()` test of the field `email`. */
  const EmailDefaultMessage: string := "email must be a valid email"

  /** `string().email()`: skipped for a missing value and for "" (Yup sets
      `excludeEmptyString` for this test); `isEmail` is Yup's own address pattern, which
      the model leaves abstract. */
  function Email(v: Option<string>, isEmail: string -> bool): (r: seq<string>)
    ensures r == [] <==> v.None? || v.value == "" || isEmail(v.value)
  {
    Check(v.None? || v.value == "" || isEmail(v.value), EmailDefaultMessage)
  }

  /** `oneOf([ref(other), null], message)`: a missing value passes; a present one must
      equal the referenced field. */
  function OneOfRef(v: Option<string>, other: Option<string>, message: string): (r: seq<string>)
    ensures r == [] <==> v.None? || v == other
  {
    Check(v.None? || v == other, message)
  }

  /** `array().min(n, message)` on an array the form always supplies. */
  function MinItems<T>(items: seq<T>, n: nat, message: string): (r: seq<string>)
    ensures r == [] <==> |items| >= n
  {
    Check(|items| >= n, message)
  }

  /** What a `number()` schema sees after casting: a finite number or `NaN`. */
  datatype NumberValue = NaN | Finite(x: real)

  /** The string with every `\s` character removed. */
  function RemoveWhitespace(s: string): (r: string)
    ensures |r| <= |s|
    ensures forall i :: 0 <= i < |r| ==> !IsJsWhitespace(r[i])
    ensures AllWhitespace(s) ==> r == ""
  {
    if |s| == 0 then ""
    else (if IsJsWhitespace(s[0]) then "" else [s[0]]) + RemoveWhitespace(s[1..])
  }

  /** Yup's `number()` cast of a text value: nothing but whitespace is `NaN`; anything else
      goes through JavaScript's numeric conversion, `toNumber`, left abstract. */
  function TextToNumber(s: string, toNumber: string -> NumberValue): (r: NumberValue)
    ensures AllWhitespace(s) ==> r == NaN
  {
    var t := RemoveWhitespace(s);
    if t == "" then NaN else toNumber(t)
  }

  predicate IsInteger(x: real) { x == x.Floor as real }

  /** `number().integer(notInteger).required(_).typeError(typeError)`: a value whose cast
      failed reports the type error alone; a defined number always passes `required`. */
  function IntegerNumber(v: NumberValue, notInteger: string, typeError: string): (r: seq<string>)
    ensures v.NaN? ==> r == [typeError]
    ensures v.Finite? ==> (r == [] <==> IsInteger(v.x))
  {
    match v
    case NaN => [typeError]
    case Finite(x) => Check(IsInteger(x), notInteger)
  }

  /** `number().min(least, tooSmall).required(_).typeError(typeError)`. */
  function AtLeastNumber(v: NumberValue, least: real, tooSmall: string, typeError: string): (r: seq<string>)
    ensures v.NaN? ==> r == [typeError]
    ensures v.Finite? ==> (r == [] <==> v.x >= least)
  {
    match v
    case NaN => [typeError]
    case Finite(x) => Check(x >= least, tooSmall)
  }
}

=== FILE: select_field.dfy ===
/**
 * The Select form component (a react-select wrapped for the form library): how it
 * reads its value back, which options it preselects from the form's default value,
 * and when it renders at all.  Option values are record identifiers.
 */
module SelectField {
  import opened Wrappers

  /** A react-select option. */
  datatype Choice<V> = Choice(value: V, caption: string)

  /** A record offered as an option: anything with an `id` and a `name`. */
  datatype Named = Named(id: int, name: string)

  /** What a single select hands to the form: "" when nothing is selected. */
  datatype Single<V> = Blank | Picked(value: V)

  /** `getValue` of a single select: the first selected option's value, or "". */
  function SingleValue<V>(selected: seq<Choice<V>>): (r: Single<V>)
    ensures r.Blank? <==> |selected| == 0
    ensures r.Picked? ==> r.value == selected[0].value
  {
    if |selected| <= 0 then Blank else Picked(selected[0].value)
  }

  /** `getValue` of a multi select: [] when the selection is null, else the selected
      values in order. */
  function MultiValue<V>(selected: Option<seq<Choice<V>>>): (r: seq<V>)
    ensures selected.None? ==> r == []
    ensures selected.Some? ==> |r| == |selected.value|
    ensures selected.Some? ==> forall i :: 0 <= i < |r| ==> r[i] == selected.value[i].value
  {
    match selected
    case None => []
    case Some(chosen) => seq(|chosen|, i requires 0 <= i < |chosen| => chosen[i].value)
  }

  /** Records become options `{value: id, label: name}` (the label is `caption` here), in order. */
  function OptionsFrom(records: seq<Named>): (r: seq<Choice<int>>)
    ensures |r| == |records|
    ensures forall i :: 0 <= i < |r| ==> r[i].value == records[i].id && r[i].caption == records[i].name
  {
    seq(|records|, i requires 0 <= i < |records| => Choice(records[i].id, records[i].name))
  }

  /** `a` is `b` with some elements left out: `a`'s elements occur in `b` in the same order. */
  ghost predicate Subsequence<T>(a: seq<T>, b: seq<T>)
    decreases |b|
  {
    |a| == 0 || (|b| > 0 && if a[0] == b[0] then Subsequence(a[1..], b[1..]) else Subsequence(a, b[1..]))
  }

  /** `options.filter(({value}) => value === v)`: the options whose value is `v`, each as
      often as it is offered, in the options' order. */
  function WithValue(options: seq<Choice<int>>, v: int): (r: seq<Choice<int>>)
    ensures forall o :: multiset(r)[o] == if o.value == v then multiset(options)[o] else 0
    ensures forall i :: 0 <= i < |r| ==> r[i].value == v
    ensures Subsequence(r, options)
  {
    if |options| == 0 then []
    else
      assert options == [options[0]] + options[1..];
      var rest := WithValue(options[1..], v);
      if options[0].value == v then
        assert ([options[0]] + rest)[1..] == rest;
        [options[0]] + rest
      else
        assert |rest| > 0 ==> rest[0] != options[0];
        rest
  }

  /** The multi select's filter: the options whose value is one of `ids`, each as often as
      it is offered, in the options' order (the order of `ids` plays no part). */
  function WithValueIn(options: seq<Choice<int>>, ids: seq<int>): (r: seq<Choice<int>>)
    ensures forall o :: multiset(r)[o] == if o.value in ids then multiset(options)[o] else 0
    ensures forall i :: 0 <= i < |r| ==> r[i].value in ids
    ensures Subsequence(r, options)
  {
    if |options| == 0 then []
    else
      assert options == [options[0]] + options[1..];
      var rest := WithValueIn(options[1..], ids);
      if options[0].value in ids then
        assert ([options[0]] + rest)[1..] == rest;
        [options[0]] + rest
      else
        assert |rest| > 0 ==> rest[0] != options[0];
        rest
  }

  /** The values the multi select hands back after preselecting with `ids`: exactly the
      offered values that are among `ids`, in the options' order. */
  lemma PreselectedValues(options: seq<Choice<int>>, ids: seq<int>)
    ensures var vals := MultiValue(Some(WithValueIn(options, ids)));
      && Subsequence(vals, MultiValue(Some(options)))
      && forall k :: k in vals <==> k in ids && k in MultiValue(Some(options))
  {
    PreselectedValuesOrder(options, ids);
    PreselectedValuesMembers(options, ids);
  }

  /** The values of options offered one after the other. */
  lemma ValuesCons(o: Choice<int>, rest: seq<Choice<int>>)
    ensures MultiValue(Some([o] + rest)) == [o.value] + MultiValue(Some(rest))
  {
    var a := MultiValue(Some([o] + rest));
    var b := [o.value] + MultiValue(Some(rest));
    assert |a| == |b|;
    forall i | 0 <= i < |a|
      ensures a[i] == b[i]
    {
      if i > 0 {
        assert ([o] + rest)[i] == rest[i - 1];
      }
    }
  }

  /** The multi select follows the options' order, not the default's: ids 2, 1 and 3
      over options 1 then 2 hand back 1 then 2. */
  lemma {:induction false} FilterFollowsOptions()
    ensures MultiValue(Some(WithValueIn([Choice(1, "A"), Choice(2, "B")], [2, 1, 3]))) == [1, 2]
  {
    var options := [Choice(1, "A"), Choice(2, "B")];
    var ids := [2, 1, 3];
    assert WithValueIn(options[1..][1..], ids) == [];
    assert 2 in ids && 1 in ids;
    assert WithValueIn(options[1..], ids) == [Choice(2, "B")];
    assert WithValueIn(options, ids) == options;
    var vals := MultiValue(Some(options));
    assert |vals| == 2 && vals[0] == 1 && vals[1] == 2;
  }

  lemma {:induction false} PreselectedValuesOrder(options: seq<Choice<int>>, ids: seq<int>)
    ensures Subsequence(MultiValue(Some(WithValueIn(options, ids))), MultiValue(Some(options)))
    decreases |options|
  {
    if |options| > 0 {
      var rest := WithValueIn(options[1..], ids);
      var restVals := MultiValue(Some(rest));
      var allRest := MultiValue(Some(options[1..]));
      PreselectedValuesOrder(options[1..], ids);
      assert options == [options[0]] + options[1..];
      ValuesCons(options[0], options[1..]);
      if options[0].value in ids {
        ValuesCons(options[0], rest);
        SubsequenceKeep(options[0].value, restVals, allRest);
      } else {
        if |restVals| > 0 {
          assert restVals[0] == rest[0].value;
        }
        SubsequenceSkip(restVals, options[0].value, allRest);
      }
    }
  }

  /** A common first element extends a subsequence. */
  lemma SubsequenceKeep<T>(x: T, a: seq<T>, b: seq<T>)
    requires Subsequence(a, b)
    ensures Subsequence([x] + a, [x] + b)
  {
    assert ([x] + a)[1..] == a && ([x] + b)[1..] == b;
  }

  /** An element of `b` that does not start `a` can be skipped. */
  lemma SubsequenceSkip<T>(a: seq<T>, x: T, b: seq<T>)
    requires Subsequence(a, b) && (|a| == 0 || a[0] != x)
    ensures Subsequence(a, [x] + b)
  {
    assert ([x] + b)[1..] == b;
  }

  lemma {:induction false} PreselectedValuesMembers(options: seq<Choice<int>>, ids: seq<int>)
    ensures forall k :: k in MultiValue(Some(WithValueIn(options, ids))) <==> k in ids && k in MultiValue(Some(options))
    decreases |options|
  {
    if |options| > 0 {
      var rest := WithValueIn(options[1..], ids);
      PreselectedValuesMembers(options[1..], ids);
      assert options == [options[0]] + options[1..];
      ValuesCons(options[0], options[1..]);
      if options[0].value in ids {
        ValuesCons(options[0], rest);
      }
    }
  }

  /** JavaScript truthiness of a numeric default value: 0 is falsy. */
  predicate SingleDefaultTruthy(d: Option<int>) { d.Some? && d.value != 0 }

  /** An array default value is truthy even when it is empty. */
  predicate MultiDefaultTruthy(d: Option<seq<int>>) { d.Some? }

  /** The preselection of a single select once its options arrive: recomputed only when
      the default value is truthy, otherwise the previous one stays. */
  function PreselectSingle(options: seq<Choice<int>>, d: Option<int>, previous: seq<Choice<int>>)
    : (r: seq<Choice<int>>)
    ensures !SingleDefaultTruthy(d) ==> r == previous
    ensures SingleDefaultTruthy(d) ==> r == WithValue(options, d.value)
    ensures SingleDefaultTruthy(d) ==>
              (forall o :: multiset(r)[o] == if o.value == d.value then multiset(options)[o] else 0)
              && Subsequence(r, options)
  {
    if SingleDefaultTruthy(d) then WithValue(options, d.value) else previous
  }

  /** The preselection of a multi select: the options whose value is the id of some
      record of the default value. */
  function PreselectMulti(options: seq<Choice<int>>, d: Option<seq<int>>, previous: seq<Choice<int>>)
    : (r: seq<Choice<int>>)
    ensures !MultiDefaultTruthy(d) ==> r == previous
    ensures MultiDefaultTruthy(d) ==> r == WithValueIn(options, d.value)
    ensures MultiDefaultTruthy(d) ==>
              (forall o :: multiset(r)[o] == if o.value in d.value then multiset(options)[o] else 0)
              && Subsequence(r, options)
  {
    if MultiDefaultTruthy(d) then WithValueIn(options, d.value) else previous
  }

  /** The widget is drawn when something is preselected or there is no default value. */
  predicate Renders(preselection: seq<Choice<int>>, defaultTruthy: bool)
  {
    |preselection| > 0 || !defaultTruthy
  }

  /** A multi select whose default value is an empty array never draws: the default is
      truthy and nothing can match it. */
  lemma EmptyMultiDefaultHides(options: seq<Choice<int>>, previous: seq<Choice<int>>)
    ensures !Renders(PreselectMulti(options, Some([]), previous), MultiDefaultTruthy(Some([])))
  {
  }

  /** A single select whose default matches no option never draws. */
  lemma UnmatchedSingleDefaultHides(options: seq<Choice<int>>, v: int, previous: seq<Choice<int>>)
    requires v != 0
    requires forall i :: 0 <= i < |options| ==> options[i].value != v
    ensures !Renders(PreselectSingle(options, Some(v), previous), true)
  {
  }

  /** With no default value the widget always draws. */
  lemma NoDefaultRenders(preselection: seq<Choice<int>>)
    ensures Renders(preselection, SingleDefaultTruthy(None))
    ensures Renders(preselection, MultiDefaultTruthy(None))
  {
  }
}

=== FILE: session.dfy ===
/**
 * The session store: one token kept in the browser's storage under a fixed key and in
 * memory, and the user and user type derived from it.  `decode` is the token decoder,
 * left abstract; it yields the token's `user` claim.
 */
module Session {
  import opened Wrappers
  import opened JsText
  import opened SelectField

  const TokenKey: string := "@ControlReg:jwtToken"

  /** Browser key/value storage. */
  type Storage = map<string, string>

  /** The `user` claim of a token; a field absent from the claim is `None`. */
  datatype User = User(
    id: Option<string>, name: Option<string>, email: Option<string>,
    typeUser: Option<string>, companies: Option<seq<Named>>)

  /** `{} as User`: every field absent. */
  const EmptyUser: User := User(None, None, None, None, None)

  datatype AuthState = AuthState(storage: Storage, token: Option<string>)

  /** Mounting the provider: the token is whatever the storage holds under the key. */
  function Mount(storage: Storage): (s: AuthState)
    ensures s.storage == storage
    ensures s.token.Some? <==> TokenKey in storage
    ensures TokenKey in storage ==> s.token == Some(storage[TokenKey])
  {
    AuthState(storage, if TokenKey in storage then Some(storage[TokenKey]) else None)
  }

  function SignIn(s: AuthState, t: string): (r: AuthState)
    ensures r.token == Some(t) && TokenKey in r.storage && r.storage[TokenKey] == t
    ensures forall k :: k != TokenKey ==> (k in r.storage <==> k in s.storage)
    ensures forall k :: k != TokenKey && k in s.storage ==> r.storage[k] == s.storage[k]
  {
    AuthState(s.storage[TokenKey := t], Some(t))
  }

  function SignOut(s: AuthState): (r: AuthState)
    ensures r.token.None? && TokenKey !in r.storage
    ensures forall k :: k != TokenKey ==> (k in r.storage <==> k in s.storage)
    ensures forall k :: k != TokenKey && k in s.storage ==> r.storage[k] == s.storage[k]
  {
    AuthState(s.storage - {TokenKey}, None)
  }

  /** `!!token`: present and not "". */
  predicate Signed(s: AuthState) { s.token.Some? && Truthy(s.token.value) }

  function GetUser(s: AuthState, decode: string -> User): (u: User)
    ensures !Signed(s) ==> u == EmptyUser
    ensures Signed(s) ==> u == decode(s.token.value)
  {
    if !Signed(s) then EmptyUser else decode(s.token.value)
  }

  /** The user type; "" without a token, the claim's (possibly absent) field otherwise. */
  function TypeUser(s: AuthState, decode: string -> User): (t: Option<string>)
    ensures !Signed(s) ==> t == Some("")
    ensures Signed(s) ==> t == decode(s.token.value).typeUser
  {
    if !Signed(s) then Some("") else decode(s.token.value).typeUser
  }

  /** With a token, the user type is the decoded user's type. */
  lemma TypeUserOfUser(s: AuthState, decode: string -> User)
    requires Signed(s)
    ensures TypeUser(s, decode) == GetUser(s, decode).typeUser
  {
  }

  /** Signing out twice is signing out once. */
  lemma SignOutIdempotent(s: AuthState)
    ensures SignOut(SignOut(s)) == SignOut(s)
  {
  }

  /** Whatever the starting state, signing in then out leaves no token stored. */
  lemma SignInThenOut(s: AuthState, t: string)
    ensures TokenKey !in SignOut(SignIn(s, t)).storage && SignOut(SignIn(s, t)).token.None?
  {
  }

  /** A signed-in session survives a reload of the page; a signed-out one does not come
      back. */
  lemma SessionPersists(s: AuthState, t: string)
    ensures Mount(SignIn(s, t).storage) == SignIn(s, t)
    ensures Mount(SignOut(s).storage) == SignOut(s)
  {
  }
}

=== FILE: submit.dfy ===
/**
 * The submit handlers of the modal forms.  Each one validates, sends one mutation, and
 * on success resets the form, closes the modal, shows a success toast and refetches the
 * first page of the list behind the modal.  A validation failure shows one toast per
 * message and sends nothing; a failed call shows one cleaned-up failure toast.
 */
module Submit {
  import opened Wrappers
  import opened JsText
  import opened Feedback
  import opened Api
  import opened Schema
  import opened SelectField
  import opened Forms

  const CreatedTitle: string := "Cadastro realizado com sucesso!"
  const EditedTitle: string := "Edição realizada com sucesso!"
  const ProfileNotice: string := "Ação só será efetuada quando for efetuado o login novamente!"

  /** Every user the user form saves is a salesman. */
  const SalesmanType: string := "salesman"

  /** One `Notify` per toast, in order. */
  function NotifyAll<R>(toasts: seq<Toast>): (r: seq<Effect<R>>)
    ensures Toasts(r) == toasts
    ensures forall e :: e in r ==> e.Notify?
    decreases |toasts|
  {
    if |toasts| == 0 then []
    else
      var rest := NotifyAll(toasts[1..]);
      ToastsAppend([Notify(toasts[0])], rest);
      [Notify(toasts[0])] + rest
  }

  /** The handler's skeleton: validate, maybe close the modal, send `request`, and go on
      with `saved` when the mutation (`sent`) succeeds. */
  function SubmitFlow<R>(errors: seq<string>, closeEarly: bool, request: Request,
                         sent: Result<Unit>, saved: seq<Effect<R>>): (r: seq<Effect<R>>)
    ensures errors != [] ==>
      Requests(r) == [] && Toasts(r) == ValidationToasts(errors) && Failures(r) == []
    ensures errors == [] && sent.Err? ==>
      Requests(r) == [request] && Toasts(r) == [] && Failures(r) == [sent.message]
    ensures errors == [] && sent.Ok? ==>
      Requests(r) == [request] + Requests(saved) && Toasts(r) == Toasts(saved)
      && Failures(r) == Failures(saved)
    ensures CloseModal in r ==> errors == [] && (closeEarly || CloseModal in saved)
    ensures errors == [] && closeEarly ==> |r| >= 2 && r[0] == CloseModal && r[1] == Send(request)
    ensures errors == [] && !closeEarly ==> |r| >= 1 && r[0] == Send(request)
    ensures forall e :: e in r ==>
      e.Notify? || (errors == [] && (e == CloseModal || e == Send(request) || (sent.Err? && e == Fail(sent.message))
                                     || (sent.Ok? && e in saved)))
  {
    if errors != [] then
      var r := NotifyAll(ValidationToasts(errors));
      RequestsOfQuiet(r);
      FailuresOfQuiet(r);
      r
    else
      var opening := (if closeEarly then [CloseModal] else []) + [Send(request)];
      var outcome := match sent
        case Err(m) => [Fail(m)]
        case Ok(_) => saved;
      RequestsAppend(opening, outcome);
      ToastsAppend(opening, outcome);
      FailuresAppend(opening, outcome);
      ToastsOfQuiet(opening);
      FailuresOfQuiet(opening);
      opening + outcome
  }

  /** What the list pages do after a successful mutation: `refreshed` is the answer to
      the refetch of the first page. */
  function SavedTail<R>(title: string, pageSize: int, refreshed: Result<Page<R>>): (r: seq<Effect<R>>)
    ensures Requests(r) == []
    ensures Toasts(r) == [Toast(SuccessToast, title, Some(""))]
    ensures refreshed.Ok? ==> Failures(r) == []
    ensures refreshed.Err? ==> Failures(r) == [refreshed.message]
  {
    var success := Toast(SuccessToast, title, Some(""));
    var before: seq<Effect<R>> := [ResetForm, CloseModal];
    var refetch: seq<Effect<R>> := [Refetch(FirstPage(pageSize))];
    var head := before + [Notify(success)] + refetch;
    OneNotice(before, success, refetch);
    var loaded: seq<Effect<R>> := match refreshed
      case Err(m) => [Fail(m)]
      case Ok(p) => [LoadRows(p.rows), SetCount(p.count)];
    ToastsOfQuiet(loaded);
    RequestsOfQuiet(loaded);
    ToastsAppend(head, loaded);
    RequestsAppend(head, loaded);
    FailuresAppend(head, loaded);
    if refreshed.Ok? then FailuresOfQuiet(loaded); head + loaded
    else head + loaded
  }

  /** One notice between two quiet logs: one toast, nothing sent, nothing failed. */
  lemma OneNotice<R>(before: seq<Effect<R>>, t: Toast, after: seq<Effect<R>>)
    requires forall e :: e in before ==> e.ResetForm? || e.CloseModal? || e.Refetch?
    requires forall e :: e in after ==> e.ResetForm? || e.CloseModal? || e.Refetch?
    ensures var log := before + [Notify(t)] + after;
      Toasts(log) == [t] && Requests(log) == [] && Failures(log) == []
  {
    var notice: seq<Effect<R>> := [Notify(t)];
    ToastsOfQuiet(before);
    ToastsOfQuiet(after);
    ToastsAppend(before, notice);
    ToastsAppend(before + notice, after);
    assert Toasts(notice) == [t] + Toasts<R>([]);
    RequestsOfQuiet(before + notice + after);
    FailuresOfQuiet(before + notice + after);
  }

  /** After a save the form is reset, the modal closed and the first page refetched; the
      answer, when there is one, replaces the rows and the count. */
  lemma SavedTailEffects<R>(title: string, pageSize: int, refreshed: Result<Page<R>>)
    ensures var r := SavedTail(title, pageSize, refreshed);
      ResetForm in r && CloseModal in r && Refetch(FirstPage(pageSize)) in r
      && (refreshed.Ok? ==> LoadRows(refreshed.value.rows) in r && SetCount(refreshed.value.count) in r)
      && (refreshed.Err? ==> forall e :: e in r ==> !e.LoadRows? && !e.SetCount?)
  {
  }

  /** Creating when the hidden id input is empty, editing that id otherwise. */
  function SuccessTitle(id: string): (r: string)
    ensures r == CreatedTitle <==> !Truthy(id)
  {
    if !Truthy(id) then CreatedTitle else EditedTitle
  }

  // ---- Clients ----

  function ClientRequest(f: ClientForm): (r: Request)
    ensures r.CreateClient? || r.UpdateClient?
    ensures r.CreateClient? <==> !Truthy(f.id)
    ensures r.name == f.name && r.cellphone == f.cellphone
    ensures r.UpdateClient? ==> r.id == ParseInt(f.id)
  {
    if !Truthy(f.id) then CreateClient(f.name, f.cellphone)
    else UpdateClient(ParseInt(f.id), f.name, f.cellphone)
  }

  function SubmitClient<R>(f: ClientForm, pageSize: int, sent: Result<Unit>,
                           refreshed: Result<Page<R>>): (r: seq<Effect<R>>)
    ensures ClientErrors(f) != [] ==> Requests(r) == [] && Toasts(r) == ValidationToasts(ClientErrors(f))
    ensures ClientErrors(f) == [] ==> Requests(r) == [ClientRequest(f)]
    ensures ClientErrors(f) == [] ==> |r| >= 2 && r[0] == CloseModal && r[1] == Send(ClientRequest(f))
    ensures ClientErrors(f) != [] ==> CloseModal !in r
  {
    SubmitFlow(ClientErrors(f), true, ClientRequest(f), sent,
               SavedTail(SuccessTitle(f.id), pageSize, refreshed))
  }

  // ---- Companies ----

  function CompanyRequest(f: CompanyForm): (r: Request)
    ensures r.CreateCompany? || r.UpdateCompany?
    ensures r.CreateCompany? <==> !Truthy(f.id)
    ensures r.companyName == f.name
    ensures r.UpdateCompany? ==> r.id == ParseInt(f.id)
  {
    if !Truthy(f.id) then CreateCompany(f.name) else UpdateCompany(ParseInt(f.id), f.name)
  }

  function SubmitCompany<R>(f: CompanyForm, pageSize: int, sent: Result<Unit>,
                            refreshed: Result<Page<R>>): (r: seq<Effect<R>>)
    ensures CompanyErrors(f) != [] ==> Requests(r) == [] && Toasts(r) == ValidationToasts(CompanyErrors(f))
    ensures CompanyErrors(f) == [] ==> Requests(r) == [CompanyRequest(f)]
    ensures CompanyErrors(f) == [] ==> |r| >= 2 && r[0] == CloseModal && r[1] == Send(CompanyRequest(f))
    ensures CompanyErrors(f) != [] ==> CloseModal !in r
  {
    SubmitFlow(CompanyErrors(f), true, CompanyRequest(f), sent,
               SavedTail(SuccessTitle(f.id), pageSize, refreshed))
  }

  // ---- Products ----

  /** `parseInt(companyId, 10)` of the company the select picked (a number, so it is
      converted to its decimal text first). */
  function SelectedId(v: Single<int>): (r: Option<int>)
    ensures v.Picked? ==> r == Some(v.value)
    ensures v.Blank? ==> r.None?
  {
    match v
    case Blank => ParseInt("")
    case Picked(id) => ParseIntRoundTrip(id); ParseInt(IntToString(id))
  }

  function ProductRequest(f: ProductForm): (r: Request)
    ensures r.CreateProduct? || r.UpdateProduct?
    ensures r.CreateProduct? <==> !Truthy(f.id)
    ensures r.productName == f.name && r.priceText == f.price && r.category == f.category
    ensures r.amount == ParseInt(f.amount)
    ensures f.companyId.Picked? ==> r.companyId == Some(f.companyId.value)
    ensures r.UpdateProduct? ==> r.id == ParseInt(f.id)
  {
    if !Truthy(f.id) then
      CreateProduct(f.name, f.price, ParseInt(f.amount), f.category, SelectedId(f.companyId))
    else
      UpdateProduct(ParseInt(f.id), f.name, f.price, ParseInt(f.amount), f.category, SelectedId(f.companyId))
  }

  function SubmitProduct<R>(f: ProductForm, toNumber: string -> NumberValue, pageSize: int,
                            sent: Result<Unit>, refreshed: Result<Page<R>>): (r: seq<Effect<R>>)
    ensures ProductErrors(f, toNumber) != [] ==>
      Requests(r) == [] && Toasts(r) == ValidationToasts(ProductErrors(f, toNumber))
    ensures ProductErrors(f, toNumber) == [] ==> Requests(r) == [ProductRequest(f)]
  {
    SubmitFlow(ProductErrors(f, toNumber), true, ProductRequest(f), sent,
               SavedTail(SuccessTitle(f.id), pageSize, refreshed))
  }

  // ---- Sales ----

  /** A cash sale ("avista") is always of one unit; otherwise the amount input is parsed,
      and a hidden (absent) input parses to `NaN`. */
  function SaleAmount(f: SaleForm): (r: Option<int>)
    ensures f.methodPayment == "avista" ==> r == Some(1)
    ensures f.methodPayment != "avista" && f.amount.None? ==> r.None?
    ensures f.methodPayment != "avista" && f.amount.Some? ==> r == ParseInt(f.amount.value)
  {
    if f.methodPayment == "avista" then ParseIntRoundTrip(1); ParseInt(IntToString(1))
    else if f.amount.None? then None
    else ParseInt(f.amount.value)
  }

  /** `handleMethodPayment`: the amount input is visible unless the method just chosen
      is "avista"; it does not depend on what was chosen before. */
  function ChooseMethod(visible: bool, chosen: string): bool
  {
    chosen != "avista"
  }

  /** Visibility of the amount input after the given method choices, from `true`. */
  function AmountVisible(choices: seq<string>): (r: bool)
    ensures r <==> |choices| == 0 || choices[|choices| - 1] != "avista"
  {
    if |choices| == 0 then true
    else ChooseMethod(AmountVisible(choices[..|choices| - 1]), choices[|choices| - 1])
  }

  /** Whenever the amount input is hidden, the method submitted is the one that hid it and
      the sale is sent with one unit. */
  lemma HiddenAmountSendsOne(choices: seq<string>, f: SaleForm)
    requires !AmountVisible(choices) && f.methodPayment == choices[|choices| - 1]
    ensures SaleAmount(f) == Some(1)
  {
  }

  /** Sales are only ever created. */
  function SaleRequest(f: SaleForm): (r: Request)
    requires SaleErrors(f) == []
    ensures r.CreateSale? && r.price == f.price && r.saleAmount == SaleAmount(f)
    ensures r.dateSale == f.dateSale && r.methodPayment == f.methodPayment
    ensures f.clientId == Picked(r.clientId) && f.productId == Picked(r.productId)
  {
    CreateSale(f.price, SaleAmount(f), f.dateSale, f.methodPayment, f.clientId.value, f.productId.value)
  }

  function SubmitSale<R>(f: SaleForm, pageSize: int, sent: Result<Unit>,
                         refreshed: Result<Page<R>>): (r: seq<Effect<R>>)
    ensures SaleErrors(f) != [] ==> Requests(r) == [] && Toasts(r) == ValidationToasts(SaleErrors(f))
    ensures SaleErrors(f) == [] ==> Requests(r) == [SaleRequest(f)]
  {
    if SaleErrors(f) != [] then
      var r := NotifyAll(ValidationToasts(SaleErrors(f)));
      RequestsOfQuiet(r);
      r
    else SubmitFlow([], true, SaleRequest(f), sent, SavedTail(CreatedTitle, pageSize, refreshed))
  }

  // ---- Users ----

  function UserRequest(f: UserForm): (r: Request)
    ensures r.CreateUser? || r.UpdateUser?
    ensures r.CreateUser? <==> !Truthy(f.id)
    ensures r.userName == f.name && r.email == f.email && r.companies == f.companies
    ensures r.typeUser == SalesmanType
    ensures r.CreateUser? ==> r.password == f.password
    ensures r.UpdateUser? ==> r.id == ParseInt(f.id)
  {
    if !Truthy(f.id) then CreateUser(f.name, f.email, f.password, SalesmanType, f.companies)
    else UpdateUser(ParseInt(f.id), f.name, f.email, SalesmanType, f.companies)
  }

  /** The user form closes its modal only after the mutation succeeded. */
  function SubmitUser<R>(f: UserForm, isEmail: string -> bool, pageSize: int, sent: Result<Unit>,
                         refreshed: Result<Page<R>>): (r: seq<Effect<R>>)
    ensures UserErrors(f, isEmail) != [] ==>
      Requests(r) == [] && Toasts(r) == ValidationToasts(UserErrors(f, isEmail))
    ensures UserErrors(f, isEmail) == [] ==> Requests(r) == [UserRequest(f)]
    ensures CloseModal in r ==> UserErrors(f, isEmail) == [] && sent.Ok?
  {
    SubmitFlow(UserErrors(f, isEmail), false, UserRequest(f), sent,
               SavedTail(SuccessTitle(f.id), pageSize, refreshed))
  }

  // ---- Profile ----

  /** The profile keeps the signed-in user's own type. */
  function ProfileRequest(f: ProfileForm, signedInType: string): (r: Request)
    ensures r.UpdateProfile? && r.id == ParseInt(f.id) && r.typeUser == signedInType
    ensures r.userName == f.name && r.email == f.email && r.password == Some(f.password)
  {
    UpdateProfile(ParseInt(f.id), f.name, f.email, Some(f.password), signedInType)
  }

  /** The profile page has no modal and no list: it only notifies. */
  function SubmitProfile<R>(f: ProfileForm, isEmail: string -> bool, signedInType: string,
                            sent: Result<Unit>): (r: seq<Effect<R>>)
    ensures ProfileErrors(f, isEmail) != [] ==>
      Requests(r) == [] && Toasts(r) == ValidationToasts(ProfileErrors(f, isEmail))
    ensures ProfileErrors(f, isEmail) == [] ==> Requests(r) == [ProfileRequest(f, signedInType)]
    ensures ProfileErrors(f, isEmail) == [] && sent.Ok? ==>
      Toasts(r) == [Toast(SuccessToast, ProfileNotice, None)]
    ensures forall e :: e in r ==> !e.CloseModal? && !e.Refetch? && !e.ResetForm?
  {
    var saved: seq<Effect<R>> := [Notify(Toast(SuccessToast, ProfileNotice, None))];
    ProfileSaved(ProfileErrors(f, isEmail), ProfileRequest(f, signedInType), sent, saved);
    SubmitFlow(ProfileErrors(f, isEmail), false, ProfileRequest(f, signedInType), sent, saved)
  }

  /** The profile submit's skeleton, whose only follow-up is its notice. */
  lemma ProfileSaved<R>(errors: seq<string>, request: Request, sent: Result<Unit>, saved: seq<Effect<R>>)
    requires saved == [Notify(Toast(SuccessToast, ProfileNotice, None))]
    ensures var r := SubmitFlow(errors, false, request, sent, saved);
      && (errors != [] ==> Requests(r) == [] && Toasts(r) == ValidationToasts(errors))
      && (errors == [] ==> Requests(r) == [request])
      && (errors == [] && sent.Ok? ==> Toasts(r) == [Toast(SuccessToast, ProfileNotice, None)])
      && forall e :: e in r ==> !e.CloseModal? && !e.Refetch? && !e.ResetForm?
  {
    RequestsOfQuiet(saved);
    assert Toasts(saved) == [Toast(SuccessToast, ProfileNotice, None)] + Toasts<R>([]);
  }

  // ---- Properties across handlers ----

  /** Saving a record opened for editing updates that same record: the hidden input holds
      the decimal text of its id. */
  lemma {:induction false} EditUpdatesSameClient(id: int, name: string, cellphone: string)
    ensures ClientRequest(ClientForm(IntToString(id), name, cellphone)) == UpdateClient(Some(id), name, cellphone)
  {
    ParseIntRoundTrip(id);
    assert |IntToString(id)| > 0 by {
      if id < 0 { assert IntToString(id)[0] == '-'; } else { assert |NatToString(id)| > 0; }
    }
  }

  /** A successful save ends with the first page of the list loaded and counted. */
  lemma SavedListShowsFirstPage<R>(f: ClientForm, pageSize: int, page: Page<R>)
    requires ClientErrors(f) == []
    ensures var r := SubmitClient(f, pageSize, Ok(Unit), Ok(page));
      r[|r| - 3..] == [Refetch(FirstPage(pageSize)), LoadRows(page.rows), SetCount(page.count)]
  {
  }

  /** A failed mutation shows exactly its cleaned-up message and leaves the list alone. */
  lemma FailedSaveOnlyNotifies<R>(f: CompanyForm, pageSize: int, message: string, refreshed: Result<Page<R>>)
    requires CompanyErrors(f) == []
    ensures var r := SubmitCompany(f, pageSize, Err(message), refreshed);
      Failures(r) == [message] && Toasts(r) == []
      && forall e :: e in r ==> !e.Refetch? && !e.LoadRows? && !e.ResetForm?
  {
  }
}

=== FILE: wrappers.dfy ===
/** Failure-carrying wrappers shared by every module of the model. */
module Wrappers {

  /** A value that may be absent: JavaScript's `null`/`undefined` or a `NaN` result. */
  datatype Option<+T> = None | Some(value: T) {

    /** The wrapped value, or `default` when absent. */
    function GetOr(default: T): T
    {
      match this
      case Some(v) => v
      case None => default
    }
  }

  /** The outcome of a remote call: a value, or the message of the error it raised. */
  datatype Result<+T> = Ok(value: T) | Err(message: string)

  /** Marker for remote calls whose successful answer carries nothing the client uses. */
  datatype Unit = Unit
}
